=== FILE: README.md ===
# Storefront logic model

A Dafny model of the sequential logic under the views of a React clothing
storefront. It covers the cart store and checkout, the form normalisers and
validators, the catalogue and its filters, and a handful of small
collection state machines. Each operation is a pure function over
immutable datatypes. Whatever the browser or the remote services decide
becomes a parameter of the function: fresh ids, the signed-in user, the
confirm dialog, and whether a remote call succeeds. For the profile, checkout,
form and lightbox handlers, toasts, navigation and the callbacks a
component fires become fields of a returned outcome value. The cart
store's operations return only the new list of lines.

Modules follow the source files:

- **Cart and checkout**
  - `CartStore`: the cart context, a list of lines keyed by product id and size.
  - `OrderTotals`: the order summary.
  - `CartPage`: the cart page.
  - `CheckoutProgress`: the step bar.
  - `CheckoutFlow`: the checkout page's guards, the step handler and a whole visit as a sequence of events.
- **Normalisers and validators**
  - `Phone`: the mobile-number helpers.
  - `AddressForm` and `AddressSection`: the address form and the address list.
  - `CardForm`: the card form.
  - `UpiForm`: the UPI form and its QR string.
  - `AccountOverview`: the profile form.
  - `SecuritySettings`: the password and email forms.
  - `ResetPassword`: the reset-password page.
  - `AuthErrors`: the error-code map of the auth service.
- **Catalogue**
  - `Catalog`: the product context.
  - `FilterSelection`: the `Record<string, string[]>` of selected filters, as an insertion-ordered entry list.
  - `ProductFilters`: the filter drawer.
  - `CategoryPages`: the men's, women's and kids' pages, each a `CategoryPage` value.
  - `ProductManager`: the admin product manager.
- **Small state machines**
  - `Lightbox`: the product lightbox.
  - `ImageUploader`: the media uploader.
  - `PrivacySettings`: the privacy toggles.
- **Shared helpers**
  - `Seqs`: `Array.filter` and `findIndex`.
  - `Text`: regex character classes, `replace(/\D/g, '')`, `trim`, `toLowerCase` and `includes`.
  - `Optional`: `Option`, and `Present`, which is JavaScript truthiness of a `string | null`.

Behaviour worth noting:

- `updateQuantity` with quantity 0 keeps the line. It is not removed.
- `removeItem` and `updateQuantity` match on the product id alone, so they affect every size of that product.
- No branch of the checkout page ever moves the step to `'confirm'`. `CheckoutFlow.Invariant` states that it is never there; `CheckoutFlow.StartSatisfiesInvariant` and `CheckoutFlow.RunKeepsInvariant` prove it holds throughout a visit.

## Model

| member | source | states |
|---|---|---|
| CartStore.FindLine | src/contexts/CartContext.tsx:33-35 | the index of the first line with the same id and size, or -1 exactly when there is none |
| CartStore.AddItem | src/contexts/CartContext.tsx:31-49 | an existing line with the same id and size gains the added quantity, and the length stays the same; otherwise the item is appended and earlier lines are unchanged; no other line changes |
| CartStore.AddKeepsLinesDistinct | src/contexts/CartContext.tsx:31-49 | adding keeps the invariant that no two lines share an (id, size) pair |
| CartStore.RepeatedAddMerges | src/contexts/CartContext.tsx:33-47 | adding the same product and size twice leaves one line holding both quantities |
| CartStore.RemoveItem | src/contexts/CartContext.tsx:51-54 | removes every line of that product, whatever its size; keeps the other lines in order and with their multiplicities |
| CartStore.RemoveKeepsLinesDistinct | src/contexts/CartContext.tsx:51-54 | removing keeps the lines distinct |
| CartStore.LinesOf | src/contexts/CartContext.tsx:51-54 | the lines of one product, in cart order and each with its multiplicity, which are exactly the lines `removeItem` drops |
| CartStore.UpdateQuantity | src/contexts/CartContext.tsx:56-62 | every line of that product gets the new quantity; length, order, other fields and other lines are unchanged |
| CartStore.UpdateToZeroKeepsLines | src/contexts/CartContext.tsx:56-62 | quantity 0 keeps every line, so the result differs from removing the product |
| CartStore.UpdateKeepsLinesDistinct | src/contexts/CartContext.tsx:56-62 | updating quantities keeps the lines distinct |
| CartStore.RemoveAfterUpdate | src/contexts/CartContext.tsx:51-62 | removing a product after changing its quantity is the same as removing it directly |
| CartStore.ClearCart | src/contexts/CartContext.tsx:64-67 | the cart becomes empty |
| CartStore.Total | src/contexts/CartContext.tsx:69 | the loop sums price times quantity over the lines and equals `Subtotal` |
| CartStore.SubtotalOfEmpty | src/contexts/CartContext.tsx:69 | the empty cart totals 0 |
| CartStore.SubtotalAppend | src/contexts/CartContext.tsx:69 | the total of two carts joined is the sum of their totals |
| CartStore.SubtotalUpdate | src/contexts/CartContext.tsx:69 | replacing one line changes the total by the difference of the two line amounts |
| CartStore.SubtotalAfterAdd | src/contexts/CartContext.tsx:31-49 | on a merge the total grows by the matched line's price times the added quantity; on an append it grows by the new line's own amount |
| CartStore.QuantityAppend | src/contexts/CartContext.tsx:45-47 | appending a line adds its quantity to its own (id, size) count only |
| CartStore.QuantityUpdate | src/contexts/CartContext.tsx:36-42 | replacing one line moves the per-(id, size) counts by the old and new quantities |
| CartStore.QuantityAfterAdd | src/contexts/CartContext.tsx:31-49 | adding raises the count of the added item's (id, size) by its quantity and leaves every other count unchanged |
| CartStore.SubtotalSplitsByProduct | src/contexts/CartContext.tsx:51-69 | the total is the total after removing a product plus the total of that product's lines |
| OrderTotals.Summarize | src/components/checkout/OrderSummary.tsx:14-41 | shipping 0; tax is 18% of the total; the grand total is total + shipping + tax, which equals total × 1.18 and is at least the total when the total is non-negative; each line amount is price × quantity |
| OrderTotals.LineAmountsAddUp | src/components/checkout/OrderSummary.tsx:25-44 | the line amounts shown add up to the cart's total |
| OrderTotals.GrandTotalExample | src/components/checkout/OrderSummary.tsx:14-16 | a total of 3000 gives a grand total of 3540 |
| CartPage.Decrement | src/pages/Cart.tsx:89 | every line of the product gets max(0, q - 1), where q is the clicked line's quantity; other lines are unchanged |
| CartPage.Increment | src/pages/Cart.tsx:98 | every line of the product gets q + 1; other lines are unchanged |
| CartPage.RemoveLine | src/pages/Cart.tsx:73 | the remove button drops every size of the clicked product |
| CartPage.ButtonsKeepQuantitiesNonNegative | src/pages/Cart.tsx:89-98 | from non-negative quantities, neither button makes a quantity negative |
| CartPage.DecrementSetsEverySize | src/pages/Cart.tsx:89 | after "−", every size of the product holds the same quantity |
| CartPage.HandleCheckout | src/pages/Cart.tsx:14-21 | signed in goes to checkout; signed out shows "Please login to continue" and goes to login |
| CartPage.ShowCart | src/pages/Cart.tsx:23-131 | the empty view exactly for an empty cart; otherwise the lines, the subtotal, tax = total × 0.18 and total = total + tax |
| CheckoutProgress.CurrentIndex | src/components/checkout/CheckoutProgress.tsx:7-15 | the position of the current step in address, payment, review, confirm; it always lies in 0..3 |
| CheckoutProgress.BadgeAt | src/components/checkout/CheckoutProgress.tsx:22-48 | a badge is completed iff its index is below the current index, and current iff it is the current step; completed badges show a check, the others show index + 1 |
| CheckoutProgress.Bar | src/components/checkout/CheckoutProgress.tsx:22-25 | one badge per step, in step order |
| CheckoutProgress.ExactlyOneCurrent | src/components/checkout/CheckoutProgress.tsx:24-25 | at most one badge is current, it is not completed, and exactly the badges before it are completed |
| CheckoutProgress.SomeBadgeCurrent | src/components/checkout/CheckoutProgress.tsx:15-25 | some badge is current |
| CheckoutFlow.Enter | src/pages/Checkout.tsx:26-34 | signed out goes to login, checked before the cart; an empty cart goes to the cart page; otherwise the page shows |
| CheckoutFlow.CompleteStep | src/pages/Checkout.tsx:36-92 | address without a selection gives the address notice and keeps the step; with one it moves to payment; payment likewise moves to review; review without a method gives "something went wrong"; review with a method starts processing and requests the pending order for this cart, with 0 shipping, 18% tax, the chosen method and address; no branch reaches 'confirm' |
| CheckoutFlow.SettleOrder | src/pages/Checkout.tsx:78-91 | on success the cart is cleared and the page goes to the success page; on failure the cart and step stay and the failure notice shows; processing ends either way |
| CheckoutFlow.Start | src/pages/Checkout.tsx:21-24 | a visit opens on the address step with no address or method chosen, not processing, nothing pending or placed, and the cart as it is |
| CheckoutFlow.Enabled | src/pages/Checkout.tsx:103-176 | a page control works exactly when its section is the current step's, except "Place Order" while processing; the service answers only while an order is pending; nothing works once the page has left |
| CheckoutFlow.Apply | src/pages/Checkout.tsx:103-176 | an event that cannot happen changes nothing; a pick records only the choice; completing a step leaves cart and placed orders alone and makes an order pending exactly on review with a method chosen; the service's answer ends the pending order, places it only when accepted, and leaves the page exactly then |
| CheckoutFlow.Run | src/pages/Checkout.tsx:21-176 | over any sequence of events, placed orders stay placed, and once the page has left nothing changes |
| CheckoutFlow.Invariant | src/pages/Checkout.tsx:21-92 | what holds throughout a visit: the step is never 'confirm'; payment needs an address, review needs both choices; an order is pending exactly while processing on review; at most one order is placed, exactly when the page has left, and it is the order for the starting cart; the cart is untouched until then and empty after |
| CheckoutFlow.StartSatisfiesInvariant | src/pages/Checkout.tsx:21-24 | the visit starts at the address step with nothing selected and nothing processing |
| CheckoutFlow.ApplyKeepsInvariant | src/pages/Checkout.tsx:36-92 | every user event keeps the visit invariant; the step never moves backwards |
| CheckoutFlow.RunKeepsInvariant | src/pages/Checkout.tsx:36-92 | any sequence of events keeps the invariant |
| CheckoutFlow.AtMostOneOrder | src/pages/Checkout.tsx:55-84 | a visit places at most one order; that order is for the starting cart, with status 'pending' and grand total = total × 1.18; after it the cart is empty |
| CheckoutFlow.HappyPath | src/pages/Checkout.tsx:36-92 | pick an address, continue, pick a method, continue, place the order: with an accepting service, one order for that address and method is placed and the cart is empty |
| Phone.ValidIndianMobile | src/lib/utils.ts:27-35 | accepted iff the digits of the input are 10 digits starting 6-9, or "91" followed by such 10 digits |
| Phone.FormatIndianMobile | src/lib/utils.ts:37-52 | exactly 10 digits give "+91" and the digits; 12 digits starting "91" give "+" and the digits; anything else is returned unchanged |
| Phone.ValidityIgnoresFormatting | src/lib/utils.ts:29 | two inputs with the same digits are both accepted or both refused |
| Phone.FormatKeepsValidity | src/lib/utils.ts:27-52 | formatting an accepted number yields "+91" and its last 10 digits, which is still accepted |
| Phone.FormatIdempotent | src/lib/utils.ts:37-52 | formatting twice equals formatting once |
| Phone.DigitsOfPrefixed | src/lib/utils.ts:39-43 | the digits of "+91" followed by digits are "91" followed by those digits |
| Phone.InvalidLeadDigitExample | src/lib/utils.ts:33 | a 10-digit number starting with 5 is refused |
| Phone.FormatShortExample | src/lib/utils.ts:51 | a 5-digit input is returned unchanged |
| AddressForm.InitialForm | src/components/checkout/AddressForm.tsx:28-38 | a new address starts blank with country India and not default; an edited one starts as a copy, with an empty country replaced by India |
| AddressForm.Required | src/components/checkout/AddressForm.tsx:46-64 | a required field errors, with its message, exactly when it is blank after trimming |
| AddressForm.PostalCodeError | src/components/checkout/AddressForm.tsx:66-70 | blank gives "required"; non-blank but not exactly six digits gives the 6-digit message; the two exclude each other; no error iff six digits |
| AddressForm.PhoneError | src/components/checkout/AddressForm.tsx:50-54 | the phone errors exactly when the mobile check refuses it |
| AddressForm.Validate | src/components/checkout/AddressForm.tsx:43-74 | each field's error is present exactly under that field's condition |
| AddressForm.UncheckedFieldsIgnored | src/components/checkout/AddressForm.tsx:43-74 | address line 2, country and the default flag never change the errors |
| AddressForm.HandleSubmit | src/components/checkout/AddressForm.tsx:76-105 | submitted iff there are no errors; a submission carries the fields, plus the edited address's id exactly when editing; a valid submit resets to the blank form; an invalid one keeps the form and raises the alert |
| AddressForm.AcceptedIff | src/components/checkout/AddressForm.tsx:43-105 | accepted iff name, line 1, city and state are non-blank, the phone is a valid mobile and the postal code is six digits |
| AddressForm.BlankFormRefused | src/components/checkout/AddressForm.tsx:66-67 | the blank form is refused with "Postal code is required" |
| AddressForm.PaddedPostalCodeRefused | src/components/checkout/AddressForm.tsx:68-69 | "110001 " with a trailing space gets the 6-digit message |
| AddressSection.AddAddress | src/components/checkout/AddressSection.tsx:33-40 | appends the fields under the fresh id; earlier entries are unchanged; the form closes |
| AddressSection.EditAddress | src/components/checkout/AddressSection.tsx:42-50 | the entry with the submitted id takes the new fields; ids, length and other entries are unchanged; the form closes and editing ends |
| AddressSection.DeleteAddress | src/components/checkout/AddressSection.tsx:52-59 | unconfirmed does nothing; confirmed removes the entries with that id and keeps every other entry, in order and as many times as it occurred; the selection is reported cleared iff confirmed and the deleted id was selected |
| AddressSection.SetDefault | src/components/checkout/AddressSection.tsx:61-68 | an entry is default iff its id is the given id; no other field changes |
| AddressSection.SetDefaultLeavesOneDefault | src/components/checkout/AddressSection.tsx:61-68 | with unique ids, at most one entry is default |
| AddressSection.SetDefaultFindsTheId | src/components/checkout/AddressSection.tsx:61-68 | when the id is present, some entry is default |
| AddressSection.AddAndEditKeepIdsUnique | src/components/checkout/AddressSection.tsx:33-50 | adding under a fresh id and editing both keep ids unique |
| AddressSection.DeleteUndoesAdd | src/components/checkout/AddressSection.tsx:33-59 | deleting the address just added restores the list |
| AddressSection.ContinueEnabled | src/components/checkout/AddressSection.tsx:175 | Continue is enabled iff an address is selected |
| AddressSection.DeletingSelectionDisablesContinue | src/components/checkout/AddressSection.tsx:52-59 | deleting the selected address disables Continue |
| CardForm.Group4 | src/components/checkout/payment/CreditCardForm.tsx:22-27 | every fifth position (index 4, 9, …) holds a single space and the others hold the input's characters in order, so the input is cut into groups of four with a shorter last group; the length grows by one space per full group |
| CardForm.Group4Digits | src/components/checkout/payment/CreditCardForm.tsx:22-27 | grouping keeps exactly the digits |
| CardForm.FormatCardNumber | src/components/checkout/payment/CreditCardForm.tsx:18-33 | with at least 4 digits, the first min(n, 16) digits grouped by four; with fewer, the input unchanged |
| CardForm.SixteenDigitsGroup | src/components/checkout/payment/CreditCardForm.tsx:19-48 | grouping 16 digits matches `dddd dddd dddd dddd` |
| CardForm.CardNumberAcceptedIff | src/components/checkout/payment/CreditCardForm.tsx:18-48 | a formatted number passes the card check iff the input has at least 16 digits |
| CardForm.FormatCardNumberIdempotent | src/components/checkout/payment/CreditCardForm.tsx:18-33 | formatting twice equals formatting once |
| CardForm.FormatCardNumberKeepsDigits | src/components/checkout/payment/CreditCardForm.tsx:18-33 | the formatted number holds the first min(n, 16) input digits |
| CardForm.FourDigitPrefix | src/components/checkout/payment/CreditCardForm.tsx:19-28 | an input starting with four digits has at least four digits |
| CardForm.FormatExpiryDate | src/components/checkout/payment/CreditCardForm.tsx:35-41 | digits only; with 3 or more digits, two digits, "/" and up to two more; with fewer, the digits alone |
| CardForm.ExpiryAcceptedIff | src/components/checkout/payment/CreditCardForm.tsx:35-53 | a formatted expiry passes `dd/dd` iff the input has at least four digits |
| CardForm.DigitsAroundSlash | src/components/checkout/payment/CreditCardForm.tsx:36-39 | the digits of a/b are a followed by b |
| CardForm.FormatExpiryIdempotent | src/components/checkout/payment/CreditCardForm.tsx:35-41 | formatting twice equals formatting once |
| CardForm.CvvInput | src/components/checkout/payment/CreditCardForm.tsx:157 | the CVV field keeps only digits, and keeps an all-digit entry as typed |
| CardForm.SubmitCard | src/components/checkout/payment/CreditCardForm.tsx:43-69 | each field errors exactly under its check; the data is submitted iff all four checks pass |
| CardForm.TypedFormAcceptedIff | src/components/checkout/payment/CreditCardForm.tsx:18-69 | a form filled through the formatters is accepted iff the number has at least 16 digits, the holder is non-blank, the expiry has at least 4 digits and the CVV 3 or 4 |
| UpiForm.ValidUpiId | src/components/checkout/payment/UPIForm.tsx:21-24 | accepted iff there are at least 3 characters of `[A-Za-z0-9_.-]`, then '@', then at least 3 ASCII letters |
| UpiForm.OnlySplitIsFirstAt | src/components/checkout/payment/UPIForm.tsx:22 | in an accepted id, the '@' of the pattern is the first '@' |
| UpiForm.SplitIsUnique | src/components/checkout/payment/UPIForm.tsx:22 | an accepted id holds exactly one '@' |
| UpiForm.EditUpiId | src/components/checkout/payment/UPIForm.tsx:90-93 | typing replaces the id and clears the error |
| UpiForm.SubmitUpi | src/components/checkout/payment/UPIForm.tsx:26-35 | a valid id is submitted as typed; an invalid one sets "Please enter a valid UPI ID" and submits nothing |
| UpiForm.EventsKeepErrorCurrent | src/components/checkout/payment/UPIForm.tsx:26-93 | the error is shown only for the id currently in the field |
| UpiForm.UpiExamples | src/components/checkout/payment/UPIForm.tsx:22 | "john.doe@okaxis" is accepted; "jo@upi" is refused |
| UpiForm.DigitInProviderRefused | src/components/checkout/payment/UPIForm.tsx:22 | a digit after the '@' is refused |
| UpiForm.EncodeUriComponent | src/components/checkout/payment/UPIForm.tsx:38-41 | on ASCII text, every output character is unreserved, '%' or a hex digit; the value is pinned down by EncodeAppend and EncodeOne |
| UpiForm.EncodeAppend | src/components/checkout/payment/UPIForm.tsx:38-41 | encoding a concatenation encodes each part and joins the results |
| UpiForm.EncodeOne | src/components/checkout/payment/UPIForm.tsx:38-41 | a single unreserved character is kept; any other ASCII character becomes '%' and its two upper-case hex digits |
| UpiForm.EncodedIsQuerySafe | src/components/checkout/payment/UPIForm.tsx:38-41 | the encoded text contains no space, '&', '=', '?' or '#' |
| UpiForm.QrValue | src/components/checkout/payment/UPIForm.tsx:37-43 | begins "upi://pay?pa=" + payee + "&pn=" and ends "&am=" + amount |
| UpiForm.DemoIsAscii | src/components/checkout/payment/UPIForm.tsx:14-19 | the demo payee name and note are ASCII |
| UpiForm.DemoQrValue | src/components/checkout/payment/UPIForm.tsx:14-43 | the demo QR value begins "upi://pay?pa=merchant@upi&pn=" |
| UpiForm.ValidIdHasNoAmpersand | src/components/checkout/payment/UPIForm.tsx:20-23 | an id that passes the UPI check contains no '&', so it cannot break the link's query |
| UpiForm.QrValueReadsBack | src/components/checkout/payment/UPIForm.tsx:37-43 | for a valid payee id and an amount without '&', splitting the link's query at '&' gives back pa=payee, pn=encoded name, tn=encoded note and am=amount, in that order |
| AccountOverview.KeepPhoneChars | src/components/profile/sections/AccountOverview.tsx:31 | only digits and '+' are kept; an input of only those is kept whole; the value is pinned down by KeepPhoneCharsAppend and KeepPhoneCharsOne |
| AccountOverview.KeepPhoneCharsAppend | src/components/profile/sections/AccountOverview.tsx:31 | the filter of a concatenation is the concatenation of the filters, so every digit and '+' is kept, in order |
| AccountOverview.KeepPhoneCharsOne | src/components/profile/sections/AccountOverview.tsx:31 | a single character is kept exactly when it is a digit or '+' |
| AccountOverview.NormalisePhone | src/components/profile/sections/AccountOverview.tsx:27-47 | empty stays empty; a value not starting "+91" becomes "+91" followed by its first ten kept characters; a value starting "+91" is cut to 13 characters; the result holds only digits and '+' |
| AccountOverview.NormaliseIdempotent | src/components/profile/sections/AccountOverview.tsx:27-47 | normalising twice equals normalising once |
| AccountOverview.TypedSubscriberNumber | src/components/profile/sections/AccountOverview.tsx:34-44 | a typed 10-digit mobile becomes "+91" and the number, which is accepted and is its own format |
| AccountOverview.TypedCountryCodeWithoutPlus | src/components/profile/sections/AccountOverview.tsx:34-44 | "91" and a mobile become "+9191" and the first 8 digits, whereas the shared formatter gives "+91" and the mobile |
| AccountOverview.SaveProfile | src/components/profile/sections/AccountOverview.tsx:49-78 | once the browser's form checks pass (see "## Left out"), sent iff the phone is empty or valid; an invalid phone aborts with its notice; name and email are trimmed; an empty phone is saved as '' and any other as its `formatIndianMobile` form; the outcome decides the notice and whether editing ends; submitting ends |
| AccountOverview.SavedPhoneIsCanonical | src/components/profile/sections/AccountOverview.tsx:60-67 | a saved non-empty phone is "+91" followed by a 10-digit mobile starting 6-9 that passes the mobile check, and those ten digits are the last ten digits typed |
| SecuritySettings.UpdatePassword | src/components/profile/sections/SecuritySettings.tsx:18-43 | once the browser's form checks pass (see "## Left out"), a mismatch is reported first, then a password under 6 characters; the change is sent iff both checks pass; success closes the form and clears the three password fields, keeping the new email; failure keeps the form; submitting ends |
| SecuritySettings.UpdateEmail | src/components/profile/sections/SecuritySettings.tsx:45-60 | once the browser's form checks pass (see "## Left out"), always sent; success closes the form and clears the current password and the new email only; failure changes nothing but the notice; submitting ends |
| SecuritySettings.CancelPassword | src/components/profile/sections/SecuritySettings.tsx:185-188 | closes the password form and clears the three password fields |
| SecuritySettings.SuccessfulUpdateClearsLikeCancel | src/components/profile/sections/SecuritySettings.tsx:33-36 | a successful update leaves the fields as Cancel would; submitting again at once is refused |
| ResetPassword.OpenPage | src/components/auth/ResetPasswordForm.tsx:18-35 | a missing code gives "Invalid reset link" and the login page; a refused code gives "Invalid or expired reset link" and the login page; otherwise the form shows |
| ResetPassword.SubmitReset | src/components/auth/ResetPasswordForm.tsx:37-66 | once the browser's form checks pass (see "## Left out"), the handler's checks run in order: mismatch, then under 6 characters, then a missing code; the reset is requested iff all pass; success schedules the move to login; a failure shows the service's message; submitting ends |
| ResetPassword.FailureNeverReportsSuccess | src/services/firebase/auth.ts:39-49 | a failed reset never shows the success message or moves to login |
| AuthErrors.ResetPasswordErrorMessage | src/services/firebase/auth.ts:51-68 | total, and always a non-empty message |
| AuthErrors.KnownCodeMessages | src/services/firebase/auth.ts:53-64 | each of the six known codes maps to its own message |
| AuthErrors.UnknownCodeMessage | src/services/firebase/auth.ts:65-66 | any other code maps to the default message |
| AuthErrors.MessagesDistinct | src/services/firebase/auth.ts:53-66 | the seven messages are pairwise distinct |
| Catalog.ConvertToProduct | src/contexts/ProductContext.tsx:6-20 | identity fields are copied; inStock becomes true only when missing; sizes default to []; media is []; the price is scaled by 75 |
| Catalog.AddProduct | src/contexts/ProductContext.tsx:60-70 | appends one product under the fresh id, in stock, keeping its sizes or taking S, M, L, XL; the saved list is the new list |
| Catalog.UpdateProduct | src/contexts/ProductContext.tsx:72-78 | every product with that id is replaced; length and other entries are unchanged; the saved list is the new list |
| Catalog.DeleteProduct | src/contexts/ProductContext.tsx:80-84 | removes exactly the products with that id and keeps the rest in order; the saved list is the new list |
| Catalog.ProductsByCategory | src/contexts/ProductContext.tsx:86-90 | 'All' gives every product; another category gives exactly its products, in order, each as many times as it occurs in the catalogue |
| Catalog.DeleteUndoesAdd | src/contexts/ProductContext.tsx:60-84 | deleting a product just added under a fresh id restores the catalogue |
| Catalog.DeleteAfterUpdate | src/contexts/ProductContext.tsx:72-84 | deleting after an update equals deleting directly |
| Catalog.UpdateUnknownIsIdentity | src/contexts/ProductContext.tsx:72-78 | updating an id nobody has changes nothing |
| FilterSelection.Lookup | src/pages/MensPage.tsx:49 | a filter not in the selection has no values |
| FilterSelection.SetFilter | src/pages/MensPage.tsx:34-39 | the given filter takes the new values, and every other filter keeps its own; an existing key keeps its place; a new key is appended |
| FilterSelection.ClearFilters | src/pages/MensPage.tsx:41-43 | every filter has no values |
| FilterSelection.SetFilterKeepsKeysUnique | src/pages/MensPage.tsx:34-39 | setting a filter keeps keys unique |
| FilterSelection.LookupFindsEntry | src/pages/MensPage.tsx:49 | with unique keys, looking up an entry's key finds its values |
| ProductFilters.ActiveCount | src/components/ProductFilters.tsx:28-31 | the count of chosen values; it is 0 iff every list is empty |
| ProductFilters.CountAfterSetFilter | src/components/ProductFilters.tsx:28-31 | setting a filter changes the count by the difference in that filter's lengths |
| ProductFilters.ClearAllShown | src/components/ProductFilters.tsx:67 | "Clear all" shows iff some filter has a value |
| ProductFilters.ClearAll | src/components/ProductFilters.tsx:67-77 | when shown, it clears every filter and closes the drawer; the count becomes 0 |
| ProductFilters.Toggle | src/components/ProductFilters.tsx:89-105 | the checkbox flips; an unticked option is appended to the list (an absent list counts as []); a ticked one loses every copy while every other value keeps its order and its number of copies; no other filter changes |
| ProductFilters.ToggleMovesCount | src/components/ProductFilters.tsx:99-105 | ticking raises the count by one; unticking lowers it |
| ProductFilters.ToggleTwiceRestores | src/components/ProductFilters.tsx:99-105 | ticking then unticking restores every filter's values |
| ProductFilters.ToggleKeepsKeysUnique | src/components/ProductFilters.tsx:99-105 | toggling keeps keys unique |
| CategoryPages.PriceTitles | src/pages/MensPage.tsx:23-27 | the price options' titles, in order |
| CategoryPages.RangeMatches | src/pages/MensPage.tsx:64-70 | a range matches only if an option with that title bounds the price |
| CategoryPages.RangeMatchesFirst | src/pages/MensPage.tsx:64-70 | a product matches exactly when the first option carrying the chosen title has a bound that admits its price; an unknown title matches nothing |
| CategoryPages.FilterProducts | src/pages/MensPage.tsx:45-77 | an order-preserving subsequence of the products, holding exactly those of the page's category that pass every filter, each as many times as in the input |
| CategoryPages.EntriesOkIffEveryEntry | src/pages/MensPage.tsx:49-73 | a product passes the loop iff it passes every entry |
| CategoryPages.EntryOkOfLookup | src/pages/MensPage.tsx:49-73 | a passing product passes each filter's looked-up values |
| CategoryPages.EntriesOkIffEveryFilter | src/pages/MensPage.tsx:49-73 | with unique keys, passing iff every filter's values pass: empty lists impose nothing, unknown keys are ignored, and category, size, colour and price are checked as written |
| CategoryPages.AgreeingFiltersAgree | src/pages/MensPage.tsx:49-73 | two selections that agree filter by filter pass the same products |
| CategoryPages.SameLookupsSameProducts | src/pages/MensPage.tsx:45-77 | the listing depends only on each filter's values, not on key order |
| CategoryPages.SetFiltersCommute | src/pages/MensPage.tsx:34-77 | changing two different filters in either order lists the same products |
| CategoryPages.NoSelectionIsCategory | src/pages/MensPage.tsx:41-47 | with cleared filters the listing is exactly the page's category, as the catalogue's lookup gives it |
| CategoryPages.UnknownFilterIgnored | src/pages/MensPage.tsx:52-73 | setting a key other than category, size, colour or price leaves the listing unchanged |
| CategoryPages.MensPriceBoundariesOverlap | src/pages/WomensPage.tsx:64-69 | 2000 matches both middle ranges; 1000 is not "Under ₹1000"; 5000 is not "Above ₹5000" |
| CategoryPages.KidsPriceBoundariesOverlap | src/pages/KidsPage.tsx:65-68 | 1000 matches both ₹500-₹1000 and ₹1000-₹2000; 2000 is not "Above ₹2000" |
| CategoryPages.PriceRangesCoverEveryPrice | src/pages/MensPage.tsx:64-70 | every price matches some range, on the men's and women's pages and on the kids' page |
| CategoryPages.ConvertedProductsHiddenByFacets | src/contexts/ProductContext.tsx:6-20 | a converted product has no subcategory or colour, so any chosen category or colour hides it; so does any chosen size when it had no sizes |
| CategoryPages.ToggleTwiceRestoresListing | src/components/ProductFilters.tsx:99-105 | ticking and unticking an option restores the page's listing |
| ProductManager.FilteredProducts | src/components/ProductManager.tsx:30-37 | an order-preserving subsequence, holding exactly the products whose lower-cased name or description contains the lower-cased term and whose category is 'All' or the chosen one, each as many times as in the input |
| ProductManager.EmptySearchIsCategory | src/components/ProductManager.tsx:30-37 | an empty term matches everything, so the view is the category lookup |
| ProductManager.LowerIdempotent | src/components/ProductManager.tsx:32-33 | lower-casing twice equals lower-casing once |
| ProductManager.SearchIgnoresCase | src/components/ProductManager.tsx:30-37 | a lower-cased term shows the same products |
| ProductManager.OpenAddForm | src/components/ProductManager.tsx:94-96 | "Add Product" opens the form unless loading |
| ProductManager.PrepareNewProduct | src/components/ProductManager.tsx:42-47 | the fresh id, in stock, and always S, M, L, XL, whatever the form held; other details kept |
| ProductManager.FinishAdd | src/components/ProductManager.tsx:48-56 | success closes the form with "Product added successfully"; failure keeps it with "Failed to add product"; loading ends |
| ProductManager.FinishChange | src/components/ProductManager.tsx:59-85 | an update or delete, once settled, leaves the form as it is and ends loading; the toast names the call and its outcome |
| ProductManager.ToastTellsOutcome | src/components/ProductManager.tsx:63-80 | the four update and delete toasts are distinct, so the toast tells which call ran and whether it succeeded |
| ProductManager.CloseToast | src/components/ProductManager.tsx:164-167 | hides the toast only |
| ProductManager.AddThroughManager | src/components/ProductManager.tsx:42-47 | an added product lands last with the catalogue's id, in stock, the default sizes and the form's details |
| Lightbox.MediaUrls | src/components/ProductLightbox.tsx:56-60 | the media urls when there are any, else the image, else the placeholder; never empty |
| Lightbox.Next | src/components/ProductLightbox.tsx:143-145 | stays in [0, n): i + 1, wrapping from the last picture to 0 |
| Lightbox.Previous | src/components/ProductLightbox.tsx:147-151 | stays in [0, n): i - 1, wrapping from 0 to the last picture |
| Lightbox.PreviousUndoesNext | src/components/ProductLightbox.tsx:143-151 | the two buttons undo each other |
| Lightbox.NextTimes | src/components/ProductLightbox.tsx:143-145 | repeated clicks keep the index non-negative |
| Lightbox.NextTimesWraps | src/components/ProductLightbox.tsx:143-145 | k ≤ n clicks move k pictures on, wrapping round once |
| Lightbox.FullCycleReturns | src/components/ProductLightbox.tsx:143-145 | n clicks return to the start |
| Lightbox.AddToCart | src/components/ProductLightbox.tsx:68-88 | no size: only "Please select a size"; no user: close and go to login; otherwise add one item in that size, confirm, close later, notify |
| Lightbox.BuyNow | src/components/ProductLightbox.tsx:90-106 | the same gates, then add one item, close and go to checkout |
| Lightbox.PurchaseAddsOneItem | src/components/ProductLightbox.tsx:68-106 | both buttons change the cart alike: only with a size and a user, and then by exactly one item of that product and size |
| ImageUploader.NatToString | src/components/ImageUploader.tsx:27 | the limit is printed as its decimal numeral: digits denoting exactly the limit, with no leading zero |
| ImageUploader.ToMedia | src/components/ImageUploader.tsx:46-53 | keeps the id and preview; image iff the type starts "image/" |
| ImageUploader.Previews | src/components/ImageUploader.tsx:76 | the previews of the entries, in order |
| ImageUploader.HandleFileChange | src/components/ImageUploader.tsx:21-71 | an empty pick does nothing; exceeding the limit is refused with the limit toast; any file that is not an image or video refuses the batch; otherwise the entries are appended and the form gets its urls plus the new previews |
| ImageUploader.PickKeepsWithinLimit | src/components/ImageUploader.tsx:26-29 | the entries never exceed the limit |
| ImageUploader.RemoveMedia | src/components/ImageUploader.tsx:73-80 | drops the entries with that id, keeps every other entry in order and with its multiplicity, and reports exactly their previews |
| ImageUploader.RemoveUndoesPick | src/components/ImageUploader.tsx:21-80 | removing the entry a one-file pick added restores the entries |
| PrivacySettings.Toggle | src/components/profile/sections/PrivacySettings.tsx:41-49 | flips the setting with that id; length, order and other settings are unchanged |
| PrivacySettings.ToggleTwiceRestores | src/components/profile/sections/PrivacySettings.tsx:41-49 | toggling twice restores the settings |
| PrivacySettings.UnknownIdIgnored | src/components/profile/sections/PrivacySettings.tsx:43-47 | an unknown id changes nothing |
| PrivacySettings.TogglesCommute | src/components/profile/sections/PrivacySettings.tsx:41-49 | toggles of two ids commute |
| PrivacySettings.DefaultsAsShipped | src/components/profile/sections/PrivacySettings.tsx:11-36 | four settings with distinct ids: the first two enabled, marketing and third-party disabled |
| Text.Digits | src/lib/utils.ts:29 | `replace(/\D/g, '')`: only ASCII digits, no longer than the input, an all-digit input kept |
| Text.DigitsAppend | src/lib/utils.ts:29 | the digits of a joined string are the joined digits |
| Text.DigitsIsSubseq | src/lib/utils.ts:29 | the digits are a subsequence of the input |
| Text.Trim | src/components/checkout/AddressForm.tsx:46 | `trim`: a slice of the input with no space at either end |
| Text.TrimEmptyIffBlank | src/components/checkout/AddressForm.tsx:46 | the trimmed string is empty iff the input is all space |
| Text.LeadingSpaces | src/components/checkout/AddressForm.tsx:46 | the length of the leading run of spaces |
| Text.KeptBeforeTrailingSpaces | src/components/checkout/AddressForm.tsx:46 | the length before the trailing run of spaces |
| Text.LowerChar | src/components/ProductManager.tsx:32 | each upper-case ASCII letter goes to its own lower-case letter (code point + 32); other characters are kept |
| Text.Lower | src/components/ProductManager.tsx:32 | `toLowerCase` character by character |
| Text.ContainsIffOccurs | src/components/ProductManager.tsx:32-33 | `includes` holds iff the needle occurs at some index |
| Text.ContainsEmpty | src/components/ProductManager.tsx:32-33 | every string includes the empty string |
| Seqs.Filter | src/contexts/ProductContext.tsx:81 | `Array.filter`: an order-preserving subsequence holding exactly the passing elements, with their multiplicities |
| Seqs.FindFirst | src/components/checkout/CheckoutProgress.tsx:15 | `findIndex`: the first passing index, or -1 iff none passes |

## Left out

- Persistence: the localStorage load and save of the cart and catalogue. The JSON parse is not modelled; a mutation's saved snapshot is modelled as equal to the new list.
- Remote services: order creation, profile update, password and email change, and reset-code verification. The Firebase calls are not part of this model; each one's success or failure is a parameter of the function that handles it.
- Fresh ids, the signed-in user and the delete confirm dialog are parameters. The toasts and navigation are outcome values, and timers are a flag, such as the lightbox's delayed close and the reset page's move to login.
- Concurrency: the async interleaving of React state updates is not modelled. Each handler is one step over the state it read.
- Catalog.ConvertToProduct: the `parseFloat` of the raw price is not modelled; the raw price is an integer, scaled by the factor 75.
- OrderTotals.Summarize: prices are integers and tax is an exact `real`. Floating-point rounding and `formatPrice` (locale and exchange rate) are not modelled.
- String lengths count characters, not UTF-16 code units. The password length checks and the phone truncation differ only for characters outside the Basic Multilingual Plane.
- Text.Lower: `toLowerCase` is modelled for ASCII letters only. Non-ASCII letters are kept as they are.
- UpiForm.EncodeUriComponent: modelled for ASCII input only. The percent-encoding of UTF-8 bytes beyond ASCII is not modelled.
- The DOM `maxLength` limits on the card, expiry and CVV inputs are not modelled. The formatters are modelled on any input.
- The transient `isProcessing` state of the checkout page is modelled only for the review step. For the other steps, the begin-and-end of `finally` collapses to "not processing".
- The payment options view, the PayPal button and the QR rendering are not part of this model.
- Lightbox: the share menu and the waitlist form are not modelled; they only call browser APIs or show a toast.
- ProductManager.FinishChange: `handleDeleteProduct` passes a numeric id, while the catalogue's `deleteProduct` compares string ids. The component that wires the two is not part of this model, so the model covers only the manager's loading flag and toast.
- The product form's defaults and its media wiring (ProductManager.tsx:181-210) are not modelled.
- CartStore.AddItem: on a merge the code writes the new quantity into the existing line object (`newItems[k].quantity += …`) inside the `setItems` updater, which also fires the toast. Under `React.StrictMode` (main.tsx:15) development builds call updaters twice, so a merge there adds the quantity twice and the old state's line is changed too. The model treats the update as a pure function of the old list.
- Catalog.Product has no `createdAt` or `updatedAt`. `convertToProduct` (ProductContext.tsx:18-19) and the product form stamp them from the clock, and no modelled operation reads them.
- CheckoutFlow.Order: the `createdAt` stamp that the page adds from the clock (Checkout.tsx:75) is not modelled; the order's other fields are.
- AccountOverview.SaveProfile, SecuritySettings.UpdatePassword, SecuritySettings.UpdateEmail and ResetPassword.SubmitReset: these model the submit handler once the browser's own form validation has let the submit through. The inputs carry `required` (SecuritySettings.tsx:91, AccountOverview.tsx:128, ResetPasswordForm.tsx:108 and others), `type="email"` (SecuritySettings.tsx:97, AccountOverview.tsx:134) and `minLength={6}` (SecuritySettings.tsx:162), and no form sets `noValidate`. So the browser keeps an empty required field, a malformed e-mail or a short new password from reaching the handler. That gate is not modelled.
- CartStore.AddItem / RemoveItem: the toasts are not modelled; both return only the new list of lines. `addItem` shows "Cart updated successfully" on a merge (CartContext.tsx:41) and "Added to cart successfully" on an append (CartContext.tsx:46). `removeItem` shows "Item removed from cart" (CartContext.tsx:53).
- AccountOverview.TypedCountryCodeWithoutPlus: the normaliser keeps "91" typed without a '+' as part of the number. The model states what the code does and proves no "intended" variant.

=== FILE: account_overview.dfy ===
/** The profile page's account form: the phone input handler, which keeps
    the field in the `+91` form while typing, and the save handler, which
    validates, formats and trims before updating the profile. */
module AccountOverview {
  import opened Optional
  import opened Text
  import Phone

  predicate IsPhoneChar(c: char) {
    IsDigit(c) || c == '+'
  }

  /** `value.replace(/[^\d+]/g, '')`. */
  function KeepPhoneChars(s: string): (r: string)
    ensures |r| <= |s|
    ensures forall i :: 0 <= i < |r| ==> IsPhoneChar(r[i])
    ensures (forall i :: 0 <= i < |s| ==> IsPhoneChar(s[i])) ==> r == s
    decreases |s|
  {
    if |s| == 0 then "" else (if IsPhoneChar(s[0]) then [s[0]] else []) + KeepPhoneChars(s[1..])
  }

  /** The filter works character by character: it distributes over
      concatenation and keeps a single character exactly when it is a
      digit or `+`, so it keeps every digit and `+`, in order. */
  lemma {:induction false} KeepPhoneCharsAppend(a: string, b: string)
    ensures KeepPhoneChars(a + b) == KeepPhoneChars(a) + KeepPhoneChars(b)
    decreases |a|
  {
    if |a| == 0 {
      assert a + b == b;
    } else {
      assert (a + b)[1..] == a[1..] + b;
      KeepPhoneCharsAppend(a[1..], b);
    }
  }

  lemma KeepPhoneCharsOne(c: char)
    ensures KeepPhoneChars([c]) == if IsPhoneChar(c) then [c] else ""
  {
    assert [c][1..] == [];
  }

  /** `handlePhoneChange`: keep digits and `+`, put `+91` in front of
      anything that does not already start with it, and cut what follows
      `+91` to ten characters. */
  function NormalisePhone(input: string): (r: string)
    ensures var v := KeepPhoneChars(input); v == "" ==> r == ""
    ensures var v := KeepPhoneChars(input);
            v != "" && !StartsWith(v, "+91") ==> r == "+91" + (if |v| <= 10 then v else v[..10])
    ensures var v := KeepPhoneChars(input);
            StartsWith(v, "+91") ==> r == (if |v| <= 13 then v else v[..13])
    ensures KeepPhoneChars(input) != "" ==> StartsWith(r, "+91") && |r| <= 13
    ensures forall i :: 0 <= i < |r| ==> IsPhoneChar(r[i])
  {
    var v := KeepPhoneChars(input);
    var prefixed := if !StartsWith(v, "+91") && |v| > 0 then "+91" + v else v;
    PrefixedPhoneChars(v);
    if StartsWith(prefixed, "+91") && |prefixed| - 3 > 10 then
      var cut := "+91" + prefixed[3..13];
      CutPhoneChars(prefixed);
      assert StartsWith(v, "+91") ==> cut == v[..13] by {
        if StartsWith(v, "+91") {
          assert v[..13] == v[..3] + v[3..13];
        }
      }
      assert !StartsWith(v, "+91") ==> prefixed[3..13] == v[..10];
      cut
    else
      assert |v| > 0 ==> StartsWith(prefixed, "+91");
      prefixed
  }

  /** The field after `+91` is put in front still holds only phone
      characters, and starts with `+91` unless it is empty. */
  lemma PrefixedPhoneChars(v: string)
    requires forall i :: 0 <= i < |v| ==> IsPhoneChar(v[i])
    ensures var prefixed := if !StartsWith(v, "+91") && |v| > 0 then "+91" + v else v;
            (forall i :: 0 <= i < |prefixed| ==> IsPhoneChar(prefixed[i]))
            && (|v| > 0 ==> StartsWith(prefixed, "+91"))
  {
    if !StartsWith(v, "+91") && |v| > 0 {
      var prefixed := "+91" + v;
      assert prefixed[..3] == "+91";
      forall i | 0 <= i < |prefixed| ensures IsPhoneChar(prefixed[i]) {
        if i >= 3 {
          assert prefixed[i] == v[i - 3];
        }
      }
    }
  }

  /** Cutting a `+91` field after ten more characters keeps it a field of
      phone characters starting with `+91`. */
  lemma CutPhoneChars(prefixed: string)
    requires forall i :: 0 <= i < |prefixed| ==> IsPhoneChar(prefixed[i])
    requires StartsWith(prefixed, "+91") && |prefixed| > 13
    ensures var cut := "+91" + prefixed[3..13];
            StartsWith(cut, "+91") && |cut| == 13 && forall i :: 0 <= i < |cut| ==> IsPhoneChar(cut[i])
  {
    var cut := "+91" + prefixed[3..13];
    assert cut == prefixed[..13] by {
      assert prefixed[..13] == prefixed[..3] + prefixed[3..13];
    }
  }

  /** What the handler leaves in the field is left alone by it. */
  lemma NormaliseIdempotent(input: string)
    ensures NormalisePhone(NormalisePhone(input)) == NormalisePhone(input)
  {
  }

  /** Typing a ten-digit subscriber number yields `+91` and that number,
      which the validator accepts and the formatter leaves as it is. */
  lemma TypedSubscriberNumber(d: string)
    requires Phone.IsSubscriber(d)
    ensures NormalisePhone(d) == "+91" + d
    ensures Phone.ValidIndianMobile("+91" + d)
    ensures Phone.FormatIndianMobile("+91" + d) == "+91" + d
  {
    assert !StartsWith(d, "+91");
    Phone.DigitsOfPrefixed(d);
    assert StartsWith("91" + d, "91");
  }

  /** Typing a number with its country code but no `+`: the handler puts
      `+91` in front of the `91` and cuts the tail, so the field holds
      `+9191` and the first eight subscriber digits, although the formatter
      reads the same input as `+91` and the whole subscriber number. */
  lemma TypedCountryCodeWithoutPlus(d: string)
    requires Phone.IsSubscriber(d)
    ensures NormalisePhone("91" + d) == "+9191" + d[..8]
    ensures Phone.FormatIndianMobile("91" + d) == "+91" + d
  {
    var typed := "91" + d;
    assert forall i :: 0 <= i < |typed| ==> IsPhoneChar(typed[i]);
    assert typed[0] != '+';
    var prefixed := "+91" + typed;
    assert prefixed[3..13] == "91" + d[..8];
    assert "+91" + ("91" + d[..8]) == "+9191" + d[..8];
    assert AllDigits(typed);
    assert typed[2..] == d;
  }

  datatype AccountForm = AccountForm(name: string, phone: string, email: string)

  /** The profile fields sent to the profile service. */
  datatype ProfileUpdate = ProfileUpdate(name: string, phone: string, email: string)

  datatype AccountNotice = InvalidPhoneNotice | ProfileUpdated | UpdateFailed

  function AccountMessage(n: AccountNotice): string {
    match n
    case InvalidPhoneNotice => "Please enter a valid Indian mobile number"
    case ProfileUpdated => "Profile updated successfully"
    case UpdateFailed => "Failed to update profile"
  }

  /** The outcome of saving: the update sent (if any), whether the form is
      still being edited, the notice shown, and the submitting flag. */
  datatype SaveResult = SaveResult(sent: Option<ProfileUpdate>, editing: bool, notice: AccountNotice, submitting: bool)

  /** The update the form asks for once its phone is acceptable. */
  function UpdateFor(f: AccountForm): ProfileUpdate {
    ProfileUpdate(Trim(f.name), if f.phone != "" then Phone.FormatIndianMobile(f.phone) else "", Trim(f.email))
  }

  /** `handleSubmit`: a non-empty phone that is not a valid Indian mobile
      number stops the save with a notice; otherwise the trimmed name and
      e-mail and the formatted phone (or '' for no phone) are sent, and the
      form closes only when the profile service accepts them. */
  function SaveProfile(f: AccountForm, editing: bool, accepted: bool): (r: SaveResult)
    ensures r.sent.Some? <==> f.phone == "" || Phone.ValidIndianMobile(f.phone)
    ensures r.sent.None? ==> r.notice == InvalidPhoneNotice && r.editing == editing
    ensures r.sent.Some? ==> r.sent.value.name == Trim(f.name) && r.sent.value.email == Trim(f.email)
    ensures r.sent.Some? ==> (r.sent.value.phone == "" <==> f.phone == "")
    ensures r.sent.Some? && f.phone != "" ==> r.sent.value.phone == Phone.FormatIndianMobile(f.phone)
    ensures r.sent.Some? && accepted ==> !r.editing && r.notice == ProfileUpdated
    ensures r.sent.Some? && !accepted ==> r.editing == editing && r.notice == UpdateFailed
    ensures !r.submitting
  {
    if f.phone != "" && !Phone.ValidIndianMobile(f.phone) then
      SaveResult(None, editing, InvalidPhoneNotice, false)
    else
      var u := UpdateFor(f);
      if accepted then SaveResult(Some(u), false, ProfileUpdated, false)
      else SaveResult(Some(u), editing, UpdateFailed, false)
  }

  /** A saved phone is always in the canonical form: empty, or `+91`
      followed by a subscriber number, and that number is the last ten
      digits the user typed. */
  lemma SavedPhoneIsCanonical(f: AccountForm, editing: bool, accepted: bool)
    requires SaveProfile(f, editing, accepted).sent.Some?
    ensures var p := SaveProfile(f, editing, accepted).sent.value.phone;
            p == "" || (StartsWith(p, "+91") && Phone.IsSubscriber(p[3..]) && Phone.ValidIndianMobile(p))
    ensures var p := SaveProfile(f, editing, accepted).sent.value.phone;
            var d := Digits(f.phone);
            f.phone != "" ==> |d| >= 10 && p[3..] == d[|d| - 10..]
  {
    if f.phone != "" {
      Phone.FormatKeepsValidity(f.phone);
    }
  }
}

=== FILE: address_form.dfy ===
/** The delivery-address form: its initial values, the field validation and
    the submit handler. A saved address is its fields plus an id; a missing
    second address line is the empty string. */
module AddressForm {
  import opened Optional
  import opened Text
  import Phone

  datatype AddressFields = AddressFields(
    name: string,
    phone: string,
    addressLine1: string,
    addressLine2: string,
    city: string,
    state: string,
    country: string,
    postalCode: string,
    isDefault: bool)

  datatype Address = Address(id: string, fields: AddressFields)

  /** The country of a fresh form, and of an edited address without one. */
  const DefaultCountry: string := "India"

  const Blank: AddressFields := AddressFields("", "", "", "", "", "", DefaultCountry, "", false)

  /** The form's starting values: a copy of the address being edited (an
      empty country becomes India), or the blank form. */
  function InitialForm(editing: Option<Address>): (f: AddressFields)
    ensures editing.None? ==> f == Blank
    ensures editing.Some? && editing.value.fields.country != "" ==> f == editing.value.fields
    ensures editing.Some? ==> f.country != "" && f == editing.value.fields.(country := f.country)
  {
    match editing
    case None => Blank
    case Some(a) =>
      a.fields.(country := if a.fields.country == "" then DefaultCountry else a.fields.country)
  }

  /** The error shown under each field, if any. */
  datatype FieldErrors = FieldErrors(
    name: Option<string>,
    phone: Option<string>,
    addressLine1: Option<string>,
    city: Option<string>,
    state: Option<string>,
    postalCode: Option<string>)

  predicate NoErrors(e: FieldErrors) {
    e.name.None? && e.phone.None? && e.addressLine1.None? && e.city.None?
    && e.state.None? && e.postalCode.None?
  }

  /** A required field: an error message exactly when it is empty after trimming. */
  function Required(value: string, message: string): (e: Option<string>)
    ensures e.Some? <==> IsBlank(value)
    ensures e.Some? ==> e.value == message
  {
    TrimEmptyIffBlank(value);
    if Trim(value) == "" then Some(message) else None
  }

  /** The pattern `^\d{6}$`, tested on the untrimmed value. */
  predicate IsPostalCode(s: string) {
    |s| == 6 && AllDigits(s)
  }

  /** The postal-code check: "required" when blank, otherwise the pattern. */
  function PostalCodeError(s: string): (e: Option<string>)
    ensures e == Some("Postal code is required") <==> IsBlank(s)
    ensures e == Some("Please enter a valid 6-digit postal code") <==> !IsBlank(s) && !IsPostalCode(s)
    ensures e.None? <==> IsPostalCode(s)
  {
    assert IsPostalCode(s) ==> !IsSpace(s[0]);
    if Required(s, "Postal code is required").Some? then Some("Postal code is required")
    else if !IsPostalCode(s) then Some("Please enter a valid 6-digit postal code")
    else None
  }

  function PhoneError(phone: string): (e: Option<string>)
    ensures e.Some? <==> !Phone.ValidIndianMobile(phone)
    ensures e.Some? ==> e.value == "Please enter a valid Indian mobile number"
  {
    if Phone.ValidIndianMobile(phone) then None else Some("Please enter a valid Indian mobile number")
  }

  /** `validate`: name, first address line, city and state must be
      non-blank, the phone a valid Indian mobile number, and the postal code
      non-blank and exactly six digits. The second address line and the
      country are not checked. */
  function Validate(f: AddressFields): (e: FieldErrors)
    ensures e.name.Some? <==> IsBlank(f.name)
    ensures e.phone.Some? <==> !Phone.ValidIndianMobile(f.phone)
    ensures e.addressLine1.Some? <==> IsBlank(f.addressLine1)
    ensures e.city.Some? <==> IsBlank(f.city)
    ensures e.state.Some? <==> IsBlank(f.state)
    ensures e.postalCode == Some("Postal code is required") <==> IsBlank(f.postalCode)
    ensures e.postalCode == Some("Please enter a valid 6-digit postal code") <==>
              !IsBlank(f.postalCode) && !IsPostalCode(f.postalCode)
    ensures e.postalCode.None? <==> IsPostalCode(f.postalCode)
  {
    FieldErrors(
      Required(f.name, "Name is required"),
      PhoneError(f.phone),
      Required(f.addressLine1, "Address is required"),
      Required(f.city, "City is required"),
      Required(f.state, "State is required"),
      PostalCodeError(f.postalCode))
  }

  /** What the form hands to its owner: the fields, with the id when an
      existing address is being edited. */
  datatype Submission = Submission(id: Option<string>, fields: AddressFields)

  /** The result of pressing "Save": the errors now shown, the submission
      (if any), the form's new contents, and whether the "Please fix the
      errors" alert was raised. */
  datatype SubmitResult = SubmitResult(errors: FieldErrors, submitted: Option<Submission>, form: AddressFields, alerted: bool)

  /** `handleSubmit`: a valid form is submitted (carrying the edited
      address's id) and reset to the blank form; an invalid one is kept and
      the alert is raised. */
  function HandleSubmit(editing: Option<Address>, f: AddressFields): (r: SubmitResult)
    ensures r.errors == Validate(f)
    ensures r.submitted.Some? <==> NoErrors(Validate(f))
    ensures r.submitted.Some? ==> r.submitted.value.fields == f && r.form == Blank && !r.alerted
    ensures r.submitted.Some? ==> (r.submitted.value.id.Some? <==> editing.Some?)
    ensures r.submitted.Some? && editing.Some? ==> r.submitted.value.id == Some(editing.value.id)
    ensures r.submitted.None? ==> r.form == f && r.alerted
  {
    var e := Validate(f);
    if NoErrors(e) then
      var id := match editing case None => None case Some(a) => Some(a.id);
      SubmitResult(e, Some(Submission(id, f)), Blank, false)
    else SubmitResult(e, None, f, true)
  }

  /** A form is accepted exactly when every checked field is acceptable. */
  lemma AcceptedIff(editing: Option<Address>, f: AddressFields)
    ensures HandleSubmit(editing, f).submitted.Some? <==>
              && !IsBlank(f.name) && Phone.ValidIndianMobile(f.phone)
              && !IsBlank(f.addressLine1) && !IsBlank(f.city) && !IsBlank(f.state)
              && IsPostalCode(f.postalCode)
  {
  }

  /** The second address line, the country and the default flag are never
      checked: changing them changes no error. */
  lemma UncheckedFieldsIgnored(f: AddressFields, line2: string, country: string, isDefault: bool)
    ensures Validate(f.(addressLine2 := line2, country := country, isDefault := isDefault)) == Validate(f)
  {
  }

  /** The blank form is refused, with the "required" postal-code message. */
  lemma BlankFormRefused()
    ensures HandleSubmit(None, Blank).submitted.None?
    ensures HandleSubmit(None, Blank).errors.postalCode == Some("Postal code is required")
  {
  }

  /** A postal code with a trailing space is not blank, but is refused as
      not being six digits. */
  lemma PaddedPostalCodeRefused(f: AddressFields)
    requires f.postalCode == "110001 "
    ensures Validate(f).postalCode == Some("Please enter a valid 6-digit postal code")
  {
    assert !IsSpace(f.postalCode[0]);
  }
}

=== FILE: address_section.dfy ===
/** The address book of the checkout's address step: adding, editing,
    deleting and marking the default address, and the "Continue to Payment"
    button, which needs a selected address. The selection itself belongs to
    the checkout page; deleting the selected address reports the empty
    selection back to it. */
module AddressSection {
  import opened Optional
  import opened AddressForm
  import Seqs

  /** The list, and whether the add form or the edit form is open. */
  datatype Section = Section(addresses: seq<Address>, showForm: bool, editing: Option<Address>)

  ghost predicate UniqueIds(addresses: seq<Address>) {
    forall i, j :: 0 <= i < |addresses| && 0 <= j < |addresses| && addresses[i].id == addresses[j].id ==> i == j
  }

  /** `handleAddAddress`: the new address gets the fresh id and goes to the
      end of the list; the add form closes. */
  function AddAddress(sec: Section, fields: AddressFields, freshId: string): (r: Section)
    ensures |r.addresses| == |sec.addresses| + 1
    ensures r.addresses[..|sec.addresses|] == sec.addresses
    ensures r.addresses[|sec.addresses|].id == freshId && r.addresses[|sec.addresses|].fields == fields
    ensures !r.showForm && r.editing == sec.editing
  {
    var addresses := sec.addresses + [Address(freshId, fields)];
    assert addresses[..|sec.addresses|] == sec.addresses;
    sec.(addresses := addresses, showForm := false)
  }

  /** `handleEditAddress`: a submission carrying an id replaces every
      address with that id; one without an id changes no address. Either
      way both forms close. */
  function EditAddress(sec: Section, sub: Submission): (r: Section)
    ensures |r.addresses| == |sec.addresses|
    ensures forall i :: 0 <= i < |sec.addresses| ==> r.addresses[i].id == sec.addresses[i].id
    ensures forall i :: 0 <= i < |sec.addresses| && Some(sec.addresses[i].id) == sub.id ==>
              r.addresses[i].fields == sub.fields
    ensures forall i :: 0 <= i < |sec.addresses| && Some(sec.addresses[i].id) != sub.id ==>
              r.addresses[i] == sec.addresses[i]
    ensures !r.showForm && r.editing.None?
  {
    var addresses :=
      match sub.id
      case None => sec.addresses
      case Some(id) =>
        seq(|sec.addresses|, i requires 0 <= i < |sec.addresses| =>
          if sec.addresses[i].id == id then Address(id, sub.fields) else sec.addresses[i]);
    Section(addresses, false, None)
  }

  function NotWithId(id: string): Address -> bool {
    (a: Address) => a.id != id
  }

  /** The list after a delete, and the selection reported to the checkout
      page, if one is reported. */
  datatype Deletion = Deletion(section: Section, reportedSelection: Option<string>)

  /** `handleDeleteAddress`: only after the user confirms, the addresses
      with that id are dropped; if the deleted address was selected the
      empty selection is reported. Without confirmation nothing happens. */
  function DeleteAddress(sec: Section, selected: Option<string>, id: string, confirmed: bool): (d: Deletion)
    ensures !confirmed ==> d.section == sec && d.reportedSelection.None?
    ensures confirmed ==> Seqs.IsSubseq(d.section.addresses, sec.addresses)
    ensures confirmed ==> forall a :: a in d.section.addresses <==> a in sec.addresses && a.id != id
    ensures confirmed ==>
              forall a :: multiset(d.section.addresses)[a] == if a.id != id then multiset(sec.addresses)[a] else 0
    ensures d.reportedSelection.Some? <==> confirmed && selected == Some(id)
    ensures d.reportedSelection.Some? ==> d.reportedSelection.value == ""
    ensures d.section.showForm == sec.showForm && d.section.editing == sec.editing
  {
    if !confirmed then Deletion(sec, None)
    else
      var rest := sec.(addresses := Seqs.Filter(sec.addresses, NotWithId(id)));
      Deletion(rest, if selected == Some(id) then Some("") else None)
  }

  /** `handleSetDefault`: the address with that id becomes the default and
      every other address stops being one; nothing else changes. */
  function SetDefault(addresses: seq<Address>, id: string): (r: seq<Address>)
    ensures |r| == |addresses|
    ensures forall i :: 0 <= i < |addresses| ==> r[i].fields.isDefault == (addresses[i].id == id)
    ensures forall i :: 0 <= i < |addresses| ==>
              r[i].id == addresses[i].id && r[i].fields == addresses[i].fields.(isDefault := r[i].fields.isDefault)
  {
    seq(|addresses|, i requires 0 <= i < |addresses| =>
      addresses[i].(fields := addresses[i].fields.(isDefault := addresses[i].id == id)))
  }

  /** "Continue to Payment" is enabled exactly when an address is selected
      (the empty id counts as none). */
  function ContinueEnabled(selected: Option<string>): (b: bool)
    ensures b <==> selected.Some? && selected.value != ""
  {
    Present(selected)
  }

  /** With unique ids, setting the default leaves at most one default, and
      exactly one when the id is in the list. */
  lemma SetDefaultLeavesOneDefault(addresses: seq<Address>, id: string, i: int, j: int)
    requires UniqueIds(addresses)
    requires 0 <= i < |addresses| && 0 <= j < |addresses|
    requires SetDefault(addresses, id)[i].fields.isDefault && SetDefault(addresses, id)[j].fields.isDefault
    ensures i == j
  {
  }

  lemma SetDefaultFindsTheId(addresses: seq<Address>, id: string)
    requires exists i :: 0 <= i < |addresses| && addresses[i].id == id
    ensures exists i :: 0 <= i < |SetDefault(addresses, id)| && SetDefault(addresses, id)[i].fields.isDefault
  {
    var i :| 0 <= i < |addresses| && addresses[i].id == id;
    assert SetDefault(addresses, id)[i].fields.isDefault;
  }

  /** Adding under a fresh id keeps the ids unique; editing never changes
      an id, so it keeps them unique too. */
  lemma AddAndEditKeepIdsUnique(sec: Section, fields: AddressFields, freshId: string, sub: Submission)
    requires UniqueIds(sec.addresses)
    requires forall i :: 0 <= i < |sec.addresses| ==> sec.addresses[i].id != freshId
    ensures UniqueIds(AddAddress(sec, fields, freshId).addresses)
    ensures UniqueIds(EditAddress(sec, sub).addresses)
  {
    var added := AddAddress(sec, fields, freshId).addresses;
    forall i, j | 0 <= i < |added| && 0 <= j < |added| && added[i].id == added[j].id
      ensures i == j
    {
      if i < |sec.addresses| { assert added[i] == sec.addresses[i]; }
      if j < |sec.addresses| { assert added[j] == sec.addresses[j]; }
    }
  }

  /** Deleting the address just added (under a fresh id) restores the list. */
  lemma DeleteUndoesAdd(sec: Section, fields: AddressFields, freshId: string, selected: Option<string>)
    requires forall i :: 0 <= i < |sec.addresses| ==> sec.addresses[i].id != freshId
    ensures DeleteAddress(AddAddress(sec, fields, freshId), selected, freshId, true).section.addresses == sec.addresses
  {
    var added := AddAddress(sec, fields, freshId).addresses;
    assert added == sec.addresses + [Address(freshId, fields)];
    Seqs.FilterAppend(sec.addresses, [Address(freshId, fields)], NotWithId(freshId));
    Seqs.FilterAll(sec.addresses, NotWithId(freshId));
  }

  /** Once the selected address is deleted, the checkout cannot continue
      until another one is chosen. */
  lemma DeletingSelectionDisablesContinue(sec: Section, id: string)
    ensures var d := DeleteAddress(sec, Some(id), id, true);
            d.reportedSelection.Some? && !ContinueEnabled(d.reportedSelection)
  {
  }
}

=== FILE: auth_errors.dfy ===
/** The messages shown for the error codes of the password-reset service. */
module AuthErrors {

  /** The six codes with a message of their own. */
  const KnownCodes: seq<string> := [
    "auth/invalid-email", "auth/user-not-found", "auth/too-many-requests",
    "auth/expired-action-code", "auth/invalid-action-code", "auth/weak-password"]

  const DefaultMessage: string := "An error occurred. Please try again"

  /** `getResetPasswordErrorMessage`. */
  function ResetPasswordErrorMessage(code: string): (m: string)
    ensures |m| > 0
  {
    match code
    case "auth/invalid-email" => "Please enter a valid email address"
    case "auth/user-not-found" => "No account found with this email"
    case "auth/too-many-requests" => "Too many attempts. Please try again later"
    case "auth/expired-action-code" => "Reset link has expired. Please request a new one"
    case "auth/invalid-action-code" => "Invalid reset link. Please request a new one"
    case "auth/weak-password" => "Password should be at least 6 characters"
    case _ => DefaultMessage
  }

  /** The seven messages, in the order of `KnownCodes`, then the default. */
  const Messages: seq<string> := [
    "Please enter a valid email address", "No account found with this email",
    "Too many attempts. Please try again later", "Reset link has expired. Please request a new one",
    "Invalid reset link. Please request a new one", "Password should be at least 6 characters",
    DefaultMessage]

  /** Each known code gets the message at its own position. */
  lemma KnownCodeMessages(i: int)
    requires 0 <= i < |KnownCodes|
    ensures ResetPasswordErrorMessage(KnownCodes[i]) == Messages[i]
  {
  }

  /** The seven messages are pairwise different. */
  lemma MessagesDistinct(i: int, j: int)
    requires 0 <= i < |Messages| && 0 <= j < |Messages| && i != j
    ensures Messages[i] != Messages[j]
  {
  }

  /** Every other code gets the default message. */
  lemma UnknownCodeMessage(code: string)
    requires code !in KnownCodes
    ensures ResetPasswordErrorMessage(code) == DefaultMessage
  {
  }
}

=== FILE: card_form.dfy ===
/** The card payment form: the card-number and expiry-date formatters run on
    every keystroke, the CVV digit filter, and the submit check. */
module CardForm {
  import opened Optional
  import opened Text

  function Min(a: int, b: int): int {
    if a <= b then a else b
  }

  /** Groups of four characters separated by single spaces (the last group
      may be shorter): every fifth position holds a space, and the others
      hold the characters of `d` in order. */
  function Group4(d: string): (r: string)
    ensures |d| == 0 ==> r == ""
    ensures |d| > 0 ==> |r| == |d| + (|d| - 1) / 4
    ensures forall i :: 0 <= i < |r| ==> r[i] == if i % 5 == 4 then ' ' else d[i - i / 5]
    decreases |d|
  {
    if |d| <= 4 then d
    else
      var rest := Group4(d[4..]);
      var r := d[..4] + " " + rest;
      GroupOneMore(d, rest);
      r
  }

  /** Putting the first group and a space in front of the grouped rest
      keeps every position where `Group4` places it. */
  lemma GroupOneMore(d: string, rest: string)
    requires |d| > 4 && |rest| == |d| - 4 + (|d| - 5) / 4
    requires forall i :: 0 <= i < |rest| ==> rest[i] == if i % 5 == 4 then ' ' else d[4..][i - i / 5]
    ensures var r := d[..4] + " " + rest;
            forall i :: 0 <= i < |r| ==> r[i] == if i % 5 == 4 then ' ' else d[i - i / 5]
  {
    var r := d[..4] + " " + rest;
    forall i | 0 <= i < |r| ensures r[i] == if i % 5 == 4 then ' ' else d[i - i / 5] {
      if i < 5 {
        assert i / 5 == 0 && i % 5 == i;
      } else {
        ShiftByGroup(i);
        var k := i - 5;
        assert r[i] == rest[k];
        if k % 5 != 4 {
          assert rest[k] == d[4..][k - k / 5];
          assert 4 + (k - k / 5) == i - i / 5;
        }
      }
    }
  }

  /** Position `i` of a grouped string is position `i - 5` of its tail. */
  lemma ShiftByGroup(i: int)
    requires i >= 5
    ensures (i - 5) / 5 == i / 5 - 1 && (i - 5) % 5 == i % 5
  {
  }

  /** Grouping only inserts separators: its digits are the grouped digits. */
  lemma {:induction false} Group4Digits(d: string)
    requires AllDigits(d)
    ensures Digits(Group4(d)) == d
    decreases |d|
  {
    if |d| > 4 {
      Group4Digits(d[4..]);
      DigitsAppend(d[..4] + " ", Group4(d[4..]));
      DigitsAppend(d[..4], " ");
      assert d == d[..4] + d[4..];
    }
  }

  /** `formatCardNumber`: with at least four digits typed, the first
      sixteen of them (or all, if fewer) grouped by four; with fewer than
      four digits, the input exactly as typed. */
  function FormatCardNumber(value: string): (r: string)
    ensures var d := Digits(value);
            |d| >= 4 ==> r == Group4(d[..Min(|d|, 16)])
    ensures |Digits(value)| < 4 ==> r == value
  {
    var d := Digits(value);
    if |d| >= 4 then Group4(d[..Min(|d|, 16)]) else value
  }

  /** The pattern `^\d{4}\s\d{4}\s\d{4}\s\d{4}$`. */
  predicate IsCardNumber(s: string) {
    && |s| == 19
    && (forall i :: 0 <= i < 19 && i % 5 != 4 ==> IsDigit(s[i]))
    && IsSpace(s[4]) && IsSpace(s[9]) && IsSpace(s[14])
  }

  lemma SixteenDigitsGroup(d: string)
    requires |d| == 16 && AllDigits(d)
    ensures IsCardNumber(Group4(d))
  {
    var g := Group4(d);
    assert d[4..][..4] == d[4..8] && d[4..][4..] == d[8..];
    assert d[8..][..4] == d[8..12] && d[8..][4..] == d[12..];
    assert Group4(d[8..]) == d[8..12] + " " + d[12..];
    assert Group4(d[4..]) == d[4..8] + " " + Group4(d[8..]);
    assert g == d[..4] + " " + Group4(d[4..]);
    forall i | 0 <= i < 19 && i % 5 != 4
      ensures IsDigit(g[i])
    {
      assert g[i] == d[i - i / 5];
    }
  }

  lemma FourDigitPrefix(s: string)
    requires |s| >= 4 && AllDigits(s[..4])
    ensures |Digits(s)| >= 4
  {
    assert s == s[..4] + s[4..];
    DigitsAppend(s[..4], s[4..]);
  }

  /** The formatted card number passes the submit check exactly when at
      least sixteen digits were typed. */
  lemma CardNumberAcceptedIff(value: string)
    ensures IsCardNumber(FormatCardNumber(value)) <==> |Digits(value)| >= 16
  {
    var d := Digits(value);
    if |d| >= 16 {
      SixteenDigitsGroup(d[..16]);
    } else if |d| < 4 && IsCardNumber(value) {
      assert AllDigits(value[..4]);
      FourDigitPrefix(value);
      assert false;
    }
  }

  /** Formatting an already formatted number changes nothing. */
  lemma FormatCardNumberIdempotent(value: string)
    ensures FormatCardNumber(FormatCardNumber(value)) == FormatCardNumber(value)
  {
    var d := Digits(value);
    if |d| >= 4 {
      var x := d[..Min(|d|, 16)];
      Group4Digits(x);
      assert Digits(FormatCardNumber(value)) == x;
      assert Min(|x|, 16) == |x| && x[..|x|] == x;
    }
  }

  /** The digits of a formatted number are the digits typed, cut at sixteen. */
  lemma FormatCardNumberKeepsDigits(value: string)
    requires |Digits(value)| >= 4
    ensures Digits(FormatCardNumber(value)) == Digits(value)[..Min(|Digits(value)|, 16)]
  {
    Group4Digits(Digits(value)[..Min(|Digits(value)|, 16)]);
  }

  /** `formatExpiryDate`: up to two digits typed are kept as they are; from
      the third digit on, the first two, a slash and the next at most two. */
  function FormatExpiryDate(value: string): (r: string)
    ensures var d := Digits(value);
            |d| <= 2 ==> r == d
    ensures var d := Digits(value);
            |d| > 2 ==> r == d[..2] + "/" + d[2..Min(|d|, 4)]
  {
    var d := Digits(value);
    if |d| >= 2 then d[..2] + (if |d| > 2 then "/" + d[2..Min(|d|, 4)] else "") else d
  }

  /** The pattern `^\d{2}\/\d{2}$`. The month is not range-checked. */
  predicate IsExpiry(s: string) {
    |s| == 5 && IsDigit(s[0]) && IsDigit(s[1]) && s[2] == '/' && IsDigit(s[3]) && IsDigit(s[4])
  }

  /** The formatted expiry passes the submit check exactly when at least
      four digits were typed. */
  lemma ExpiryAcceptedIff(value: string)
    ensures IsExpiry(FormatExpiryDate(value)) <==> |Digits(value)| >= 4
  {
  }

  lemma DigitsAroundSlash(a: string, b: string)
    requires AllDigits(a) && AllDigits(b)
    ensures Digits(a + "/" + b) == a + b
  {
    DigitsAppend(a + "/", b);
    DigitsAppend(a, "/");
  }

  /** Formatting an already formatted expiry date changes nothing. */
  lemma FormatExpiryIdempotent(value: string)
    ensures FormatExpiryDate(FormatExpiryDate(value)) == FormatExpiryDate(value)
  {
    var d := Digits(value);
    if |d| > 2 {
      var m := Min(|d|, 4);
      DigitsAroundSlash(d[..2], d[2..m]);
      var e := d[..2] + d[2..m];
      assert e == d[..m];
      assert Digits(FormatExpiryDate(value)) == e;
      assert e[..2] == d[..2] && e[2..Min(|e|, 4)] == d[2..m];
    }
  }

  /** The CVV field keeps only the digits typed. */
  function CvvInput(value: string): (r: string)
    ensures AllDigits(r) && |r| <= |value|
    ensures AllDigits(value) ==> r == value
  {
    Digits(value)
  }

  /** The pattern `^\d{3,4}$`. */
  predicate IsCvv(s: string) {
    3 <= |s| <= 4 && AllDigits(s)
  }

  datatype CardData = CardData(cardNumber: string, cardHolder: string, expiryDate: string, cvv: string)

  datatype CardErrors = CardErrors(cardNumber: Option<string>, cardHolder: Option<string>, expiryDate: Option<string>, cvv: Option<string>)

  /** The errors shown and, when there are none, the data handed on. */
  datatype CardSubmit = CardSubmit(errors: CardErrors, submitted: Option<CardData>)

  /** `handleSubmit`: card number, expiry and CVV must match their
      patterns and the holder's name must not be blank; the form data is
      handed on exactly when all four hold. */
  function SubmitCard(f: CardData): (r: CardSubmit)
    ensures r.errors.cardNumber.Some? <==> !IsCardNumber(f.cardNumber)
    ensures r.errors.cardHolder.Some? <==> IsBlank(f.cardHolder)
    ensures r.errors.expiryDate.Some? <==> !IsExpiry(f.expiryDate)
    ensures r.errors.cvv.Some? <==> !IsCvv(f.cvv)
    ensures r.submitted.Some? <==>
              IsCardNumber(f.cardNumber) && !IsBlank(f.cardHolder) && IsExpiry(f.expiryDate) && IsCvv(f.cvv)
    ensures r.submitted.Some? ==> r.submitted.value == f
  {
    TrimEmptyIffBlank(f.cardHolder);
    var e := CardErrors(
      if IsCardNumber(f.cardNumber) then None else Some("Please enter a valid card number"),
      if Trim(f.cardHolder) == "" then Some("Cardholder name is required") else None,
      if IsExpiry(f.expiryDate) then None else Some("Please enter a valid expiry date (MM/YY)"),
      if IsCvv(f.cvv) then None else Some("Please enter a valid CVV"));
    var ok := e.cardNumber.None? && e.cardHolder.None? && e.expiryDate.None? && e.cvv.None?;
    CardSubmit(e, if ok then Some(f) else None)
  }

  /** For what the input handlers leave in the form, the submit check comes
      down to counting digits: at least sixteen for the card, at least four
      for the expiry, three or four for the CVV, and a non-blank name. */
  lemma TypedFormAcceptedIff(card: string, holder: string, expiry: string, cvv: string)
    ensures SubmitCard(CardData(FormatCardNumber(card), holder, FormatExpiryDate(expiry), CvvInput(cvv))).submitted.Some?
            <==> |Digits(card)| >= 16 && !IsBlank(holder) && |Digits(expiry)| >= 4 && 3 <= |Digits(cvv)| <= 4
  {
    CardNumberAcceptedIff(card);
    ExpiryAcceptedIff(expiry);
  }
}

=== FILE: cart_page.dfy ===
/** The cart page: the quantity buttons, the remove button, the checkout
    button's sign-in gate, the empty-cart view and the displayed totals. */
module CartPage {
  import opened CartStore
  import OrderTotals

  function Max(a: int, b: int): int {
    if a >= b then a else b
  }

  /** The "-" button of `line`: `updateQuantity(line.id, max(0, q - 1))`. */
  function Decrement(items: seq<CartItem>, line: CartItem): (r: seq<CartItem>)
    ensures |r| == |items|
    ensures forall i :: 0 <= i < |items| && items[i].product.id == line.product.id ==>
              r[i].quantity == Max(0, line.quantity - 1) && r[i].quantity >= 0
    ensures forall i :: 0 <= i < |items| && items[i].product.id != line.product.id ==> r[i] == items[i]
  {
    UpdateQuantity(items, line.product.id, Max(0, line.quantity - 1))
  }

  /** The "+" button of `line`: `updateQuantity(line.id, q + 1)`. */
  function Increment(items: seq<CartItem>, line: CartItem): (r: seq<CartItem>)
    ensures |r| == |items|
    ensures forall i :: 0 <= i < |items| && items[i].product.id == line.product.id ==>
              r[i].quantity == line.quantity + 1
    ensures forall i :: 0 <= i < |items| && items[i].product.id != line.product.id ==> r[i] == items[i]
  {
    UpdateQuantity(items, line.product.id, line.quantity + 1)
  }

  /** The remove button of `line`: `removeItem(line.id)`, which drops every
      size of that product, not just this line. */
  function RemoveLine(items: seq<CartItem>, line: CartItem): (r: seq<CartItem>)
    ensures forall l :: l in r <==> l in items && l.product.id != line.product.id
  {
    RemoveItem(items, line.product.id)
  }

  ghost predicate NonNegativeQuantities(items: seq<CartItem>) {
    forall i :: 0 <= i < |items| ==> items[i].quantity >= 0
  }

  /** Starting from non-negative quantities, the "-" and "+" buttons of any
      line of the cart never make a quantity negative. */
  lemma ButtonsKeepQuantitiesNonNegative(items: seq<CartItem>, line: CartItem)
    requires NonNegativeQuantities(items)
    requires line in items
    ensures NonNegativeQuantities(Decrement(items, line))
    ensures NonNegativeQuantities(Increment(items, line))
  {
  }

  /** Pressing "-" on one size of a product also sets the quantity of its
      other sizes: afterwards every line of the product holds the same
      quantity. */
  lemma DecrementSetsEverySize(items: seq<CartItem>, line: CartItem, i: int, j: int)
    requires 0 <= i < |items| && 0 <= j < |items|
    requires items[i].product.id == line.product.id && items[j].product.id == line.product.id
    ensures Decrement(items, line)[i].quantity == Decrement(items, line)[j].quantity
  {
  }

  datatype Route = LoginRoute | CheckoutRoute

  /** What the checkout button does: an error notice (if any) and where it
      navigates. */
  datatype CheckoutClick = CheckoutClick(error: Optional.Option<string>, route: Route)

  /** `handleCheckout`: without a signed-in user it reports and goes to the
      login page; otherwise it goes to checkout. */
  function HandleCheckout(signedIn: bool): (c: CheckoutClick)
    ensures c.route == CheckoutRoute <==> signedIn
    ensures c.error.Some? <==> !signedIn
    ensures !signedIn ==> c.error == Optional.Some("Please login to continue")
  {
    if !signedIn then CheckoutClick(Optional.Some("Please login to continue"), LoginRoute)
    else CheckoutClick(Optional.None, CheckoutRoute)
  }

  /** What the page shows: the empty-cart message, or the lines with the
      summary column. */
  datatype View = EmptyCartView | LinesView(lines: seq<CartItem>, subtotal: int, tax: real, total: real)

  function ShowCart(items: seq<CartItem>, total: int): (v: View)
    ensures v.EmptyCartView? <==> |items| == 0
    ensures v.LinesView? ==> v.lines == items && v.subtotal == total
    ensures v.LinesView? ==> v.tax == OrderTotals.Summarize(items, total).tax
    ensures v.LinesView? ==> v.total == OrderTotals.Summarize(items, total).grandTotal
  {
    if |items| == 0 then EmptyCartView
    else LinesView(items, total, total as real * 0.18, total as real + total as real * 0.18)
  }
}

=== FILE: cart_store.dfy ===
/** The cart context: an ordered list of cart lines. `addItem` merges on the
    pair (product id, size); `removeItem` and `updateQuantity` match on the
    product id alone, so they act on every size of that product; the total
    is the running sum of price times quantity. */
module CartStore {
  import opened Optional
  import opened Catalog
  import Seqs

  /** A cart line: the product snapshot taken when it was added, the
      quantity and the chosen size (absent for products without sizes). */
  datatype CartItem = CartItem(product: Product, quantity: int, size: Option<string>) {
    /** What the line costs: unit price times quantity. */
    function Amount(): int {
      product.price * quantity
    }
  }

  /** Two lines are the same line when product id and size both agree. */
  predicate SameLine(a: CartItem, b: CartItem) {
    a.product.id == b.product.id && a.size == b.size
  }

  /** No two lines of the cart are the same line. */
  ghost predicate DistinctLines(items: seq<CartItem>) {
    forall i, j :: 0 <= i < j < |items| ==> !SameLine(items[i], items[j])
  }

  ghost predicate HasLine(items: seq<CartItem>, p: CartItem) {
    exists i :: 0 <= i < |items| && SameLine(items[i], p)
  }

  function MatchesLine(p: CartItem): CartItem -> bool {
    (l: CartItem) => SameLine(l, p)
  }

  /** The `findIndex` of `addItem`: first line that is the same line as `p`. */
  function FindLine(items: seq<CartItem>, p: CartItem): (k: int)
    ensures -1 <= k < |items|
    ensures k >= 0 ==> SameLine(items[k], p) && forall j :: 0 <= j < k ==> !SameLine(items[j], p)
    ensures k == -1 <==> !HasLine(items, p)
  {
    Seqs.FindFirst(items, MatchesLine(p))
  }

  /** `addItem`: when the cart already holds the same line, its quantity
      grows by the added quantity and nothing else changes; otherwise the
      new line is appended after the existing ones. */
  function AddItem(items: seq<CartItem>, p: CartItem): (r: seq<CartItem>)
    ensures HasLine(items, p) ==> |r| == |items|
    ensures HasLine(items, p) ==>
              var k := FindLine(items, p);
              && r[k].product == items[k].product && r[k].size == items[k].size
              && r[k].quantity == items[k].quantity + p.quantity
    ensures !HasLine(items, p) ==> |r| == |items| + 1 && r[..|items|] == items && r[|items|] == p
    ensures forall i :: 0 <= i < |items| && i != FindLine(items, p) ==> r[i] == items[i]
  {
    var k := FindLine(items, p);
    if k >= 0 then
      items[k := items[k].(quantity := items[k].quantity + p.quantity)]
    else
      assert (items + [p])[..|items|] == items;
      items + [p]
  }

  function NotOfProduct(id: string): CartItem -> bool {
    (l: CartItem) => l.product.id != id
  }

  function OfProduct(id: string): CartItem -> bool {
    (l: CartItem) => l.product.id == id
  }

  /** `removeItem`: every line of that product goes, whatever its size; the
      other lines stay, in order. */
  function RemoveItem(items: seq<CartItem>, id: string): (r: seq<CartItem>)
    ensures Seqs.IsSubseq(r, items)
    ensures forall l :: l in r <==> l in items && l.product.id != id
    ensures forall l: CartItem :: l.product.id != id ==> multiset(r)[l] == multiset(items)[l]
  {
    Seqs.Filter(items, NotOfProduct(id))
  }

  /** The lines of one product, in cart order. */
  function LinesOf(items: seq<CartItem>, id: string): (r: seq<CartItem>)
    ensures forall l :: l in r <==> l in items && l.product.id == id
    ensures forall l: CartItem :: multiset(r)[l] == if l.product.id == id then multiset(items)[l] else 0
  {
    Seqs.Filter(items, OfProduct(id))
  }

  /** `updateQuantity`: every line of that product takes the new quantity.
      No line is ever removed, not even for a quantity of zero or less; the
      order and every other field stay as they were. */
  function UpdateQuantity(items: seq<CartItem>, id: string, quantity: int): (r: seq<CartItem>)
    ensures |r| == |items|
    ensures forall i :: 0 <= i < |items| ==>
              r[i].product == items[i].product && r[i].size == items[i].size
    ensures forall i :: 0 <= i < |items| && items[i].product.id == id ==> r[i].quantity == quantity
    ensures forall i :: 0 <= i < |items| && items[i].product.id != id ==> r[i] == items[i]
  {
    seq(|items|, i requires 0 <= i < |items| =>
      if items[i].product.id == id then items[i].(quantity := quantity) else items[i])
  }

  /** `clearCart` */
  function ClearCart(items: seq<CartItem>): (r: seq<CartItem>)
    ensures |r| == 0
  {
    []
  }

  /** Sum of the line amounts. */
  function Subtotal(items: seq<CartItem>): int
    decreases |items|
  {
    if |items| == 0 then 0 else items[0].Amount() + Subtotal(items[1..])
  }

  /** Summed quantity of the lines that are the same line as `key`. */
  function QuantityOf(items: seq<CartItem>, key: CartItem): int
    decreases |items|
  {
    if |items| == 0 then 0
    else (if SameLine(items[0], key) then items[0].quantity else 0) + QuantityOf(items[1..], key)
  }

  /** `total`: the `reduce` that adds price times quantity line by line,
      starting from 0. */
  method Total(items: seq<CartItem>) returns (t: int)
    ensures t == Subtotal(items)
  {
    t := 0;
    var i := 0;
    while i < |items|
      invariant 0 <= i <= |items|
      invariant t == Subtotal(items[..i])
    {
      SubtotalAppend(items[..i], [items[i]]);
      assert items[..i + 1] == items[..i] + [items[i]];
      t := t + items[i].Amount();
      i := i + 1;
    }
    assert items[..i] == items;
  }

  lemma {:induction false} SubtotalAppend(a: seq<CartItem>, b: seq<CartItem>)
    ensures Subtotal(a + b) == Subtotal(a) + Subtotal(b)
    decreases |a|
  {
    if |a| == 0 {
      assert a + b == b;
    } else {
      assert (a + b)[1..] == a[1..] + b;
      SubtotalAppend(a[1..], b);
    }
  }

  /** Replacing one line changes the subtotal by the difference of the two
      line amounts. */
  lemma {:induction false} SubtotalUpdate(items: seq<CartItem>, k: int, x: CartItem)
    requires 0 <= k < |items|
    ensures Subtotal(items[k := x]) == Subtotal(items) - items[k].Amount() + x.Amount()
    decreases |items|
  {
    if k > 0 {
      SubtotalUpdate(items[1..], k - 1, x);
      assert items[k := x][1..] == items[1..][k - 1 := x];
    }
  }

  /** The empty cart totals 0. */
  lemma SubtotalOfEmpty()
    ensures Subtotal([]) == 0
  {
  }

  /** Adding a line raises the subtotal by the added quantity priced at the
      unit price of the line it lands on: the existing line's snapshot when
      it merges, its own price when it is appended. */
  lemma SubtotalAfterAdd(items: seq<CartItem>, p: CartItem)
    ensures HasLine(items, p) ==>
              Subtotal(AddItem(items, p)) == Subtotal(items) + items[FindLine(items, p)].product.price * p.quantity
    ensures !HasLine(items, p) ==> Subtotal(AddItem(items, p)) == Subtotal(items) + p.Amount()
  {
    var k := FindLine(items, p);
    if k >= 0 {
      var x := items[k].(quantity := items[k].quantity + p.quantity);
      SubtotalUpdate(items, k, x);
      assert x.Amount() == items[k].Amount() + items[k].product.price * p.quantity;
    } else {
      SubtotalAppend(items, [p]);
    }
  }

  /** Appending one line adds its contribution to the summed quantity. */
  lemma {:induction false} QuantityAppend(items: seq<CartItem>, x: CartItem, key: CartItem)
    ensures QuantityOf(items + [x], key) == QuantityOf(items, key) + (if SameLine(x, key) then x.quantity else 0)
    decreases |items|
  {
    if |items| > 0 {
      assert (items + [x])[1..] == items[1..] + [x];
      QuantityAppend(items[1..], x, key);
    }
  }

  /** Replacing one line exchanges its contribution to the summed quantity. */
  lemma {:induction false} QuantityUpdate(items: seq<CartItem>, k: int, x: CartItem, key: CartItem)
    requires 0 <= k < |items|
    ensures QuantityOf(items[k := x], key)
            == QuantityOf(items, key) - (if SameLine(items[k], key) then items[k].quantity else 0)
               + (if SameLine(x, key) then x.quantity else 0)
    decreases |items|
  {
    if k > 0 {
      QuantityUpdate(items[1..], k - 1, x, key);
      assert items[k := x][1..] == items[1..][k - 1 := x];
    }
  }

  /** Seen as a bag of quantities per (id, size), `addItem` adds exactly the
      added quantity to the added line's key and leaves every other key as
      it was, whether it merges or appends. */
  lemma QuantityAfterAdd(items: seq<CartItem>, p: CartItem, key: CartItem)
    ensures QuantityOf(AddItem(items, p), key)
            == QuantityOf(items, key) + (if SameLine(p, key) then p.quantity else 0)
  {
    var k := FindLine(items, p);
    if k >= 0 {
      var x := items[k].(quantity := items[k].quantity + p.quantity);
      QuantityUpdate(items, k, x, key);
    } else {
      QuantityAppend(items, p, key);
    }
  }

  /** `addItem` keeps the cart free of duplicate lines. */
  lemma AddKeepsLinesDistinct(items: seq<CartItem>, p: CartItem)
    requires DistinctLines(items)
    ensures DistinctLines(AddItem(items, p))
  {
    var r := AddItem(items, p);
    if !HasLine(items, p) {
      forall i, j | 0 <= i < j < |r|
        ensures !SameLine(r[i], r[j])
      {
        if j == |items| {
          assert r[i] == items[i];
        }
      }
    } else {
      forall i, j | 0 <= i < j < |r|
        ensures !SameLine(r[i], r[j])
      {
        assert SameLine(r[i], items[i]) && SameLine(r[j], items[j]);
      }
    }
  }

  /** Two adds of the same line to a cart without it leave one line for it,
      at the end, holding the sum of the two quantities. */
  lemma RepeatedAddMerges(items: seq<CartItem>, p1: CartItem, p2: CartItem)
    requires !HasLine(items, p1)
    requires SameLine(p1, p2)
    ensures var r := AddItem(AddItem(items, p1), p2);
            && |r| == |items| + 1
            && r[..|items|] == items
            && r[|items|].product == p1.product && r[|items|].size == p1.size
            && r[|items|].quantity == p1.quantity + p2.quantity
  {
    var once := AddItem(items, p1);
    assert SameLine(once[|items|], p2);
    assert HasLine(once, p2);
    var k := FindLine(once, p2);
    if k < |items| {
      assert once[k] == items[k];
      assert SameLine(items[k], p1);
      assert false;
    }
  }

  /** Every line left in the rest of the cart after a removal differs from
      the first line of a cart without duplicate lines. */
  lemma HeadDiffersFromRemovedRest(items: seq<CartItem>, id: string)
    requires |items| > 0 && DistinctLines(items)
    ensures forall j :: 0 <= j < |RemoveItem(items[1..], id)| ==> !SameLine(items[0], RemoveItem(items[1..], id)[j])
  {
    var rest := RemoveItem(items[1..], id);
    forall j | 0 <= j < |rest|
      ensures !SameLine(items[0], rest[j])
    {
      assert rest[j] in items[1..];
      var m :| 0 <= m < |items[1..]| && items[1..][m] == rest[j];
      assert items[m + 1] == rest[j];
    }
  }

  /** `removeItem` keeps the cart free of duplicate lines. */
  lemma {:induction false} RemoveKeepsLinesDistinct(items: seq<CartItem>, id: string)
    requires DistinctLines(items)
    ensures DistinctLines(RemoveItem(items, id))
    decreases |items|
  {
    if |items| > 0 {
      var rest := RemoveItem(items[1..], id);
      RemoveKeepsLinesDistinct(items[1..], id);
      Seqs.FilterStep(items, NotOfProduct(id));
      if items[0].product.id != id {
        HeadDiffersFromRemovedRest(items, id);
        var r := [items[0]] + rest;
        forall i, j | 0 <= i < j < |r|
          ensures !SameLine(r[i], r[j])
        {
          assert r[j] == rest[j - 1];
          if i > 0 {
            assert r[i] == rest[i - 1];
          }
        }
        assert RemoveItem(items, id) == r;
      } else {
        assert RemoveItem(items, id) == rest;
      }
    }
  }

  /** The subtotal splits into the lines of one product and the rest, so
      removing a product takes exactly its lines' amounts off the total. */
  lemma {:induction false} SubtotalSplitsByProduct(items: seq<CartItem>, id: string)
    ensures Subtotal(items) == Subtotal(RemoveItem(items, id)) + Subtotal(LinesOf(items, id))
    decreases |items|
  {
    if |items| > 0 {
      SubtotalSplitsByProduct(items[1..], id);
    }
  }

  /** After an update, removing the product gives what removing it would
      have given before: the update touches only that product's lines. */
  lemma {:induction false} RemoveAfterUpdate(items: seq<CartItem>, id: string, quantity: int)
    ensures RemoveItem(UpdateQuantity(items, id, quantity), id) == RemoveItem(items, id)
    decreases |items|
  {
    if |items| > 0 {
      var u := UpdateQuantity(items, id, quantity);
      assert u[1..] == UpdateQuantity(items[1..], id, quantity);
      RemoveAfterUpdate(items[1..], id, quantity);
    }
  }

  /** Setting a product's quantity to 0 is not the same as removing it: the
      lines stay in the cart, with quantity 0. */
  lemma UpdateToZeroKeepsLines(items: seq<CartItem>, id: string)
    requires exists i :: 0 <= i < |items| && items[i].product.id == id
    ensures |UpdateQuantity(items, id, 0)| == |items|
    ensures |RemoveItem(items, id)| < |items|
    ensures UpdateQuantity(items, id, 0) != RemoveItem(items, id)
  {
    var i :| 0 <= i < |items| && items[i].product.id == id;
    Seqs.FilterDrops(items, NotOfProduct(id), i);
  }

  /** `updateQuantity` keeps the cart free of duplicate lines. */
  lemma UpdateKeepsLinesDistinct(items: seq<CartItem>, id: string, quantity: int)
    requires DistinctLines(items)
    ensures DistinctLines(UpdateQuantity(items, id, quantity))
  {
    var r := UpdateQuantity(items, id, quantity);
    forall i, j | 0 <= i < j < |r|
      ensures !SameLine(r[i], r[j])
    {
      assert SameLine(r[i], items[i]) && SameLine(r[j], items[j]);
    }
  }
}

=== FILE: catalog.dfy ===
/** The product catalogue held by the product context: the `Product` record,
    the conversion of the bundled product data into it, and the list
    operations add, update, delete and category lookup. Every mutation hands
    the whole new list to local storage. */
module Catalog {
  import opened Optional
  import Seqs

  datatype MediaKind = ImageMedia | VideoMedia

  datatype Media = Media(url: string, kind: MediaKind)

  datatype Product = Product(
    id: string,
    name: string,
    description: string,
    price: int,
    image: Option<string>,
    media: seq<Media>,
    category: string,
    subcategory: Option<string>,
    inStock: Option<bool>,
    sizes: Option<seq<string>>,
    color: Option<string>)

  /** One entry of the bundled product data, before conversion. */
  datatype RawProduct = RawProduct(
    id: string,
    name: string,
    price: int,
    description: string,
    category: string,
    image: Option<string>,
    inStock: Option<bool>,
    sizes: Option<seq<string>>)

  /** The sizes a newly added product gets when it brings none. */
  const DefaultSizes: seq<string> := ["S", "M", "L", "XL"]

  /** Factor applied to a numeric price of the bundled data. */
  const PriceFactor: int := 75

  /** `convertToProduct`: media start empty, a missing stock flag means in
      stock (an explicit `false` is kept), missing sizes become the empty
      list, and neither subcategory nor colour is carried over. */
  function ConvertToProduct(raw: RawProduct): (p: Product)
    ensures p.id == raw.id && p.name == raw.name && p.description == raw.description
    ensures p.category == raw.category && p.image == raw.image
    ensures p.price == raw.price * PriceFactor
    ensures p.media == []
    ensures raw.inStock.None? ==> p.inStock == Some(true)
    ensures raw.inStock.Some? ==> p.inStock == raw.inStock
    ensures p.sizes.Some? && (raw.sizes.Some? ==> p.sizes == raw.sizes)
    ensures raw.sizes.None? ==> p.sizes == Some([])
    ensures p.subcategory.None? && p.color.None?
  {
    Product(raw.id, raw.name, raw.description, raw.price * PriceFactor, raw.image, [],
            raw.category, None, Some(raw.inStock.OrElse(true)), Some(raw.sizes.OrElse([])), None)
  }

  /** The result of a catalogue mutation: the new list and the snapshot
      written to local storage. */
  datatype Mutation = Mutation(products: seq<Product>, saved: seq<Product>)

  /** The two products agree on every field that `addProduct` does not set. */
  predicate SameDetails(a: Product, b: Product) {
    && a.name == b.name && a.description == b.description && a.price == b.price
    && a.image == b.image && a.media == b.media && a.category == b.category
    && a.subcategory == b.subcategory && a.color == b.color
  }

  /** `addProduct`: append one product carrying the fresh id, marked in
      stock, keeping its sizes when it has them and taking the default
      sizes otherwise. */
  function AddProduct(products: seq<Product>, p: Product, freshId: string): (m: Mutation)
    ensures |m.products| == |products| + 1
    ensures m.products[..|products|] == products
    ensures var added := m.products[|products|];
            && added.id == freshId && added.inStock == Some(true) && SameDetails(added, p)
            && (p.sizes.Some? ==> added.sizes == p.sizes)
            && (p.sizes.None? ==> added.sizes == Some(DefaultSizes))
    ensures m.saved == m.products
  {
    var added := p.(id := freshId, inStock := Some(true),
                    sizes := Some(p.sizes.OrElse(DefaultSizes)));
    var updated := products + [added];
    assert updated[..|products|] == products;
    Mutation(updated, updated)
  }

  /** `updateProduct`: every product with the same id is replaced; the list
      keeps its length and every other entry. */
  function UpdateProduct(products: seq<Product>, updated: Product): (m: Mutation)
    ensures |m.products| == |products|
    ensures forall i :: 0 <= i < |products| && products[i].id == updated.id ==> m.products[i] == updated
    ensures forall i :: 0 <= i < |products| && products[i].id != updated.id ==> m.products[i] == products[i]
    ensures m.saved == m.products
  {
    var ps := seq(|products|, i requires 0 <= i < |products| =>
                if products[i].id == updated.id then updated else products[i]);
    Mutation(ps, ps)
  }

  function NotWithId(id: string): Product -> bool {
    (p: Product) => p.id != id
  }

  /** `deleteProduct`: exactly the products with that id are dropped and the
      rest keep their order. */
  function DeleteProduct(products: seq<Product>, id: string): (m: Mutation)
    ensures Seqs.IsSubseq(m.products, products)
    ensures forall p :: p in m.products <==> p in products && p.id != id
    ensures forall p :: p in products && p.id != id ==> multiset(m.products)[p] == multiset(products)[p]
    ensures m.saved == m.products
  {
    var ps := Seqs.Filter(products, NotWithId(id));
    Mutation(ps, ps)
  }

  function InCategory(category: string): Product -> bool {
    (p: Product) => category == "All" || p.category == category
  }

  /** `getProductsByCategory`: 'All' selects every product, any other name
      the products of exactly that category, in their order. */
  function ProductsByCategory(products: seq<Product>, category: string): (r: seq<Product>)
    ensures Seqs.IsSubseq(r, products)
    ensures category == "All" ==> r == products
    ensures category != "All" ==> forall p :: p in r <==> p in products && p.category == category
    ensures category != "All" ==>
              forall p :: multiset(r)[p] == if p.category == category then multiset(products)[p] else 0
  {
    if category == "All" then
      Seqs.FilterAll(products, InCategory(category));
      Seqs.Filter(products, InCategory(category))
    else
      Seqs.Filter(products, InCategory(category))
  }

  /** Deleting the id a product was just added under undoes the addition,
      provided no product had that id before. */
  lemma DeleteUndoesAdd(products: seq<Product>, p: Product, freshId: string)
    requires forall i :: 0 <= i < |products| ==> products[i].id != freshId
    ensures DeleteProduct(AddProduct(products, p, freshId).products, freshId).products == products
  {
    var added := AddProduct(products, p, freshId).products;
    assert added == products + [added[|products|]];
    Seqs.FilterAppend(products, [added[|products|]], NotWithId(freshId));
    Seqs.FilterAll(products, NotWithId(freshId));
  }

  /** Deleting after an update is the same as deleting: the update only
      touches products that the deletion removes. */
  lemma {:induction false} DeleteAfterUpdate(products: seq<Product>, updated: Product)
    ensures DeleteProduct(UpdateProduct(products, updated).products, updated.id).products
            == DeleteProduct(products, updated.id).products
    decreases |products|
  {
    var id := updated.id;
    if |products| > 0 {
      var u := UpdateProduct(products, updated).products;
      DeleteAfterUpdate(products[1..], updated);
      assert u[1..] == UpdateProduct(products[1..], updated).products;
      Seqs.FilterStep(u, NotWithId(id));
      Seqs.FilterStep(products, NotWithId(id));
    }
  }

  /** An update whose id matches no product leaves the catalogue as it is. */
  lemma UpdateUnknownIsIdentity(products: seq<Product>, updated: Product)
    requires forall i :: 0 <= i < |products| ==> products[i].id != updated.id
    ensures UpdateProduct(products, updated).products == products
  {
  }
}

=== FILE: category_pages.dfy ===
/** The three category pages (men, women, kids). Each lists the catalogue's
    products of its own category that pass every non-empty filter of the
    selection: subcategory, size, colour and price range. The pages differ
    only in their category, their filter options and their price ranges. */
module CategoryPages {
  import opened Optional
  import opened Catalog
  import opened FilterSelection
  import ProductFilters
  import Seqs

  /** The price test behind one price-range option. Both ends of a middle
      range are included. */
  datatype PriceBound = Under(limit: int) | Between(low: int, high: int) | Above(limit: int)

  predicate InBound(b: PriceBound, price: int) {
    match b
    case Under(limit) => price < limit
    case Between(low, high) => low <= price <= high
    case Above(limit) => price > limit
  }

  datatype PriceOption = PriceOption(title: string, bound: PriceBound)

  /** One group of checkboxes in the filter drawer. */
  datatype FilterGroup = FilterGroup(id: string, title: string, options: seq<string>)

  datatype CategoryPage = CategoryPage(category: string, groups: seq<FilterGroup>, prices: seq<PriceOption>)

  function PriceTitles(prices: seq<PriceOption>): (r: seq<string>)
    ensures |r| == |prices| && forall i :: 0 <= i < |prices| ==> r[i] == prices[i].title
  {
    seq(|prices|, i requires 0 <= i < |prices| => prices[i].title)
  }

  const MensPrices: seq<PriceOption> :=
    [PriceOption("Under ₹1000", Under(1000)), PriceOption("₹1000-₹2000", Between(1000, 2000)),
     PriceOption("₹2000-₹5000", Between(2000, 5000)), PriceOption("Above ₹5000", Above(5000))]

  const KidsPrices: seq<PriceOption> :=
    [PriceOption("Under ₹500", Under(500)), PriceOption("₹500-₹1000", Between(500, 1000)),
     PriceOption("₹1000-₹2000", Between(1000, 2000)), PriceOption("Above ₹2000", Above(2000))]

  const Mens: CategoryPage := CategoryPage("Men", [
    FilterGroup("category", "Category", ["Shirts", "Pants", "Jackets", "Accessories"]),
    FilterGroup("size", "Size", ["XS", "S", "M", "L", "XL", "XXL"]),
    FilterGroup("color", "Color", ["Black", "White", "Blue", "Gray", "Green", "Red"]),
    FilterGroup("price", "Price Range", PriceTitles(MensPrices))], MensPrices)

  /** The women's page shares the men's price ranges. */
  const Womens: CategoryPage := CategoryPage("Women", [
    FilterGroup("category", "Category", ["Dresses", "Tops", "Skirts", "Pants", "Accessories"]),
    FilterGroup("size", "Size", ["XS", "S", "M", "L", "XL"]),
    FilterGroup("color", "Color", ["Black", "White", "Pink", "Blue", "Red", "Green"]),
    FilterGroup("price", "Price Range", PriceTitles(MensPrices))], MensPrices)

  const Kids: CategoryPage := CategoryPage("Kids", [
    FilterGroup("category", "Category", ["T-Shirts", "Pants", "Dresses", "Shoes", "Accessories"]),
    FilterGroup("size", "Size", ["2-3Y", "3-4Y", "4-5Y", "5-6Y", "6-7Y", "7-8Y"]),
    FilterGroup("color", "Color", ["Blue", "Pink", "Yellow", "Green", "Red", "White"]),
    FilterGroup("price", "Price Range", PriceTitles(KidsPrices))], KidsPrices)

  /** The chain of range tests for one chosen price option: the first range
      with that title decides, an unknown title matches nothing. */
  function RangeMatches(prices: seq<PriceOption>, title: string, price: int): (b: bool)
    ensures b ==> exists i :: 0 <= i < |prices| && prices[i].title == title && InBound(prices[i].bound, price)
    decreases |prices|
  {
    if |prices| == 0 then false
    else if prices[0].title == title then InBound(prices[0].bound, price)
    else
      var rest := RangeMatches(prices[1..], title, price);
      assert rest ==> prices[1..][0..] == prices[1..];
      rest
  }

  /** Option `i` is the first one carrying `title`. */
  predicate IsFirstTitled(prices: seq<PriceOption>, title: string, i: int) {
    0 <= i < |prices| && prices[i].title == title && forall j :: 0 <= j < i ==> prices[j].title != title
  }

  /** Past an option with another title, the first titled option of the
      rest is the first titled option of the whole list, one place on. */
  lemma FirstTitledShift(prices: seq<PriceOption>, title: string, i: int)
    requires |prices| > 0 && prices[0].title != title
    ensures IsFirstTitled(prices[1..], title, i) <==> IsFirstTitled(prices, title, i + 1)
  {
    if IsFirstTitled(prices, title, i + 1) {
      assert forall j :: 0 <= j < i ==> prices[1..][j] == prices[j + 1];
    }
    if IsFirstTitled(prices[1..], title, i) {
      forall j | 0 <= j < i + 1 ensures prices[j].title != title {
        if j > 0 {
          assert prices[j] == prices[1..][j - 1];
        }
      }
    }
  }

  /** The range test is decided by the first option carrying the chosen
      title: the product matches exactly when that option's bound admits
      its price. */
  lemma {:induction false} RangeMatchesFirst(prices: seq<PriceOption>, title: string, price: int)
    ensures RangeMatches(prices, title, price) <==>
              exists i :: IsFirstTitled(prices, title, i) && InBound(prices[i].bound, price)
    decreases |prices|
  {
    if |prices| > 0 && prices[0].title != title {
      RangeMatchesFirst(prices[1..], title, price);
      if RangeMatches(prices, title, price) {
        var i :| IsFirstTitled(prices[1..], title, i) && InBound(prices[1..][i].bound, price);
        FirstTitledShift(prices, title, i);
      }
      if exists i :: IsFirstTitled(prices, title, i) && InBound(prices[i].bound, price) {
        var i :| IsFirstTitled(prices, title, i) && InBound(prices[i].bound, price);
        FirstTitledShift(prices, title, i - 1);
      }
    } else if |prices| > 0 {
      assert IsFirstTitled(prices, title, 0);
    }
  }

  /** One filter of the selection, for one product: an empty filter passes
      everything, and so does a filter id the page does not know. */
  predicate EntryOk(page: CategoryPage, id: string, values: seq<string>, p: Product) {
    if |values| == 0 then true
    else if id == "category" then p.subcategory.Some? && p.subcategory.value in values
    else if id == "size" then p.sizes.Some? && exists v :: v in values && v in p.sizes.value
    else if id == "color" then p.color.Some? && p.color.value in values
    else if id == "price" then exists v :: v in values && RangeMatches(page.prices, v, p.price)
    else true
  }

  /** The loop over the selection's entries, in order. */
  predicate EntriesOk(page: CategoryPage, sel: Selection, p: Product)
    decreases |sel|
  {
    |sel| == 0 || (EntryOk(page, sel[0].id, sel[0].values, p) && EntriesOk(page, sel[1..], p))
  }

  /** The test a product passes to be listed on the page. */
  predicate PassesFilters(page: CategoryPage, sel: Selection, p: Product) {
    p.category == page.category && EntriesOk(page, sel, p)
  }

  function Passes(page: CategoryPage, sel: Selection): Product -> bool {
    (p: Product) => PassesFilters(page, sel, p)
  }

  /** `filterProducts`: the products of the page's category that pass every
      filter, in catalogue order. */
  function FilterProducts(page: CategoryPage, sel: Selection, products: seq<Product>): (r: seq<Product>)
    ensures Seqs.IsSubseq(r, products)
    ensures forall p :: p in r <==> p in products && PassesFilters(page, sel, p)
    ensures forall p :: multiset(r)[p] == if PassesFilters(page, sel, p) then multiset(products)[p] else 0
  {
    Seqs.Filter(products, Passes(page, sel))
  }

  /** The loop accepts a product exactly when every entry accepts it. */
  lemma {:induction false} EntriesOkIffEveryEntry(page: CategoryPage, sel: Selection, p: Product)
    ensures EntriesOk(page, sel, p) <==> forall i :: 0 <= i < |sel| ==> EntryOk(page, sel[i].id, sel[i].values, p)
    decreases |sel|
  {
    if |sel| > 0 {
      EntriesOkIffEveryEntry(page, sel[1..], p);
      assert forall i :: 1 <= i < |sel| ==> sel[i] == sel[1..][i - 1];
    }
  }

  /** A product the loop accepts is accepted by the values of every filter
      id. */
  lemma EntryOkOfLookup(page: CategoryPage, sel: Selection, p: Product, k: string)
    requires UniqueKeys(sel) && EntriesOk(page, sel, p)
    ensures EntryOk(page, k, Lookup(sel, k), p)
  {
    EntriesOkIffEveryEntry(page, sel, p);
    if HasKey(sel, k) {
      var i :| 0 <= i < |sel| && sel[i].id == k;
      LookupFindsEntry(sel, i);
    }
  }

  /** With distinct keys, the loop over the entries asks exactly that every
      filter id's values accept the product: the order of the entries does
      not matter. */
  lemma EntriesOkIffEveryFilter(page: CategoryPage, sel: Selection, p: Product)
    requires UniqueKeys(sel)
    ensures EntriesOk(page, sel, p) <==> forall k :: EntryOk(page, k, Lookup(sel, k), p)
  {
    EntriesOkIffEveryEntry(page, sel, p);
    if EntriesOk(page, sel, p) {
      forall k ensures EntryOk(page, k, Lookup(sel, k), p) {
        EntryOkOfLookup(page, sel, p, k);
      }
    } else {
      var i :| 0 <= i < |sel| && !EntryOk(page, sel[i].id, sel[i].values, p);
      LookupFindsEntry(sel, i);
      assert !EntryOk(page, sel[i].id, Lookup(sel, sel[i].id), p);
    }
  }

  /** Two selections whose filters pass the same verdict on a product, id
      by id, pass the same verdict in the loop. */
  lemma AgreeingFiltersAgree(page: CategoryPage, a: Selection, b: Selection, x: Product)
    requires UniqueKeys(a) && UniqueKeys(b)
    requires forall k :: EntryOk(page, k, Lookup(a, k), x) == EntryOk(page, k, Lookup(b, k), x)
    ensures EntriesOk(page, a, x) == EntriesOk(page, b, x)
  {
    EntriesOkIffEveryFilter(page, a, x);
    EntriesOkIffEveryFilter(page, b, x);
    if EntriesOk(page, a, x) {
      forall k ensures EntryOk(page, k, Lookup(b, k), x) {
        EntryOkOfLookup(page, a, x, k);
      }
    }
    if EntriesOk(page, b, x) {
      forall k ensures EntryOk(page, k, Lookup(a, k), x) {
        EntryOkOfLookup(page, b, x, k);
      }
    }
  }

  /** Two selections that give every filter id the same values list the
      same products. */
  lemma SameLookupsSameProducts(page: CategoryPage, a: Selection, b: Selection, products: seq<Product>)
    requires UniqueKeys(a) && UniqueKeys(b)
    requires forall k :: Lookup(a, k) == Lookup(b, k)
    ensures FilterProducts(page, a, products) == FilterProducts(page, b, products)
  {
    forall i | 0 <= i < |products|
      ensures Passes(page, a)(products[i]) == Passes(page, b)(products[i])
    {
      var x := products[i];
      forall k ensures EntryOk(page, k, Lookup(a, k), x) == EntryOk(page, k, Lookup(b, k), x) {
        assert Lookup(a, k) == Lookup(b, k);
      }
      AgreeingFiltersAgree(page, a, b, x);
    }
    Seqs.FilterAgree(products, Passes(page, a), Passes(page, b));
  }

  /** Choosing two different filters in either order lists the same
      products. */
  lemma SetFiltersCommute(page: CategoryPage, sel: Selection, id1: string, v1: seq<string>,
                          id2: string, v2: seq<string>, products: seq<Product>)
    requires UniqueKeys(sel) && id1 != id2
    ensures FilterProducts(page, SetFilter(SetFilter(sel, id1, v1), id2, v2), products)
            == FilterProducts(page, SetFilter(SetFilter(sel, id2, v2), id1, v1), products)
  {
    SetFilterKeepsKeysUnique(sel, id1, v1);
    SetFilterKeepsKeysUnique(SetFilter(sel, id1, v1), id2, v2);
    SetFilterKeepsKeysUnique(sel, id2, v2);
    SetFilterKeepsKeysUnique(SetFilter(sel, id2, v2), id1, v1);
    SameLookupsSameProducts(page, SetFilter(SetFilter(sel, id1, v1), id2, v2),
                            SetFilter(SetFilter(sel, id2, v2), id1, v1), products);
  }

  /** With nothing chosen (as after "Clear all"), a page lists exactly the
      catalogue's products of its category, as the category lookup does. */
  lemma NoSelectionIsCategory(page: CategoryPage, products: seq<Product>)
    requires page.category != "All"
    ensures FilterProducts(page, ClearFilters(), products) == ProductsByCategory(products, page.category)
  {
    forall i | 0 <= i < |products|
      ensures Passes(page, ClearFilters())(products[i]) == InCategory(page.category)(products[i])
    {
    }
    Seqs.FilterAgree(products, Passes(page, ClearFilters()), InCategory(page.category));
  }

  /** A filter id the page does not know changes nothing. */
  lemma UnknownFilterIgnored(page: CategoryPage, sel: Selection, id: string, values: seq<string>,
                             products: seq<Product>)
    requires UniqueKeys(sel)
    requires id != "category" && id != "size" && id != "color" && id != "price"
    ensures FilterProducts(page, SetFilter(sel, id, values), products) == FilterProducts(page, sel, products)
  {
    var sel' := SetFilter(sel, id, values);
    SetFilterKeepsKeysUnique(sel, id, values);
    forall i | 0 <= i < |products|
      ensures Passes(page, sel')(products[i]) == Passes(page, sel)(products[i])
    {
      var x := products[i];
      forall k ensures EntryOk(page, k, Lookup(sel', k), x) == EntryOk(page, k, Lookup(sel, k), x) {
        if k != id {
          assert Lookup(sel', k) == Lookup(sel, k);
        }
      }
      AgreeingFiltersAgree(page, sel', sel, x);
    }
    Seqs.FilterAgree(products, Passes(page, sel'), Passes(page, sel));
  }

  /** The price ranges of the men's and women's pages share their ends: a
      price of 2000 (or 1000) falls in two of them. */
  lemma MensPriceBoundariesOverlap()
    ensures RangeMatches(MensPrices, "₹1000-₹2000", 2000) && RangeMatches(MensPrices, "₹2000-₹5000", 2000)
    ensures RangeMatches(MensPrices, "Under ₹1000", 999) && !RangeMatches(MensPrices, "Under ₹1000", 1000)
    ensures !RangeMatches(MensPrices, "Above ₹5000", 5000)
  {
  }

  /** On the kids' page a price of 1000 falls in two ranges. */
  lemma KidsPriceBoundariesOverlap()
    ensures RangeMatches(KidsPrices, "₹500-₹1000", 1000) && RangeMatches(KidsPrices, "₹1000-₹2000", 1000)
    ensures !RangeMatches(KidsPrices, "Above ₹2000", 2000)
  {
  }

  /** Every price falls in some range of each page. */
  lemma PriceRangesCoverEveryPrice(price: int)
    ensures exists i :: 0 <= i < |MensPrices| && RangeMatches(MensPrices, MensPrices[i].title, price)
    ensures exists i :: 0 <= i < |KidsPrices| && RangeMatches(KidsPrices, KidsPrices[i].title, price)
  {
    if price < 1000 { assert RangeMatches(MensPrices, MensPrices[0].title, price); }
    else if price <= 2000 { assert RangeMatches(MensPrices, MensPrices[1].title, price); }
    else if price <= 5000 { assert RangeMatches(MensPrices, MensPrices[2].title, price); }
    else { assert RangeMatches(MensPrices, MensPrices[3].title, price); }
    if price < 500 { assert RangeMatches(KidsPrices, KidsPrices[0].title, price); }
    else if price <= 1000 { assert RangeMatches(KidsPrices, KidsPrices[1].title, price); }
    else if price <= 2000 { assert RangeMatches(KidsPrices, KidsPrices[2].title, price); }
    else { assert RangeMatches(KidsPrices, KidsPrices[3].title, price); }
  }

  /** A product converted from the bundled data has no subcategory and no
      colour, so any chosen subcategory or colour hides it; so does any
      chosen size when the data gave it no sizes. */
  lemma ConvertedProductsHiddenByFacets(page: CategoryPage, raw: RawProduct, values: seq<string>)
    requires |values| > 0
    ensures !EntryOk(page, "category", values, ConvertToProduct(raw))
    ensures !EntryOk(page, "color", values, ConvertToProduct(raw))
    ensures raw.sizes.None? ==> !EntryOk(page, "size", values, ConvertToProduct(raw))
  {
  }

  /** Ticking an option and unticking it again brings back the listing
      the page showed before. */
  lemma ToggleTwiceRestoresListing(page: CategoryPage, sel: Selection, id: string, option: string,
                                   products: seq<Product>)
    requires UniqueKeys(sel) && !ProductFilters.IsSelected(sel, id, option)
    ensures var twice := ProductFilters.Toggle(ProductFilters.Toggle(sel, id, option), id, option);
            FilterProducts(page, twice, products) == FilterProducts(page, sel, products)
  {
    var once := ProductFilters.Toggle(sel, id, option);
    ProductFilters.ToggleKeepsKeysUnique(sel, id, option);
    ProductFilters.ToggleKeepsKeysUnique(once, id, option);
    ProductFilters.ToggleTwiceRestores(sel, id, option);
    SameLookupsSameProducts(page, ProductFilters.Toggle(once, id, option), sel, products);
  }
}

=== FILE: checkout_flow.dfy ===
/** The checkout page: its entry guards, the step handler `handleStepComplete`
    and the life of one checkout visit as a sequence of user events.

    The address and payment selections are the page's own state: an address
    is chosen by its id (the address section reports '' when the selected
    address is deleted), a payment method by its id. Only the section of the
    current step is rendered, so only its events can happen; the "Place
    Order" button is disabled while an order is being created. Creating the
    order is a call into the order service whose outcome is the `accepted`
    flag of the `Settle` event. */
module CheckoutFlow {
  import opened Optional
  import opened CartStore
  import opened CheckoutProgress

  /** Where opening the checkout page leads. */
  datatype Entry = RedirectToLogin | RedirectToCart | ShowCheckout

  /** The guards at the top of the page: a signed-out visitor goes to the
      login page (checked first), an empty cart to the cart page. */
  function Enter(signedIn: bool, items: seq<CartItem>): (e: Entry)
    ensures e == RedirectToLogin <==> !signedIn
    ensures e == RedirectToCart <==> signedIn && |items| == 0
    ensures e == ShowCheckout <==> signedIn && |items| > 0
  {
    if !signedIn then RedirectToLogin
    else if |items| == 0 then RedirectToCart
    else ShowCheckout
  }

  /** The record handed to the order service. */
  datatype Order = Order(
    uid: string,
    items: seq<CartItem>,
    total: int,
    shipping: int,
    tax: real,
    grandTotal: real,
    status: string,
    paymentMethod: string,
    shippingAddress: Option<string>)

  /** The page state: the current step, the selections, and whether an
      order is being created. */
  datatype Session = Session(step: Step, address: Option<string>, payment: Option<string>, processing: bool)

  const Initial: Session := Session(AddressStep, None, None, false)

  datatype Notice = SelectAddressNotice | SelectPaymentNotice | SomethingWentWrong | OrderFailed

  function Message(n: Notice): string {
    match n
    case SelectAddressNotice => "Please select an address"
    case SelectPaymentNotice => "Please select a payment method"
    case SomethingWentWrong => "Something went wrong. Please try again."
    case OrderFailed => "Failed to place order. Please try again."
  }

  /** What one call of the step handler does before it waits on the order
      service: the new page state, an error notice, and the order it asks
      the service to create. */
  datatype Completion = Completion(session: Session, notice: Option<Notice>, request: Option<Order>)

  /** The order placed for `cart` by user `uid` with the current
      selections: status 'pending', free shipping, 18% tax. */
  predicate IsOrderFor(o: Order, uid: string, cart: seq<CartItem>, address: Option<string>, payment: string) {
    && o.uid == uid && o.items == cart
    && o.total == Subtotal(cart) && o.shipping == 0
    && o.tax == Subtotal(cart) as real * 0.18
    && o.grandTotal == Subtotal(cart) as real * 1.18
    && o.status == "pending"
    && o.paymentMethod == payment && o.shippingAddress == address
  }

  /** `handleStepComplete(step)`. The address step moves on to payment only
      with an address chosen, the payment step to review only with a method
      chosen; the review step asks for the order when a method is chosen and
      otherwise fails with the generic notice. No step moves to 'confirm'.
      The selections are never changed, and the processing flag is set
      exactly while an order is requested. */
  function CompleteStep(s: Session, step: Step, cart: seq<CartItem>, uid: string): (c: Completion)
    ensures c.session.address == s.address && c.session.payment == s.payment
    ensures c.session.processing <==> c.request.Some?
    ensures c.request.Some? <==> step == ReviewStep && Present(s.payment)
    ensures c.request.Some? ==> IsOrderFor(c.request.value, uid, cart, s.address, s.payment.value)
    ensures c.session.step == PaymentStep && s.step != PaymentStep <==>
              step == AddressStep && Present(s.address) && s.step != PaymentStep
    ensures c.session.step == ReviewStep && s.step != ReviewStep <==>
              step == PaymentStep && Present(s.payment) && s.step != ReviewStep
    ensures c.session.step != s.step ==> c.session.step in {PaymentStep, ReviewStep}
    ensures c.notice == Some(SelectAddressNotice) <==> step == AddressStep && !Present(s.address)
    ensures c.notice == Some(SelectPaymentNotice) <==> step == PaymentStep && !Present(s.payment)
    ensures c.notice == Some(SomethingWentWrong) <==> step == ReviewStep && !Present(s.payment)
    ensures c.notice != Some(OrderFailed)
  {
    match step
    case AddressStep =>
      if !Present(s.address) then Completion(s.(processing := false), Some(SelectAddressNotice), None)
      else Completion(s.(step := PaymentStep, processing := false), None, None)
    case PaymentStep =>
      if !Present(s.payment) then Completion(s.(processing := false), Some(SelectPaymentNotice), None)
      else Completion(s.(step := ReviewStep, processing := false), None, None)
    case ReviewStep =>
      if !Present(s.payment) then Completion(s.(processing := false), Some(SomethingWentWrong), None)
      else
        var total := Subtotal(cart);
        var tax := total as real * 0.18;
        var order := Order(uid, cart, total, 0, tax, total as real + 0 as real + tax,
                           "pending", s.payment.value, s.address);
        Completion(s.(processing := true), None, Some(order))
    case ConfirmStep =>
      Completion(s.(processing := false), None, None)
  }

  /** What happens when the order service answers. */
  datatype Settlement = Settlement(session: Session, cart: seq<CartItem>, notice: Option<Notice>, toSuccessPage: bool)

  /** On success the cart is cleared and the page moves to the success page;
      on failure the cart stays and a notice is shown. Either way processing
      ends. */
  function SettleOrder(s: Session, cart: seq<CartItem>, accepted: bool): (r: Settlement)
    ensures !r.session.processing
    ensures r.session.step == s.step && r.session.address == s.address && r.session.payment == s.payment
    ensures r.toSuccessPage <==> accepted
    ensures accepted ==> r.cart == [] && r.notice.None?
    ensures !accepted ==> r.cart == cart && r.notice == Some(OrderFailed)
  {
    if accepted then Settlement(s.(processing := false), ClearCart(cart), None, true)
    else Settlement(s.(processing := false), cart, Some(OrderFailed), false)
  }

  /** One checkout visit: the page state, the cart, the order waiting for
      the service, the orders the service accepted, and whether the page
      has moved on to the success page. */
  datatype Visit = Visit(session: Session, cart: seq<CartItem>, pending: Option<Order>, placed: seq<Order>, left: bool)

  /** A visit opens on the address step with nothing chosen, nothing
      pending or placed, and the cart as it is. */
  function Start(cart: seq<CartItem>): (v: Visit)
    ensures v.session.step == AddressStep && v.session.address.None? && v.session.payment.None?
    ensures !v.session.processing && v.pending.None? && v.placed == [] && !v.left && v.cart == cart
  {
    Visit(Initial, cart, None, [], false)
  }

  /** The user events of the page. */
  datatype Event =
    | PickAddress(id: string)
    | PickPayment(methodId: string)
    | Complete(step: Step)
    | Settle(accepted: bool)

  /** The step whose section holds an event's control; the service's
      answer has no control on the page. */
  function EventStep(e: Event): Option<Step> {
    match e
    case PickAddress(_) => Some(AddressStep)
    case PickPayment(_) => Some(PaymentStep)
    case Complete(step) => Some(step)
    case Settle(_) => None
  }

  /** The event can happen: its control is on screen and enabled. Only the
      section of the current step is shown, and all its controls work,
      except "Place Order" while an order is being created; the service
      answers only while an order is pending; nothing happens once the page
      has left. */
  function Enabled(v: Visit, e: Event): (b: bool)
    ensures b ==> !v.left
    ensures EventStep(e).Some? ==>
              (b <==> !v.left && EventStep(e) == Some(v.session.step)
                      && !(e == Complete(ReviewStep) && v.session.processing))
    ensures e.Settle? ==> (b <==> !v.left && v.pending.Some?)
  {
    !v.left &&
    match e
    case PickAddress(_) => v.session.step == AddressStep
    case PickPayment(_) => v.session.step == PaymentStep
    case Complete(step) => step == v.session.step && !(step == ReviewStep && v.session.processing)
    case Settle(_) => v.pending.Some?
  }

  /** The effect of one event; an event that cannot happen changes nothing.
      Picking records the choice and nothing else; completing a step leaves
      the cart and the placed orders alone and makes an order pending
      exactly on the review step with a method chosen; the service's answer
      ends the pending order, places it only when accepted, and leaves the
      page exactly then. */
  function Apply(v: Visit, e: Event, uid: string): (w: Visit)
    ensures !Enabled(v, e) ==> w == v
    ensures !e.Settle? ==> w.cart == v.cart && w.placed == v.placed && w.left == v.left
    ensures Enabled(v, e) && e.PickAddress? ==>
              w == v.(session := v.session.(address := Some(e.id)))
    ensures Enabled(v, e) && e.PickPayment? ==>
              w == v.(session := v.session.(payment := Some(e.methodId)))
    ensures Enabled(v, e) && e.Complete? ==>
              (w.pending.Some? <==> e.step == ReviewStep && Present(v.session.payment))
    ensures Enabled(v, e) && e.Settle? ==>
              && w.pending.None? && !w.session.processing && (w.left <==> e.accepted)
              && w.placed == (if e.accepted then v.placed + [v.pending.value] else v.placed)
  {
    if !Enabled(v, e) then v
    else match e
      case PickAddress(id) => v.(session := v.session.(address := Some(id)))
      case PickPayment(m) => v.(session := v.session.(payment := Some(m)))
      case Complete(step) =>
        var c := CompleteStep(v.session, step, v.cart, uid);
        v.(session := c.session, pending := c.request)
      case Settle(accepted) =>
        var r := SettleOrder(v.session, v.cart, accepted);
        v.(session := r.session, cart := r.cart, pending := None,
           placed := if accepted then v.placed + [v.pending.value] else v.placed,
           left := r.toSuccessPage)
  }

  /** A sequence of events, one after the other. Orders once placed stay
      placed, and after the page has left nothing changes any more. */
  function Run(v: Visit, events: seq<Event>, uid: string): (w: Visit)
    ensures |v.placed| <= |w.placed| && w.placed[..|v.placed|] == v.placed
    ensures v.left ==> w == v
    decreases |events|
  {
    if |events| == 0 then v else Run(Apply(v, events[0], uid), events[1..], uid)
  }

  /** What holds throughout a visit that started with cart `cart0`. The step
      is never 'confirm'; payment is reached only with an address chosen and
      review only with both selections; an order is pending exactly while
      processing, and only on the review step; at most one order is ever
      placed, it is placed exactly when the page has left for the success
      page, and it is the order for the cart the visit started with; the
      cart is untouched until then and empty afterwards. */
  ghost predicate Invariant(v: Visit, cart0: seq<CartItem>, uid: string) {
    && v.session.step != ConfirmStep
    && (v.session.step == PaymentStep ==> Present(v.session.address))
    && (v.session.step == ReviewStep ==> Present(v.session.address) && Present(v.session.payment))
    && (v.session.processing <==> v.pending.Some?)
    && (v.session.processing ==> v.session.step == ReviewStep && !v.left)
    && (v.pending.Some? ==> IsOrderFor(v.pending.value, uid, cart0, v.session.address, v.session.payment.value))
    && |v.placed| <= 1
    && (|v.placed| == 1 <==> v.left)
    && (|v.placed| == 1 ==> exists a, m :: IsOrderFor(v.placed[0], uid, cart0, a, m) && Present(a) && m != "")
    && (v.left ==> v.cart == [])
    && (!v.left ==> v.cart == cart0)
  }

  lemma StartSatisfiesInvariant(cart0: seq<CartItem>, uid: string)
    ensures Invariant(Start(cart0), cart0, uid)
  {
  }

  /** Every event keeps the invariant, and the step never moves backwards. */
  lemma ApplyKeepsInvariant(v: Visit, e: Event, cart0: seq<CartItem>, uid: string)
    requires Invariant(v, cart0, uid)
    ensures Invariant(Apply(v, e, uid), cart0, uid)
    ensures CurrentIndex(Apply(v, e, uid).session.step) >= CurrentIndex(v.session.step)
  {
    if Enabled(v, e) && e.Settle? && e.accepted {
      var o := v.pending.value;
      var w := Apply(v, e, uid);
      assert w.placed == [o];
      assert IsOrderFor(w.placed[0], uid, cart0, v.session.address, v.session.payment.value);
    }
  }

  /** The invariant holds after any sequence of events of a visit. */
  lemma {:induction false} RunKeepsInvariant(v: Visit, events: seq<Event>, cart0: seq<CartItem>, uid: string)
    requires Invariant(v, cart0, uid)
    ensures Invariant(Run(v, events, uid), cart0, uid)
    decreases |events|
  {
    if |events| > 0 {
      ApplyKeepsInvariant(v, events[0], cart0, uid);
      RunKeepsInvariant(Apply(v, events[0], uid), events[1..], cart0, uid);
    }
  }

  /** Whatever the user does, a visit places at most one order, and only the
      order for the cart it started with, after which the cart is empty. */
  lemma AtMostOneOrder(cart0: seq<CartItem>, events: seq<Event>, uid: string)
    ensures |Run(Start(cart0), events, uid).placed| <= 1
    ensures Run(Start(cart0), events, uid).left ==> Run(Start(cart0), events, uid).cart == []
    ensures forall o :: o in Run(Start(cart0), events, uid).placed ==>
              o.items == cart0 && o.status == "pending" && o.grandTotal == Subtotal(cart0) as real * 1.18
  {
    StartSatisfiesInvariant(cart0, uid);
    RunKeepsInvariant(Start(cart0), events, cart0, uid);
  }

  /** The happy path: choose an address, continue, choose a method,
      continue, place the order, and the service accepts it. */
  lemma HappyPath(cart0: seq<CartItem>, uid: string)
    ensures var v := Run(Start(cart0), [PickAddress("a1"), Complete(AddressStep), PickPayment("card"),
                                        Complete(PaymentStep), Complete(ReviewStep), Settle(true)], uid);
            && v.left && v.cart == [] && |v.placed| == 1
            && IsOrderFor(v.placed[0], uid, cart0, Some("a1"), "card")
  {
  }
}

=== FILE: checkout_progress.dfy ===
/** The checkout steps and the progress bar drawn above the checkout page:
    each of the four steps is drawn completed, current or upcoming, from the
    position of the current step in the fixed step list. */
module CheckoutProgress {
  import Seqs

  datatype Step = AddressStep | PaymentStep | ReviewStep | ConfirmStep

  /** The steps in the order the bar draws them. */
  const Steps: seq<Step> := [AddressStep, PaymentStep, ReviewStep, ConfirmStep]

  function Label(s: Step): string {
    match s
    case AddressStep => "Address"
    case PaymentStep => "Payment"
    case ReviewStep => "Review"
    case ConfirmStep => "Confirm"
  }

  function IsStep(current: Step): Step -> bool {
    (s: Step) => s == current
  }

  /** `getCurrentStepIndex`: the position of the current step in `Steps`. */
  function CurrentIndex(current: Step): (i: int)
    ensures 0 <= i < |Steps| && Steps[i] == current
  {
    Seqs.FindFirst(Steps, IsStep(current))
  }

  /** The marker of one step: a check mark, or its 1-based number. */
  datatype Marker = CheckMark | Number(n: int)

  datatype Badge = Badge(title: string, completed: bool, current: bool, marker: Marker)

  /** The badge drawn for the step at position `index`. */
  function BadgeAt(current: Step, index: int): (b: Badge)
    requires 0 <= index < |Steps|
    ensures b.title == Label(Steps[index])
    ensures b.completed <==> index < CurrentIndex(current)
    ensures b.current <==> Steps[index] == current
    ensures b.marker == CheckMark <==> b.completed
    ensures !b.completed ==> b.marker == Number(index + 1)
  {
    var ci := CurrentIndex(current);
    var completed := index < ci;
    Badge(Label(Steps[index]), completed, index == ci, if completed then CheckMark else Number(index + 1))
  }

  /** The whole bar. */
  function Bar(current: Step): (bar: seq<Badge>)
    ensures |bar| == |Steps|
    ensures forall i :: 0 <= i < |Steps| ==> bar[i] == BadgeAt(current, i)
  {
    seq(|Steps|, i requires 0 <= i < |Steps| => BadgeAt(current, i))
  }

  /** Exactly one badge is current, and no badge is both completed and
      current; the completed badges are exactly those before the current
      one. */
  lemma ExactlyOneCurrent(current: Step, i: int, j: int)
    requires 0 <= i < |Steps| && 0 <= j < |Steps|
    requires Bar(current)[i].current && Bar(current)[j].current
    ensures i == j
    ensures !Bar(current)[i].completed
    ensures forall k :: 0 <= k < |Steps| ==> (Bar(current)[k].completed <==> k < i)
  {
  }

  /** Some badge is always current. */
  lemma SomeBadgeCurrent(current: Step)
    ensures exists i :: 0 <= i < |Steps| && Bar(current)[i].current
  {
    assert Bar(current)[CurrentIndex(current)].current;
  }
}

=== FILE: filter_selection.dfy ===
/** The filter selection of a category page, a record from filter id to the
    option values chosen under it. A JavaScript object keeps its keys in
    insertion order and `Object.entries` walks them in that order, so the
    record is an entry list with distinct keys: setting an existing key
    replaces its values in place, a new key goes to the end. */
module FilterSelection {

  datatype FilterEntry = FilterEntry(id: string, values: seq<string>)

  type Selection = seq<FilterEntry>

  ghost predicate UniqueKeys(sel: Selection) {
    forall i, j :: 0 <= i < |sel| && 0 <= j < |sel| && sel[i].id == sel[j].id ==> i == j
  }

  predicate HasKey(sel: Selection, id: string) {
    exists i :: 0 <= i < |sel| && sel[i].id == id
  }

  /** `selectedFilters[id] || []`: the values under `id`, none when absent. */
  function Lookup(sel: Selection, id: string): (vs: seq<string>)
    ensures !HasKey(sel, id) ==> vs == []
    decreases |sel|
  {
    if |sel| == 0 then []
    else if sel[0].id == id then sel[0].values
    else
      assert HasKey(sel[1..], id) ==> HasKey(sel, id) by {
        if HasKey(sel[1..], id) {
          var i :| 0 <= i < |sel[1..]| && sel[1..][i].id == id;
          assert sel[i + 1].id == id;
        }
      }
      Lookup(sel[1..], id)
  }

  /** `handleFilterChange(id, values)`: the record with `id` set to
      `values`, every other key untouched; an existing key keeps its place,
      a new one is added at the end. */
  function SetFilter(sel: Selection, id: string, values: seq<string>): (r: Selection)
    ensures Lookup(r, id) == values
    ensures forall k :: k != id ==> Lookup(r, k) == Lookup(sel, k)
    ensures HasKey(sel, id) ==> |r| == |sel| && forall i :: 0 <= i < |sel| ==> r[i].id == sel[i].id
    ensures !HasKey(sel, id) ==> r == sel + [FilterEntry(id, values)]
    decreases |sel|
  {
    if |sel| == 0 then [FilterEntry(id, values)]
    else if sel[0].id == id then
      [FilterEntry(id, values)] + sel[1..]
    else
      var rest := SetFilter(sel[1..], id, values);
      assert sel == [sel[0]] + sel[1..];
      assert ([sel[0]] + rest)[1..] == rest;
      assert HasKey(sel, id) ==> HasKey(sel[1..], id) by {
        if HasKey(sel, id) {
          var i :| 0 <= i < |sel| && sel[i].id == id;
          assert sel[1..][i - 1].id == id;
        }
      }
      [sel[0]] + rest
  }

  /** `clearFilters`: the empty record. */
  function ClearFilters(): (r: Selection)
    ensures forall k :: Lookup(r, k) == []
    ensures UniqueKeys(r)
  {
    []
  }

  /** Setting a filter keeps the keys distinct. */
  lemma SetFilterKeepsKeysUnique(sel: Selection, id: string, values: seq<string>)
    requires UniqueKeys(sel)
    ensures UniqueKeys(SetFilter(sel, id, values))
  {
  }

  /** Under distinct keys, an entry's values are what `Lookup` returns for
      its key. */
  lemma {:induction false} LookupFindsEntry(sel: Selection, i: int)
    requires UniqueKeys(sel) && 0 <= i < |sel|
    ensures Lookup(sel, sel[i].id) == sel[i].values
    decreases |sel|
  {
    if i > 0 {
      assert sel[0].id != sel[i].id;
      assert UniqueKeys(sel[1..]) by {
        forall a, b | 0 <= a < |sel| - 1 && 0 <= b < |sel| - 1 && sel[1..][a].id == sel[1..][b].id
          ensures a == b
        {
          assert sel[a + 1].id == sel[b + 1].id;
        }
      }
      LookupFindsEntry(sel[1..], i - 1);
    }
  }
}

=== FILE: image_uploader.dfy ===
/** The media uploader of the product form: a batch of picked files is
    checked against the file limit and the accepted types, turned into
    media entries and reported to the form; an entry can be removed again.
    Each picked file arrives with the preview url and the random id the
    browser would make for it. */
module ImageUploader {
  import opened Optional
  import opened Text
  import opened Catalog
  import Seqs

  const DefaultMaxFiles: nat := 5

  /** A picked file: its MIME type, and the preview url and id generated
      for it. */
  datatype PickedFile = PickedFile(fileType: string, preview: string, id: string)

  datatype MediaFile = MediaFile(id: string, kind: MediaKind, preview: string)

  datatype UploaderState = UploaderState(files: seq<MediaFile>, uploading: bool)

  /** The outcome of a pick: the new state, the url list reported to the
      form (if any), and the error toast (if any). */
  datatype Upload = Upload(state: UploaderState, reported: Option<seq<string>>, error: Option<string>)

  predicate IsAccepted(f: PickedFile) {
    StartsWith(f.fileType, "image/") || StartsWith(f.fileType, "video/")
  }

  /** The digit character of `d`. */
  function DigitChar(d: int): (c: char)
    requires 0 <= d < 10
    ensures IsDigit(c) && DigitValue(c) == d
  {
    (48 + d) as char
  }

  function DigitValue(c: char): int
    requires IsDigit(c)
  {
    c as int - '0' as int
  }

  /** The number a string of decimal digits denotes. */
  function DecimalValue(s: string): nat
    requires AllDigits(s)
    decreases |s|
  {
    if |s| == 0 then 0
    else
      assert AllDigits(s[..|s| - 1]) by {
        assert forall i :: 0 <= i < |s| - 1 ==> s[..|s| - 1][i] == s[i];
      }
      DecimalValue(s[..|s| - 1]) * 10 + DigitValue(s[|s| - 1])
  }

  /** The decimal numeral of `n`, as a template literal prints it: digits
      only, denoting `n`, with no leading zero. */
  function NatToString(n: nat): (s: string)
    ensures |s| > 0 && AllDigits(s)
    ensures DecimalValue(s) == n
    ensures |s| > 1 ==> s[0] != '0'
    decreases n
  {
    if n < 10 then [DigitChar(n)]
    else
      var head := NatToString(n / 10);
      var s := head + [DigitChar(n % 10)];
      assert s[..|s| - 1] == head;
      assert head[0] != '0' by {
        if |head| == 1 {
          assert head == [DigitChar(n / 10)];
        }
      }
      s
  }

  function LimitMessage(maxFiles: nat): string {
    "You can only upload up to " + NatToString(maxFiles) + " files"
  }

  const InvalidTypeMessage: string := "Invalid file type. Please upload images or videos only."

  /** The media entry made for an accepted file. */
  function ToMedia(f: PickedFile): (m: MediaFile)
    ensures m.id == f.id && m.preview == f.preview
    ensures m.kind == ImageMedia <==> StartsWith(f.fileType, "image/")
  {
    MediaFile(f.id, if StartsWith(f.fileType, "image/") then ImageMedia else VideoMedia, f.preview)
  }

  function Previews(files: seq<MediaFile>): (r: seq<string>)
    ensures |r| == |files| && forall i :: 0 <= i < |files| ==> r[i] == files[i].preview
  {
    seq(|files|, i requires 0 <= i < |files| => files[i].preview)
  }

  /** `handleFileChange`. An empty pick does nothing; a pick that would
      take the entries past `maxFiles` is refused with a toast; a pick
      holding any file that is neither an image nor a video is refused as
      a whole; otherwise every file becomes an entry, and the form is told
      its current urls followed by the new previews. */
  function HandleFileChange(st: UploaderState, currentMedia: seq<string>, picked: seq<PickedFile>,
                            maxFiles: nat): (r: Upload)
    ensures |picked| == 0 ==> r == Upload(st, None, None)
    ensures |picked| > 0 && |st.files| + |picked| > maxFiles ==> r == Upload(st, None, Some(LimitMessage(maxFiles)))
    ensures |picked| > 0 && |st.files| + |picked| <= maxFiles && (exists i :: 0 <= i < |picked| && !IsAccepted(picked[i])) ==>
              r == Upload(st.(uploading := false), None, Some(InvalidTypeMessage))
    ensures r.reported.Some? <==>
              |picked| > 0 && |st.files| + |picked| <= maxFiles && forall i :: 0 <= i < |picked| ==> IsAccepted(picked[i])
    ensures r.reported.Some? ==>
              && |r.state.files| == |st.files| + |picked| <= maxFiles
              && r.state.files[..|st.files|] == st.files
              && (forall i :: 0 <= i < |picked| ==> r.state.files[|st.files| + i] == ToMedia(picked[i]))
              && r.reported.value == currentMedia + Previews(r.state.files[|st.files|..])
              && r.error.None?
    ensures !r.state.uploading || r.state == st
  {
    if |picked| == 0 then Upload(st, None, None)
    else if |st.files| + |picked| > maxFiles then Upload(st, None, Some(LimitMessage(maxFiles)))
    else if exists i :: 0 <= i < |picked| && !IsAccepted(picked[i]) then
      Upload(st.(uploading := false), None, Some(InvalidTypeMessage))
    else
      var added := seq(|picked|, i requires 0 <= i < |picked| => ToMedia(picked[i]));
      var files := st.files + added;
      assert files[..|st.files|] == st.files && files[|st.files|..] == added;
      Upload(UploaderState(files, false), Some(currentMedia + Previews(added)), None)
  }

  /** The number of entries never passes `maxFiles`. */
  lemma PickKeepsWithinLimit(st: UploaderState, currentMedia: seq<string>, picked: seq<PickedFile>, maxFiles: nat)
    requires |st.files| <= maxFiles
    ensures |HandleFileChange(st, currentMedia, picked, maxFiles).state.files| <= maxFiles
  {
  }

  function NotWithId(id: string): MediaFile -> bool {
    (m: MediaFile) => m.id != id
  }

  datatype Removal = Removal(files: seq<MediaFile>, reported: seq<string>)

  /** `removeMedia`: the entries with that id are dropped, the rest keep
      their order, and the form is told the previews of the remaining
      entries (only those: urls the form held before the uploader's own
      entries are not reported). */
  function RemoveMedia(files: seq<MediaFile>, id: string): (r: Removal)
    ensures Seqs.IsSubseq(r.files, files)
    ensures forall m :: m in r.files <==> m in files && m.id != id
    ensures forall m :: multiset(r.files)[m] == if m.id != id then multiset(files)[m] else 0
    ensures r.reported == Previews(r.files)
  {
    var kept := Seqs.Filter(files, NotWithId(id));
    Removal(kept, Previews(kept))
  }

  /** Removing the entry a one-file pick has just added, under an id no
      other entry has, restores the entries as they were. */
  lemma RemoveUndoesPick(st: UploaderState, currentMedia: seq<string>, f: PickedFile, maxFiles: nat)
    requires |st.files| < maxFiles && IsAccepted(f)
    requires forall i :: 0 <= i < |st.files| ==> st.files[i].id != f.id
    ensures var after := HandleFileChange(st, currentMedia, [f], maxFiles).state.files;
            RemoveMedia(after, f.id).files == st.files
  {
    var after := HandleFileChange(st, currentMedia, [f], maxFiles).state.files;
    assert after == st.files + [ToMedia(f)];
    Seqs.FilterAppend(st.files, [ToMedia(f)], NotWithId(f.id));
    Seqs.FilterAll(st.files, NotWithId(f.id));
    Seqs.FilterStep([ToMedia(f)], NotWithId(f.id));
    assert [ToMedia(f)][1..] == [];
  }
}

=== FILE: lightbox.dfy ===
/** The product lightbox: the list of pictures it cycles through, the
    previous/next buttons, and the "Add to Cart" and "Buy Now" buttons,
    which ask for a size first and for a signed-in user second. */
module Lightbox {
  import opened Optional
  import opened Catalog
  import opened CartStore

  const Placeholder: string := "https://via.placeholder.com/400"

  /** `mediaUrls`: the urls of the product's media when it has any, else
      its image when that is a non-empty string, else the placeholder. */
  function MediaUrls(p: Product): (r: seq<string>)
    ensures |r| > 0
    ensures |p.media| > 0 ==> |r| == |p.media| && forall i :: 0 <= i < |r| ==> r[i] == p.media[i].url
    ensures |p.media| == 0 && Present(p.image) ==> r == [p.image.value]
    ensures |p.media| == 0 && !Present(p.image) ==> r == [Placeholder]
  {
    if |p.media| > 0 then seq(|p.media|, i requires 0 <= i < |p.media| => p.media[i].url)
    else if Present(p.image) then [p.image.value]
    else [Placeholder]
  }

  /** `nextImage`. The index starts at 0 and both buttons keep it
      non-negative, so the remainder is the same under JavaScript's
      truncating `%` and Dafny's. */
  function Next(i: int, n: int): (r: int)
    requires n > 0 && i >= 0
    ensures 0 <= r < n
    ensures i < n - 1 ==> r == i + 1
    ensures i == n - 1 ==> r == 0
  {
    (i + 1) % n
  }

  /** `previousImage`. */
  function Previous(i: int, n: int): (r: int)
    requires n > 0 && i >= 0
    ensures 0 <= r < n
    ensures 0 < i < n ==> r == i - 1
    ensures i == 0 ==> r == n - 1
  {
    (i - 1 + n) % n
  }

  /** On a shown picture, the two buttons undo each other. */
  lemma PreviousUndoesNext(i: int, n: int)
    requires 0 <= i < n
    ensures Previous(Next(i, n), n) == i
    ensures Next(Previous(i, n), n) == i
  {
  }

  /** `k` clicks on "next" from picture `i`. */
  function NextTimes(i: int, n: int, k: nat): (r: int)
    requires n > 0 && i >= 0
    ensures 0 <= r
    decreases k
  {
    if k == 0 then i else Next(NextTimes(i, n, k - 1), n)
  }

  /** Up to `n` clicks on "next" from picture `i` move `k` pictures on,
      wrapping round past the last one. */
  lemma {:induction false} NextTimesWraps(i: int, n: int, k: nat)
    requires 0 <= i < n && k <= n
    ensures NextTimes(i, n, k) == if i + k < n then i + k else i + k - n
    decreases k
  {
    if k > 0 {
      NextTimesWraps(i, n, k - 1);
    }
  }

  /** `n` clicks come back to the picture they started from. */
  lemma FullCycleReturns(i: int, n: int)
    requires 0 <= i < n
    ensures NextTimes(i, n, n) == i
  {
    NextTimesWraps(i, n, n);
  }

  datatype Destination = ToLogin | ToCheckout

  /** What a purchase button does: the cart afterwards, the toast shown,
      where the user is sent, whether the lightbox closes at once, whether
      it closes after the toast's delay, and whether the page's
      `onAddToCart` callback is invoked if the page passed one (the prop is
      optional). */
  datatype Purchase = Purchase(
    cart: seq<CartItem>,
    toast: Option<string>,
    goTo: Option<Destination>,
    closed: bool,
    closesLater: bool,
    notified: bool)

  const SelectSizeMessage: string := "Please select a size"

  /** The line both buttons add: one item of the product in the chosen size. */
  function ChosenLine(p: Product, size: string): CartItem {
    CartItem(p, 1, Some(size))
  }

  /** `handleAddToCart`. With no size chosen only a toast appears; with no
      user the lightbox closes and the login page opens; otherwise one item
      in the chosen size is added, a toast confirms it and the lightbox
      closes after a delay. */
  function AddToCart(p: Product, size: string, signedIn: bool, cart: seq<CartItem>): (r: Purchase)
    ensures size == "" ==> r == Purchase(cart, Some(SelectSizeMessage), None, false, false, false)
    ensures size != "" && !signedIn ==> r == Purchase(cart, None, Some(ToLogin), true, false, false)
    ensures size != "" && signedIn ==>
              && r.cart == AddItem(cart, ChosenLine(p, size))
              && r.toast == Some("Added to cart successfully!") && r.goTo.None?
              && !r.closed && r.closesLater && r.notified
  {
    if size == "" then Purchase(cart, Some(SelectSizeMessage), None, false, false, false)
    else if !signedIn then Purchase(cart, None, Some(ToLogin), true, false, false)
    else Purchase(AddItem(cart, ChosenLine(p, size)), Some("Added to cart successfully!"), None, false, true, true)
  }

  /** `handleBuyNow`: the same two gates, then the item is added, the
      lightbox closes and the checkout page opens. */
  function BuyNow(p: Product, size: string, signedIn: bool, cart: seq<CartItem>): (r: Purchase)
    ensures size == "" ==> r == Purchase(cart, Some(SelectSizeMessage), None, false, false, false)
    ensures size != "" && !signedIn ==> r == Purchase(cart, None, Some(ToLogin), true, false, false)
    ensures size != "" && signedIn ==>
              && r.cart == AddItem(cart, ChosenLine(p, size)) && r.toast.None?
              && r.goTo == Some(ToCheckout) && r.closed && !r.notified
  {
    if size == "" then Purchase(cart, Some(SelectSizeMessage), None, false, false, false)
    else if !signedIn then Purchase(cart, None, Some(ToLogin), true, false, false)
    else Purchase(AddItem(cart, ChosenLine(p, size)), None, Some(ToCheckout), true, false, false)
  }

  /** Both buttons change the cart only with a size and a user, and then
      add exactly one item to the line of that product and size, leaving
      every other line's quantity as it was. */
  lemma PurchaseAddsOneItem(p: Product, size: string, signedIn: bool, cart: seq<CartItem>, key: CartItem)
    ensures AddToCart(p, size, signedIn, cart).cart == BuyNow(p, size, signedIn, cart).cart
    ensures size == "" || !signedIn ==> AddToCart(p, size, signedIn, cart).cart == cart
    ensures size != "" && signedIn ==>
              QuantityOf(AddToCart(p, size, signedIn, cart).cart, key)
              == QuantityOf(cart, key) + (if SameLine(ChosenLine(p, size), key) then 1 else 0)
  {
    if size != "" && signedIn {
      QuantityAfterAdd(cart, ChosenLine(p, size), key);
    }
  }
}

=== FILE: optional.dfy ===
/** Optional values: the model's rendering of TypeScript's `T | null` and
    `T | undefined`, and of JavaScript truthiness on such values. */
module Optional {

  datatype Option<T> = None | Some(value: T) {
    /** `x ?? d`: the value when there is one, else the default. */
    function OrElse(d: T): T {
      if Some? then value else d
    }
  }

  /** Truthiness of a `string | null`: null and '' are both falsy. */
  predicate Present(o: Option<string>) {
    o.Some? && o.value != ""
  }
}

=== FILE: order_totals.dfy ===
/** The order summary panel: per-line amounts, free shipping, 18% GST and
    the grand total. Money is an integer amount; the tax is a `real`, since
    18% of a whole amount need not be whole. */
module OrderTotals {
  import opened CartStore

  /** Shipping is free. */
  const Shipping: int := 0

  /** 18% GST. */
  const TaxRate: real := 0.18

  function Tax(total: int): real {
    total as real * TaxRate
  }

  /** What the summary panel shows. */
  datatype Summary = Summary(lineAmounts: seq<int>, subtotal: int, shipping: int, tax: real, grandTotal: real)

  /** The panel for the given lines and the cart total it is handed. */
  function Summarize(items: seq<CartItem>, total: int): (s: Summary)
    ensures |s.lineAmounts| == |items|
    ensures forall i :: 0 <= i < |items| ==> s.lineAmounts[i] == items[i].product.price * items[i].quantity
    ensures s.subtotal == total && s.shipping == 0
    ensures s.tax == total as real * 18.0 / 100.0
    ensures s.grandTotal == total as real * 1.18
    ensures s.grandTotal == s.subtotal as real + s.shipping as real + s.tax
    ensures total >= 0 ==> s.grandTotal >= total as real && s.tax >= 0.0
  {
    var tax := Tax(total);
    Summary(seq(|items|, i requires 0 <= i < |items| => items[i].Amount()),
            total, Shipping, tax, total as real + Shipping as real + tax)
  }

  function SumOf(xs: seq<int>): int
    decreases |xs|
  {
    if |xs| == 0 then 0 else xs[0] + SumOf(xs[1..])
  }

  /** When the panel is handed the cart's own total, the line amounts it
      lists add up to the subtotal it shows. */
  lemma {:induction false} LineAmountsAddUp(items: seq<CartItem>)
    ensures SumOf(Summarize(items, Subtotal(items)).lineAmounts) == Summarize(items, Subtotal(items)).subtotal
    decreases |items|
  {
    if |items| > 0 {
      LineAmountsAddUp(items[1..]);
      assert Summarize(items, Subtotal(items)).lineAmounts[1..]
             == Summarize(items[1..], Subtotal(items[1..])).lineAmounts;
    }
  }

  /** A subtotal of 3000 gives a grand total of 3540. */
  lemma GrandTotalExample()
    ensures Summarize([], 3000).grandTotal == 3540.0
  {
  }
}

=== FILE: phone.dfy ===
/** Indian mobile numbers: the validator and the formatter shared by the
    address form and the account page. Both look only at the digits of the
    input; the formatter writes the canonical `+91XXXXXXXXXX` form. */
module Phone {
  import opened Text

  /** Ten digits, the first of them 6 to 9: a subscriber number. */
  predicate IsSubscriber(s: string) {
    |s| == 10 && '6' <= s[0] <= '9' && AllDigits(s)
  }

  /** The pattern `^(?:(?:\+|91)?[6-9]\d{9})$`: a subscriber number,
      optionally preceded by `+` or by `91`. */
  predicate MatchesMobilePattern(s: string) {
    || IsSubscriber(s)
    || (|s| == 11 && s[0] == '+' && IsSubscriber(s[1..]))
    || (|s| == 12 && s[..2] == "91" && IsSubscriber(s[2..]))
  }

  /** `validateIndianMobile`: the pattern is tested on the digits alone, so
      the `+` alternative can never match; what is accepted is ten digits
      starting with 6 to 9, or twelve digits `91` followed by such ten. */
  function ValidIndianMobile(phone: string): (b: bool)
    ensures var d := Digits(phone);
            b <==> ((|d| == 10 && '6' <= d[0] <= '9')
                    || (|d| == 12 && d[0] == '9' && d[1] == '1' && '6' <= d[2] <= '9'))
  {
    var d := Digits(phone);
    assert |d| == 11 ==> d[0] != '+';
    MatchesMobilePattern(d)
  }

  /** `formatIndianMobile`: a ten-digit number gets the `+91` prefix, a
      twelve-digit number starting with `91` gets a `+`; anything else is
      returned exactly as typed. */
  function FormatIndianMobile(phone: string): (r: string)
    ensures var d := Digits(phone);
            (|d| == 10 || (|d| == 12 && StartsWith(d, "91"))) ==> r == "+91" + d[|d| - 10..]
    ensures var d := Digits(phone);
            !(|d| == 10 || (|d| == 12 && StartsWith(d, "91"))) ==> r == phone
  {
    var d := Digits(phone);
    if |d| == 10 then "+91" + d
    else if |d| == 12 && StartsWith(d, "91") then
      assert d == "91" + d[2..];
      "+" + d
    else phone
  }

  lemma DigitsOfPrefixed(x: string)
    requires AllDigits(x)
    ensures Digits("+91" + x) == "91" + x
  {
    DigitsAppend("+91", x);
    assert AllDigits("91");
    assert Digits("91") == "91";
    assert ("+91")[1..] == "91";
    assert Digits("+91") == "91";
  }

  /** Formatting is idempotent: a formatted number formats to itself. */
  lemma FormatIdempotent(phone: string)
    ensures FormatIndianMobile(FormatIndianMobile(phone)) == FormatIndianMobile(phone)
  {
    var d := Digits(phone);
    if |d| == 10 || (|d| == 12 && StartsWith(d, "91")) {
      var x := d[|d| - 10..];
      DigitsOfPrefixed(x);
      assert StartsWith("91" + x, "91");
    }
  }

  /** A valid number stays valid once formatted, and its formatted form is
      `+91` followed by its subscriber number. */
  lemma FormatKeepsValidity(phone: string)
    requires ValidIndianMobile(phone)
    ensures var d := Digits(phone);
            FormatIndianMobile(phone) == "+91" + d[|d| - 10..] && IsSubscriber(d[|d| - 10..])
    ensures ValidIndianMobile(FormatIndianMobile(phone))
  {
    var d := Digits(phone);
    var x := d[|d| - 10..];
    assert |d| == 12 ==> StartsWith(d, "91");
    DigitsOfPrefixed(x);
  }

  /** Validity depends only on the digits typed: two inputs with the same
      digits are equally valid, whatever separators they use. */
  lemma ValidityIgnoresFormatting(a: string, b: string)
    requires Digits(a) == Digits(b)
    ensures ValidIndianMobile(a) == ValidIndianMobile(b)
  {
  }

  /** A number starting with 5 is refused. */
  lemma InvalidLeadDigitExample()
    ensures !ValidIndianMobile("5876543210")
  {
    assert AllDigits("5876543210");
  }

  /** Too few digits: returned exactly as typed. */
  lemma FormatShortExample()
    ensures FormatIndianMobile("12345") == "12345"
  {
    assert AllDigits("12345");
  }
}

=== FILE: privacy_settings.dfy ===
/** The privacy switches of the profile page: four named settings, each
    on or off, flipped one at a time. */
module PrivacySettings {

  datatype PrivacySetting = PrivacySetting(id: string, title: string, description: string, enabled: bool)

  const DefaultSettings: seq<PrivacySetting> := [
    PrivacySetting("personalization", "Personalized Recommendations",
                   "Allow us to use your browsing history to show relevant products", true),
    PrivacySetting("analytics", "Analytics & Improvements",
                   "Help us improve our services by sharing usage data", true),
    PrivacySetting("marketing", "Marketing Communications",
                   "Receive personalized marketing communications", false),
    PrivacySetting("thirdParty", "Third-Party Sharing",
                   "Share data with trusted partners for better services", false)]

  /** `handleToggle`: every setting with that id is flipped; the list keeps
      its length, its order and every other setting. */
  function Toggle(settings: seq<PrivacySetting>, id: string): (r: seq<PrivacySetting>)
    ensures |r| == |settings|
    ensures forall i :: 0 <= i < |settings| && settings[i].id == id ==>
              r[i] == settings[i].(enabled := !settings[i].enabled)
    ensures forall i :: 0 <= i < |settings| && settings[i].id != id ==> r[i] == settings[i]
  {
    seq(|settings|, i requires 0 <= i < |settings| =>
      if settings[i].id == id then settings[i].(enabled := !settings[i].enabled) else settings[i])
  }

  /** Flipping the same switch twice restores the settings. */
  lemma ToggleTwiceRestores(settings: seq<PrivacySetting>, id: string)
    ensures Toggle(Toggle(settings, id), id) == settings
  {
  }

  /** An id no setting has changes nothing. */
  lemma UnknownIdIgnored(settings: seq<PrivacySetting>, id: string)
    requires forall i :: 0 <= i < |settings| ==> settings[i].id != id
    ensures Toggle(settings, id) == settings
  {
  }

  /** Flipping two switches gives the same settings in either order. */
  lemma TogglesCommute(settings: seq<PrivacySetting>, a: string, b: string)
    ensures Toggle(Toggle(settings, a), b) == Toggle(Toggle(settings, b), a)
  {
  }

  /** The defaults: personalisation and analytics on, marketing and
      third-party sharing off, and the four ids distinct. */
  lemma DefaultsAsShipped()
    ensures |DefaultSettings| == 4
    ensures DefaultSettings[0].enabled && DefaultSettings[1].enabled
    ensures !DefaultSettings[2].enabled && !DefaultSettings[3].enabled
    ensures forall i, j :: 0 <= i < j < 4 ==> DefaultSettings[i].id != DefaultSettings[j].id
  {
  }
}

=== FILE: product_filters.dfy ===
/** The filter drawer shared by the category pages: the badge counting the
    chosen options, the "Clear all" button, and the option checkboxes, each
    of which adds its option to its filter's values or takes it out. */
module ProductFilters {
  import opened FilterSelection
  import Seqs

  /** `activeFiltersCount`: the number of chosen values over all filters. */
  function ActiveCount(sel: Selection): (n: nat)
    ensures n == 0 <==> forall i :: 0 <= i < |sel| ==> |sel[i].values| == 0
    decreases |sel|
  {
    if |sel| == 0 then 0
    else
      var rest := ActiveCount(sel[1..]);
      assert forall i :: 1 <= i < |sel| ==> sel[i] == sel[1..][i - 1];
      |sel[0].values| + rest
  }

  /** Setting one filter changes the count by the difference in its values. */
  lemma {:induction false} CountAfterSetFilter(sel: Selection, id: string, values: seq<string>)
    ensures ActiveCount(SetFilter(sel, id, values)) == ActiveCount(sel) - |Lookup(sel, id)| + |values|
    decreases |sel|
  {
    if |sel| > 0 && sel[0].id != id {
      CountAfterSetFilter(sel[1..], id, values);
      assert SetFilter(sel, id, values)[1..] == SetFilter(sel[1..], id, values);
    } else if |sel| > 0 {
      assert SetFilter(sel, id, values)[1..] == sel[1..];
    }
  }

  /** The "Clear all" button is shown exactly when some option is chosen. */
  function ClearAllShown(sel: Selection): (b: bool)
    ensures b <==> exists i :: 0 <= i < |sel| && |sel[i].values| > 0
  {
    ActiveCount(sel) > 0
  }

  /** "Clear all": the selection is emptied and the drawer closes. Where
      the button is not shown, nothing happens. */
  datatype Drawer = Drawer(selection: Selection, open: bool)

  function ClearAll(d: Drawer): (r: Drawer)
    ensures ClearAllShown(d.selection) ==> r.selection == ClearFilters() && !r.open
    ensures !ClearAllShown(d.selection) ==> r == d
    ensures ActiveCount(r.selection) == 0
  {
    if ClearAllShown(d.selection) then Drawer(ClearFilters(), false) else d
  }

  /** Whether an option's checkbox is ticked. */
  function IsSelected(sel: Selection, id: string, option: string): bool {
    option in Lookup(sel, id)
  }

  function NotOption(option: string): string -> bool {
    (v: string) => v != option
  }

  /** Clicking an option's checkbox: an unticked option is appended to its
      filter's values, a ticked one is removed from them (every copy of
      it). Either way the checkbox flips and no other filter changes. */
  function Toggle(sel: Selection, id: string, option: string): (r: Selection)
    ensures IsSelected(r, id, option) <==> !IsSelected(sel, id, option)
    ensures forall k :: k != id ==> Lookup(r, k) == Lookup(sel, k)
    ensures !IsSelected(sel, id, option) ==> Lookup(r, id) == Lookup(sel, id) + [option]
    ensures IsSelected(sel, id, option) ==>
              forall v :: v in Lookup(r, id) <==> v in Lookup(sel, id) && v != option
    ensures IsSelected(sel, id, option) ==> Seqs.IsSubseq(Lookup(r, id), Lookup(sel, id))
    ensures IsSelected(sel, id, option) ==>
              forall v :: multiset(Lookup(r, id))[v] == if v != option then multiset(Lookup(sel, id))[v] else 0
  {
    var current := Lookup(sel, id);
    var values := if IsSelected(sel, id, option) then Seqs.Filter(current, NotOption(option))
                  else current + [option];
    SetFilter(sel, id, values)
  }

  /** Ticking adds one to the badge; unticking lowers it. */
  lemma ToggleMovesCount(sel: Selection, id: string, option: string)
    ensures !IsSelected(sel, id, option) ==> ActiveCount(Toggle(sel, id, option)) == ActiveCount(sel) + 1
    ensures IsSelected(sel, id, option) ==> ActiveCount(Toggle(sel, id, option)) < ActiveCount(sel)
  {
    var current := Lookup(sel, id);
    var values := if IsSelected(sel, id, option) then Seqs.Filter(current, NotOption(option))
                  else current + [option];
    CountAfterSetFilter(sel, id, values);
    if IsSelected(sel, id, option) {
      var i :| 0 <= i < |current| && current[i] == option;
      Seqs.FilterDrops(current, NotOption(option), i);
    }
  }

  /** Ticking an unticked option and unticking it again leaves every
      filter with the values it had. */
  lemma ToggleTwiceRestores(sel: Selection, id: string, option: string)
    requires !IsSelected(sel, id, option)
    ensures forall k :: Lookup(Toggle(Toggle(sel, id, option), id, option), k) == Lookup(sel, k)
  {
    var current := Lookup(sel, id);
    Seqs.FilterAppend(current, [option], NotOption(option));
    Seqs.FilterAll(current, NotOption(option));
    assert Seqs.Filter([option], NotOption(option)) == [];
  }

  /** Toggling keeps the filter ids distinct. */
  lemma ToggleKeepsKeysUnique(sel: Selection, id: string, option: string)
    requires UniqueKeys(sel)
    ensures UniqueKeys(Toggle(sel, id, option))
  {
    var current := Lookup(sel, id);
    var values := if IsSelected(sel, id, option) then Seqs.Filter(current, NotOption(option))
                  else current + [option];
    SetFilterKeepsKeysUnique(sel, id, values);
  }
}

=== FILE: product_manager.dfy ===
/** The admin product manager: the search-and-category view over the
    catalogue, and the add, update and delete handlers with their loading
    flag, form visibility and toast message. Whether the catalogue call
    succeeds is a parameter. */
module ProductManager {
  import opened Optional
  import opened Text
  import opened Catalog
  import Seqs

  /** The choices of the category drop-down. */
  const Categories: seq<string> := ["All", "Men", "Women", "Kids", "Watches"]

  /** The lower-cased search term occurs in the lower-cased name or
      description. */
  predicate MatchesSearch(p: Product, term: string) {
    Contains(Lower(p.name), Lower(term)) || Contains(Lower(p.description), Lower(term))
  }

  predicate MatchesCategory(p: Product, category: string) {
    category == "All" || p.category == category
  }

  function Shown(term: string, category: string): Product -> bool {
    (p: Product) => MatchesSearch(p, term) && MatchesCategory(p, category)
  }

  /** `filteredProducts`: the products matching both the search and the
      category, in catalogue order. */
  function FilteredProducts(products: seq<Product>, term: string, category: string): (r: seq<Product>)
    ensures Seqs.IsSubseq(r, products)
    ensures forall p :: p in r <==> p in products && MatchesSearch(p, term) && MatchesCategory(p, category)
    ensures forall p :: multiset(r)[p] ==
              if MatchesSearch(p, term) && MatchesCategory(p, category) then multiset(products)[p] else 0
  {
    Seqs.Filter(products, Shown(term, category))
  }

  /** With an empty search box the view is the category lookup of the
      catalogue: every product for 'All', the category's products
      otherwise. */
  lemma EmptySearchIsCategory(products: seq<Product>, category: string)
    ensures FilteredProducts(products, "", category) == ProductsByCategory(products, category)
  {
    forall i | 0 <= i < |products|
      ensures Shown("", category)(products[i]) == InCategory(category)(products[i])
    {
      ContainsEmpty(Lower(products[i].name));
    }
    Seqs.FilterAgree(products, Shown("", category), InCategory(category));
  }

  lemma LowerIdempotent(s: string)
    ensures Lower(Lower(s)) == Lower(s)
  {
    assert forall i :: 0 <= i < |s| ==> LowerChar(LowerChar(s[i])) == LowerChar(s[i]);
  }

  /** The search ignores the case of the term: typing it in lower case
      shows the same products. */
  lemma SearchIgnoresCase(products: seq<Product>, term: string, category: string)
    ensures FilteredProducts(products, Lower(term), category) == FilteredProducts(products, term, category)
  {
    LowerIdempotent(term);
    forall i | 0 <= i < |products|
      ensures Shown(Lower(term), category)(products[i]) == Shown(term, category)(products[i])
    {
    }
    Seqs.FilterAgree(products, Shown(Lower(term), category), Shown(term, category));
  }

  /** The manager's view: whether the add form is open, the loading flag
      that disables the buttons, and the toast shown, if any. */
  datatype ManagerState = ManagerState(showAddForm: bool, isLoading: bool, toast: Option<string>)

  const InitialManager: ManagerState := ManagerState(false, false, None)

  /** "Add Product" opens the form, unless a call is under way. */
  function OpenAddForm(st: ManagerState): (r: ManagerState)
    ensures !st.isLoading ==> r == st.(showAddForm := true)
    ensures st.isLoading ==> r == st
  {
    if st.isLoading then st else st.(showAddForm := true)
  }

  /** The product `handleAddProduct` hands to the catalogue: the form's
      product with a fresh id, in stock, and always the default sizes,
      whatever sizes the form held. */
  function PrepareNewProduct(p: Product, freshId: string): (r: Product)
    ensures r.id == freshId && r.inStock == Some(true) && r.sizes == Some(DefaultSizes)
    ensures SameDetails(r, p)
  {
    p.(id := freshId, inStock := Some(true), sizes := Some(DefaultSizes))
  }

  /** `handleAddProduct` once the catalogue call has settled: the form
      closes only on success, the toast reports the outcome, and loading
      ends either way. */
  function FinishAdd(st: ManagerState, succeeded: bool): (r: ManagerState)
    ensures !r.isLoading
    ensures succeeded ==> !r.showAddForm && r.toast == Some("Product added successfully")
    ensures !succeeded ==> r.showAddForm == st.showAddForm && r.toast == Some("Failed to add product")
  {
    if succeeded then ManagerState(false, false, Some("Product added successfully"))
    else ManagerState(st.showAddForm, false, Some("Failed to add product"))
  }

  /** The two catalogue calls that leave the add form alone. */
  datatype Change = UpdateChange | DeleteChange

  /** The toast reporting a settled update or delete. */
  function ChangeToast(c: Change, succeeded: bool): string {
    match c
    case UpdateChange => if succeeded then "Product updated successfully" else "Failed to update product"
    case DeleteChange => if succeeded then "Product deleted successfully" else "Failed to delete product"
  }

  /** `handleUpdateProduct` and `handleDeleteProduct` once settled: the
      toast reports the call and its outcome, the form is left as it is,
      and loading ends. */
  function FinishChange(st: ManagerState, c: Change, succeeded: bool): (r: ManagerState)
    ensures !r.isLoading && r.showAddForm == st.showAddForm
    ensures r.toast == Some(ChangeToast(c, succeeded))
  {
    ManagerState(st.showAddForm, false, Some(ChangeToast(c, succeeded)))
  }

  /** The toast after an update or delete tells which call it was and
      whether it succeeded. */
  lemma ToastTellsOutcome(st1: ManagerState, c1: Change, ok1: bool, st2: ManagerState, c2: Change, ok2: bool)
    requires FinishChange(st1, c1, ok1).toast == FinishChange(st2, c2, ok2).toast
    ensures c1 == c2 && ok1 == ok2
  {
  }

  /** Closing the toast hides it and changes nothing else. */
  function CloseToast(st: ManagerState): (r: ManagerState)
    ensures r.toast.None? && r.showAddForm == st.showAddForm && r.isLoading == st.isLoading
  {
    st.(toast := None)
  }

  /** A product added through the manager ends up in the catalogue with
      the catalogue's id, in stock, with the default sizes and otherwise
      the form's details; the list grows by exactly that product. */
  lemma AddThroughManager(products: seq<Product>, p: Product, formId: string, catalogueId: string)
    ensures var m := AddProduct(products, PrepareNewProduct(p, formId), catalogueId);
            && m.products[..|products|] == products && |m.products| == |products| + 1
            && m.products[|products|].id == catalogueId
            && m.products[|products|].inStock == Some(true)
            && m.products[|products|].sizes == Some(DefaultSizes)
            && SameDetails(m.products[|products|], p)
  {
  }
}

=== FILE: reset_password.dfy ===
/** The reset-password page reached from the e-mailed link: the check of
    the link's `oobCode` when the page opens, and the submit handler with
    its three checks before the reset service is called. What the service
    answers is a parameter: `None` for success, or the error code. */
module ResetPassword {
  import opened Optional
  import AuthErrors

  const MinPasswordLength: nat := 6

  const InvalidLinkMessage: string := "Invalid reset link"

  /** The page after the link check: the form shown, or sent back to the
      login page with the toast shown. */
  datatype Opening = ShowForm | BackToLogin(toast: Option<string>)

  /** `verifyCode`: a missing or empty code sends the user to the login page
      with a toast; a code the service rejects does too, with the service's
      own toast; an accepted code shows the form. */
  function OpenPage(oobCode: Option<string>, codeAccepted: bool): (r: Opening)
    ensures r == ShowForm <==> Present(oobCode) && codeAccepted
    ensures !Present(oobCode) ==> r == BackToLogin(Some(InvalidLinkMessage))
    ensures Present(oobCode) && !codeAccepted ==> r == BackToLogin(Some("Invalid or expired reset link"))
  {
    if !Present(oobCode) then BackToLogin(Some(InvalidLinkMessage))
    else if !codeAccepted then BackToLogin(Some("Invalid or expired reset link"))
    else ShowForm
  }

  /** The result of submitting: the reset requested (code and password),
      the toast shown, whether the login page opens after the delay, and
      the submitting flag. */
  datatype ResetOutcome = ResetOutcome(requested: Option<(string, string)>, toast: string, toLoginLater: bool, submitting: bool)

  const ResetDoneMessage: string := "Password reset successful. Please login with your new password."

  /** `handleSubmit`. Differing passwords are refused first, then a
      password under six characters, then a missing code; only then is
      the reset requested. On success the login page opens after a delay;
      on failure the service's message for the error code is shown. */
  function SubmitReset(password: string, confirm: string, oobCode: Option<string>, failure: Option<string>): (r: ResetOutcome)
    ensures r.requested.Some? <==> password == confirm && |password| >= MinPasswordLength && Present(oobCode)
    ensures password != confirm ==> r.toast == "Passwords do not match"
    ensures password == confirm && |password| < MinPasswordLength ==> r.toast == "Password must be at least 6 characters"
    ensures password == confirm && |password| >= MinPasswordLength && !Present(oobCode) ==> r.toast == InvalidLinkMessage
    ensures r.requested.Some? ==> r.requested.value == (oobCode.value, password)
    ensures r.toLoginLater <==> r.requested.Some? && failure.None?
    ensures r.requested.Some? && failure.None? ==> r.toast == ResetDoneMessage
    ensures r.requested.Some? && failure.Some? ==> r.toast == AuthErrors.ResetPasswordErrorMessage(failure.value)
    ensures !r.submitting
  {
    if password != confirm then ResetOutcome(None, "Passwords do not match", false, false)
    else if |password| < MinPasswordLength then ResetOutcome(None, "Password must be at least 6 characters", false, false)
    else if !Present(oobCode) then ResetOutcome(None, InvalidLinkMessage, false, false)
    else if failure.None? then ResetOutcome(Some((oobCode.value, password)), ResetDoneMessage, true, false)
    else ResetOutcome(Some((oobCode.value, password)), AuthErrors.ResetPasswordErrorMessage(failure.value), false, false)
  }

  /** A failed reset never shows the success message: every error code has
      a message of its own or the default one. */
  lemma FailureNeverReportsSuccess(password: string, oobCode: Option<string>, code: string)
    ensures SubmitReset(password, password, oobCode, Some(code)).toast != ResetDoneMessage
    ensures !SubmitReset(password, password, oobCode, Some(code)).toLoginLater
  {
    var m := AuthErrors.ResetPasswordErrorMessage(code);
    if code in AuthErrors.KnownCodes {
      var i :| 0 <= i < |AuthErrors.KnownCodes| && AuthErrors.KnownCodes[i] == code;
      AuthErrors.KnownCodeMessages(i);
    } else {
      AuthErrors.UnknownCodeMessage(code);
    }
  }
}

=== FILE: security_settings.dfy ===
/** The login-and-security section of the profile page: the password form,
    checked before it is sent, and the e-mail form. Whether the account
    service accepts a change is a parameter. */
module SecuritySettings {
  import opened Optional

  const MinPasswordLength: nat := 6

  datatype SecurityForm = SecurityForm(currentPassword: string, newPassword: string, confirmPassword: string, newEmail: string)

  datatype SecurityView = SecurityView(form: SecurityForm, showPasswordForm: bool, showEmailForm: bool, submitting: bool)

  datatype SecurityNotice =
    | PasswordsDiffer | PasswordTooShort | PasswordUpdated | PasswordUpdateFailed
    | EmailUpdated | EmailUpdateFailed

  function SecurityMessage(n: SecurityNotice): string {
    match n
    case PasswordsDiffer => "New passwords do not match"
    case PasswordTooShort => "Password must be at least 6 characters long"
    case PasswordUpdated => "Password updated successfully"
    case PasswordUpdateFailed => "Failed to update password. Please check your current password."
    case EmailUpdated => "Email updated successfully"
    case EmailUpdateFailed => "Failed to update email. Please check your current password."
  }

  /** A request to the account service: the current password and the new
      password or e-mail address. */
  datatype Change = PasswordChange(current: string, password: string) | EmailChange(current: string, email: string)

  datatype SecurityOutcome = SecurityOutcome(view: SecurityView, sent: Option<Change>, notice: SecurityNotice)

  /** The form with its three password fields emptied. */
  function ClearPasswords(f: SecurityForm): SecurityForm {
    f.(currentPassword := "", newPassword := "", confirmPassword := "")
  }

  /** `handlePasswordUpdate`. Differing new passwords are refused first,
      then a new password under six characters; otherwise the change is
      sent, and on success the form closes with its password fields
      emptied (the e-mail field is kept). Submitting ends either way. */
  function UpdatePassword(v: SecurityView, accepted: bool): (r: SecurityOutcome)
    ensures r.sent.Some? <==> v.form.newPassword == v.form.confirmPassword && |v.form.newPassword| >= MinPasswordLength
    ensures v.form.newPassword != v.form.confirmPassword ==> r == SecurityOutcome(v, None, PasswordsDiffer)
    ensures v.form.newPassword == v.form.confirmPassword && |v.form.newPassword| < MinPasswordLength ==>
              r == SecurityOutcome(v, None, PasswordTooShort)
    ensures r.sent.Some? ==> r.sent.value == PasswordChange(v.form.currentPassword, v.form.newPassword)
    ensures r.sent.Some? && accepted ==>
              && r.view.form == ClearPasswords(v.form) && r.view.form.newEmail == v.form.newEmail
              && !r.view.showPasswordForm && r.notice == PasswordUpdated
    ensures r.sent.Some? && !accepted ==>
              r.view == v.(submitting := false) && r.notice == PasswordUpdateFailed
    ensures r.sent.Some? ==> !r.view.submitting && r.view.showEmailForm == v.showEmailForm
  {
    if v.form.newPassword != v.form.confirmPassword then SecurityOutcome(v, None, PasswordsDiffer)
    else if |v.form.newPassword| < MinPasswordLength then SecurityOutcome(v, None, PasswordTooShort)
    else
      var change := Some(PasswordChange(v.form.currentPassword, v.form.newPassword));
      if accepted then
        SecurityOutcome(v.(form := ClearPasswords(v.form), showPasswordForm := false, submitting := false),
                        change, PasswordUpdated)
      else SecurityOutcome(v.(submitting := false), change, PasswordUpdateFailed)
  }

  /** `handleEmailUpdate`: the change is always sent; on success the form
      closes and the current-password and e-mail fields are emptied, the
      new-password fields kept. Submitting ends either way. */
  function UpdateEmail(v: SecurityView, accepted: bool): (r: SecurityOutcome)
    ensures r.sent == Some(EmailChange(v.form.currentPassword, v.form.newEmail))
    ensures accepted ==>
              && r.view.form == v.form.(currentPassword := "", newEmail := "")
              && !r.view.showEmailForm && r.notice == EmailUpdated
    ensures !accepted ==> r.view == v.(submitting := false) && r.notice == EmailUpdateFailed
    ensures !r.view.submitting && r.view.showPasswordForm == v.showPasswordForm
  {
    var change := Some(EmailChange(v.form.currentPassword, v.form.newEmail));
    if accepted then
      SecurityOutcome(v.(form := v.form.(currentPassword := "", newEmail := ""), showEmailForm := false, submitting := false),
                      change, EmailUpdated)
    else SecurityOutcome(v.(submitting := false), change, EmailUpdateFailed)
  }

  /** Cancel on the password form: the form closes with its password
      fields emptied. */
  function CancelPassword(v: SecurityView): (r: SecurityView)
    ensures r.form == ClearPasswords(v.form) && !r.showPasswordForm
    ensures r.showEmailForm == v.showEmailForm && r.submitting == v.submitting
  {
    v.(form := ClearPasswords(v.form), showPasswordForm := false)
  }

  /** A successful password change leaves the form as Cancel would, and
      after it no password is left in the form to send again. */
  lemma SuccessfulUpdateClearsLikeCancel(v: SecurityView)
    requires UpdatePassword(v, true).sent.Some?
    ensures UpdatePassword(v, true).view.form == CancelPassword(v).form
    ensures UpdatePassword(UpdatePassword(v, true).view, true).sent.None?
  {
  }
}

=== FILE: seqs.dfy ===
/** Generic sequence operations that the storefront's list handling is built
    from: JavaScript's `Array.prototype.filter` and `findIndex`, and the
    "order-preserving subsequence" relation their results satisfy. */
module Seqs {

  /** `a` can be obtained from `b` by deleting elements, keeping the order. */
  ghost predicate IsSubseq<T>(a: seq<T>, b: seq<T>)
    decreases |b|
  {
    if |b| == 0 then |a| == 0
    else (|a| > 0 && a[0] == b[0] && IsSubseq(a[1..], b[1..])) || IsSubseq(a, b[1..])
  }

  /** `Array.prototype.filter`: the elements of `s` that satisfy `p`, in order. */
  function Filter<T(!new)>(s: seq<T>, p: T -> bool): (r: seq<T>)
    ensures |r| <= |s|
    ensures IsSubseq(r, s)
    ensures forall x :: x in r <==> x in s && p(x)
    ensures forall x :: multiset(r)[x] == if p(x) then multiset(s)[x] else 0
    decreases |s|
  {
    if |s| == 0 then []
    else
      var rest := Filter(s[1..], p);
      assert s == [s[0]] + s[1..];
      if p(s[0]) then
        assert ([s[0]] + rest)[1..] == rest;
        [s[0]] + rest
      else rest
  }

  /** One step of `Filter`: the first element, if it passes, then the
      filtered rest. */
  lemma FilterStep<T(!new)>(s: seq<T>, p: T -> bool)
    requires |s| > 0
    ensures Filter(s, p) == (if p(s[0]) then [s[0]] else []) + Filter(s[1..], p)
  {
  }

  /** Filtering a concatenation filters each part. */
  lemma {:induction false} FilterAppend<T(!new)>(a: seq<T>, b: seq<T>, p: T -> bool)
    ensures Filter(a + b, p) == Filter(a, p) + Filter(b, p)
    decreases |a|
  {
    if |a| == 0 {
      assert a + b == b;
    } else {
      var head := if p(a[0]) then [a[0]] else [];
      calc {
        Filter(a + b, p);
      == { FilterStep(a + b, p); assert (a + b)[0] == a[0]; }
        head + Filter((a + b)[1..], p);
      == { assert (a + b)[1..] == a[1..] + b; }
        head + Filter(a[1..] + b, p);
      == { FilterAppend(a[1..], b, p); }
        head + (Filter(a[1..], p) + Filter(b, p));
      == { FilterStep(a, p); }
        Filter(a, p) + Filter(b, p);
      }
    }
  }

  /** Two predicates that agree on the elements of `s` select the same elements. */
  lemma {:induction false} FilterAgree<T(!new)>(s: seq<T>, p: T -> bool, q: T -> bool)
    requires forall i :: 0 <= i < |s| ==> p(s[i]) == q(s[i])
    ensures Filter(s, p) == Filter(s, q)
    decreases |s|
  {
    if |s| > 0 {
      FilterAgree(s[1..], p, q);
    }
  }

  /** A filter that every element passes returns its input. */
  lemma {:induction false} FilterAll<T(!new)>(s: seq<T>, p: T -> bool)
    requires forall i :: 0 <= i < |s| ==> p(s[i])
    ensures Filter(s, p) == s
    decreases |s|
  {
    if |s| > 0 {
      FilterAll(s[1..], p);
      FilterStep(s, p);
      assert s == [s[0]] + s[1..];
    }
  }


  /** A filter that rejects some element returns a shorter sequence. */
  lemma {:induction false} FilterDrops<T(!new)>(s: seq<T>, p: T -> bool, i: int)
    requires 0 <= i < |s| && !p(s[i])
    ensures |Filter(s, p)| < |s|
    decreases |s|
  {
    FilterStep(s, p);
    if i > 0 {
      assert s[1..][i - 1] == s[i];
      FilterDrops(s[1..], p, i - 1);
    }
  }

  /** `Array.prototype.findIndex`: the first position whose element satisfies
      `p`, or -1 when there is none. */
  function FindFirst<T>(s: seq<T>, p: T -> bool): (r: int)
    ensures -1 <= r < |s|
    ensures r >= 0 ==> p(s[r]) && forall j :: 0 <= j < r ==> !p(s[j])
    ensures r == -1 <==> forall j :: 0 <= j < |s| ==> !p(s[j])
    decreases |s|
  {
    if |s| == 0 then -1
    else if p(s[0]) then 0
    else
      var k := FindFirst(s[1..], p);
      if k == -1 then -1 else k + 1
  }
}

=== FILE: text.dfy ===
/** Character classes and string helpers shared by the form normalisers and
    validators. Regular-expression character classes are written as
    predicates: `\d` is ASCII `[0-9]` and `\w` is `[A-Za-z0-9_]` (no `u` flag
    is used anywhere), and `\s` is ECMAScript's WhiteSpace and LineTerminator
    set, which is also what `String.prototype.trim` removes. */
module Text {
  import Seqs

  predicate IsDigit(c: char) {
    '0' <= c <= '9'
  }

  predicate IsAsciiLetter(c: char) {
    'a' <= c <= 'z' || 'A' <= c <= 'Z'
  }

  /** `\w` */
  predicate IsWordChar(c: char) {
    IsAsciiLetter(c) || IsDigit(c) || c == '_'
  }

  /** `\s` */
  predicate IsSpace(c: char) {
    || c == '\t' || c == '\n' || c == '\U{000B}' || c == '\U{000C}' || c == '\r'
    || c == ' ' || c == '\U{00A0}' || c == '\U{1680}'
    || ('\U{2000}' <= c <= '\U{200A}')
    || c == '\U{2028}' || c == '\U{2029}' || c == '\U{202F}' || c == '\U{205F}'
    || c == '\U{3000}' || c == '\U{FEFF}'
  }

  predicate AllDigits(s: string) {
    forall i :: 0 <= i < |s| ==> IsDigit(s[i])
  }

  /** Every character is white space (the empty string included). */
  predicate IsBlank(s: string) {
    forall i :: 0 <= i < |s| ==> IsSpace(s[i])
  }

  predicate StartsWith(s: string, prefix: string) {
    |prefix| <= |s| && s[..|prefix|] == prefix
  }

  /** `s.replace(/\D/g, '')`: the digits of `s`, in order. */
  function Digits(s: string): (r: string)
    ensures AllDigits(r)
    ensures |r| <= |s|
    ensures AllDigits(s) ==> r == s
    decreases |s|
  {
    if |s| == 0 then "" else (if IsDigit(s[0]) then [s[0]] else []) + Digits(s[1..])
  }

  /** Digits are taken character by character. */
  lemma {:induction false} DigitsAppend(a: string, b: string)
    ensures Digits(a + b) == Digits(a) + Digits(b)
    decreases |a|
  {
    if |a| > 0 {
      var head := if IsDigit(a[0]) then [a[0]] else [];
      assert (a + b)[0] == a[0];
      assert (a + b)[1..] == a[1..] + b;
      DigitsAppend(a[1..], b);
      calc {
        Digits(a + b);
        head + Digits(a[1..] + b);
        head + (Digits(a[1..]) + Digits(b));
        (head + Digits(a[1..])) + Digits(b);
      }
    } else {
      assert a + b == b;
    }
  }

  /** A character that is not a digit is dropped; `Digits` is a
      subsequence of its input. */
  lemma {:induction false} DigitsIsSubseq(s: string)
    ensures Seqs.IsSubseq(Digits(s), s)
    decreases |s|
  {
    if |s| > 0 {
      DigitsIsSubseq(s[1..]);
      if IsDigit(s[0]) {
        assert Digits(s)[1..] == Digits(s[1..]);
      } else {
        assert Digits(s) == Digits(s[1..]);
      }
    }
  }

  /** Number of leading white-space characters. */
  function LeadingSpaces(s: string): (n: nat)
    ensures n <= |s|
    ensures forall k :: 0 <= k < n ==> IsSpace(s[k])
    ensures n < |s| ==> !IsSpace(s[n])
    decreases |s|
  {
    if |s| > 0 && IsSpace(s[0]) then 1 + LeadingSpaces(s[1..]) else 0
  }

  /** Length of `s` once its trailing white space is dropped. */
  function KeptBeforeTrailingSpaces(s: string): (n: nat)
    ensures n <= |s|
    ensures forall k :: n <= k < |s| ==> IsSpace(s[k])
    ensures n > 0 ==> !IsSpace(s[n - 1])
    decreases |s|
  {
    if |s| > 0 && IsSpace(s[|s| - 1]) then KeptBeforeTrailingSpaces(s[..|s| - 1]) else |s|
  }

  /** `String.prototype.trim`: `s` without its leading and trailing white
      space. The result is a slice of `s` that neither starts nor ends with
      white space, and everything cut away is white space. */
  function Trim(s: string): (r: string)
    ensures |r| <= |s|
    ensures |r| > 0 ==> !IsSpace(r[0]) && !IsSpace(r[|r| - 1])
    ensures exists i :: 0 <= i <= |s| - |r| && s[i..i + |r|] == r
                        && IsBlank(s[..i]) && IsBlank(s[i + |r|..])
  {
    var i := LeadingSpaces(s);
    var t := s[i..];
    var n := KeptBeforeTrailingSpaces(t);
    TrimCut(s, i, n);
    t[..n]
  }

  /** The cuts `Trim` makes: white space before `i`, and white space from
      `n` characters after `i` to the end. */
  lemma TrimCut(s: string, i: nat, n: nat)
    requires i <= |s| && n <= |s| - i
    requires forall k :: 0 <= k < i ==> IsSpace(s[k])
    requires forall k :: n <= k < |s| - i ==> IsSpace(s[i..][k])
    ensures s[i..][..n] == s[i..i + n] && IsBlank(s[..i]) && IsBlank(s[i + n..])
  {
    var tail := s[i + n..];
    forall k | 0 <= k < |tail| ensures IsSpace(tail[k]) {
      assert tail[k] == s[i..][n + k];
    }
  }

  /** `!s.trim()` holds exactly for the all-white-space strings. */
  lemma TrimEmptyIffBlank(s: string)
    ensures Trim(s) == "" <==> IsBlank(s)
  {
  }

  /** ASCII lower-casing of one character. */
  function LowerChar(c: char): (r: char)
    ensures 'A' <= c <= 'Z' ==> 'a' <= r <= 'z' && r as int == c as int + 32
    ensures !('A' <= c <= 'Z') ==> r == c
  {
    if 'A' <= c <= 'Z' then (c as int - 'A' as int + 'a' as int) as char else c
  }

  /** `String.prototype.toLowerCase`, restricted to ASCII letters. */
  function Lower(s: string): (r: string)
    ensures |r| == |s|
    ensures forall i :: 0 <= i < |s| ==> r[i] == LowerChar(s[i])
  {
    seq(|s|, i requires 0 <= i < |s| => LowerChar(s[i]))
  }

  /** `needle` occurs in `haystack` at position `i`. */
  predicate OccursAt(haystack: string, needle: string, i: int) {
    0 <= i && i + |needle| <= |haystack| && haystack[i..i + |needle|] == needle
  }

  /** `haystack.includes(needle)`, written as a left-to-right scan. */
  predicate Contains(haystack: string, needle: string)
    decreases |haystack|
  {
    StartsWith(haystack, needle) || (|haystack| > 0 && Contains(haystack[1..], needle))
  }

  /** The scan agrees with the definition of substring: `needle` occurs
      somewhere in `haystack`. */
  lemma {:induction false} ContainsIffOccurs(haystack: string, needle: string)
    ensures Contains(haystack, needle) <==> exists i :: OccursAt(haystack, needle, i)
    decreases |haystack|
  {
    var h := haystack;
    if StartsWith(h, needle) {
      assert OccursAt(h, needle, 0);
    } else if |h| > 0 {
      ContainsIffOccurs(h[1..], needle);
      if exists i :: OccursAt(h, needle, i) {
        var i :| OccursAt(h, needle, i);
        assert i != 0;
        assert h[1..][i - 1..i - 1 + |needle|] == h[i..i + |needle|];
        assert OccursAt(h[1..], needle, i - 1);
      }
      if exists i :: OccursAt(h[1..], needle, i) {
        var i :| OccursAt(h[1..], needle, i);
        assert h[i + 1..i + 1 + |needle|] == h[1..][i..i + |needle|];
        assert OccursAt(h, needle, i + 1);
      }
    } else {
      assert |needle| > 0;
    }
  }

  /** The empty search term is contained in every string. */
  lemma ContainsEmpty(haystack: string)
    ensures Contains(haystack, "")
  {
  }
}

=== FILE: upi_form.dfy ===
/** The UPI payment form: the UPI-id check, the submit handler, the input
    handler that clears the error, and the payment link shown as a QR code
    for the demo merchant. */
module UpiForm {
  import opened Optional
  import opened Text
  import Seqs

  /** A character allowed before the `@`: `[\w\.\-_]`. */
  predicate IsHandleChar(c: char) {
    IsWordChar(c) || c == '.' || c == '-'
  }

  /** `s` splits at position `i` as the pattern `^[\w\.\-_]{3,}@[a-zA-Z]{3,}$`
      requires: at least three handle characters, the `@`, at least three
      ASCII letters. */
  predicate SplitsAt(s: string, i: int) {
    && 3 <= i < |s| && s[i] == '@' && |s| - i - 1 >= 3
    && (forall k :: 0 <= k < i ==> IsHandleChar(s[k]))
    && (forall k :: i < k < |s| ==> IsAsciiLetter(s[k]))
  }

  /** The pattern, as the regular expression states it. */
  ghost predicate MatchesUpiPattern(s: string) {
    exists i :: SplitsAt(s, i)
  }

  function IsAt(c: char): bool {
    c == '@'
  }

  /** `validateUpiId`, written as a scan: split at the first `@` and check
      both sides. It agrees with the pattern. */
  function ValidUpiId(s: string): (b: bool)
    ensures b <==> MatchesUpiPattern(s)
  {
    var i := Seqs.FindFirst(s, IsAt);
    OnlySplitIsFirstAt(s, i);
    i >= 0 && SplitsAt(s, i)
  }

  lemma OnlySplitIsFirstAt(s: string, i: int)
    requires i == Seqs.FindFirst(s, IsAt)
    ensures MatchesUpiPattern(s) ==> i >= 0 && SplitsAt(s, i)
  {
    if MatchesUpiPattern(s) {
      var j :| SplitsAt(s, j);
      assert !IsHandleChar('@');
      assert IsAt(s[j]);
    }
  }

  /** A valid UPI id has exactly one `@`: no handle character and no letter
      is an `@`. */
  lemma SplitIsUnique(s: string, i: int, k: int)
    requires SplitsAt(s, i)
    requires 0 <= k < |s| && s[k] == '@'
    ensures k == i
  {
    assert !IsHandleChar('@') && !IsAsciiLetter('@');
  }

  /** The form's state: the id typed, the error shown ('' for none) and
      whether the QR tab is open. */
  datatype UpiState = UpiState(upiId: string, error: string, showQr: bool)

  const InitialUpi: UpiState := UpiState("", "", false)

  const InvalidUpiMessage: string := "Please enter a valid UPI ID"

  /** Typing in the id field replaces the id and clears the error. */
  function EditUpiId(st: UpiState, text: string): (r: UpiState)
    ensures r.upiId == text && r.error == "" && r.showQr == st.showQr
  {
    st.(upiId := text, error := "")
  }

  datatype UpiSubmit = UpiSubmit(state: UpiState, submitted: Option<string>)

  /** `handleSubmit`: an invalid id shows the error and hands nothing on;
      a valid id is handed on and the state is left as it is. */
  function SubmitUpi(st: UpiState): (r: UpiSubmit)
    ensures r.submitted.Some? <==> ValidUpiId(st.upiId)
    ensures r.submitted.Some? ==> r.submitted.value == st.upiId && r.state == st
    ensures r.submitted.None? ==> r.state == st.(error := InvalidUpiMessage)
  {
    if !ValidUpiId(st.upiId) then UpiSubmit(st.(error := InvalidUpiMessage), None)
    else UpiSubmit(st, Some(st.upiId))
  }

  /** An error is only ever shown for an id that is not valid. */
  ghost predicate ErrorIsCurrent(st: UpiState) {
    st.error != "" ==> !ValidUpiId(st.upiId)
  }

  lemma EventsKeepErrorCurrent(st: UpiState, text: string, showQr: bool)
    requires ErrorIsCurrent(st)
    ensures ErrorIsCurrent(EditUpiId(st, text))
    ensures ErrorIsCurrent(SubmitUpi(st).state)
    ensures ErrorIsCurrent(st.(showQr := showQr))
  {
  }

  lemma UpiExamples()
    ensures ValidUpiId("john.doe@okaxis")
    ensures !ValidUpiId("jo@upi")
  {
    assert SplitsAt("john.doe@okaxis", 8);
  }

  /** A digit after the `@` is refused. */
  lemma DigitInProviderRefused()
    ensures !ValidUpiId("john@ok1")
  {
    var s := "john@ok1";
    forall i | SplitsAt(s, i)
      ensures i == 4
    {
      SplitIsUnique(s, i, 4);
    }
    assert !IsAsciiLetter(s[7]);
  }

  /** The payment the QR code asks for. */
  datatype UpiPayment = UpiPayment(payeeVpa: string, payeeName: string, transactionNote: string, amount: string)

  /** The demo payment of the form. */
  const DemoPayment: UpiPayment := UpiPayment("merchant@upi", "LUXE Store", "Purchase at LUXE Store", "1000.00")

  predicate IsAscii(s: string) {
    forall i :: 0 <= i < |s| ==> s[i] as int < 128
  }

  /** The characters `encodeURIComponent` leaves as they are. */
  predicate IsUnreserved(c: char) {
    IsAsciiLetter(c) || IsDigit(c) || c in "-_.!~*'()"
  }

  const HexDigits: string := "0123456789ABCDEF"

  /** `encodeURIComponent` for ASCII text: unreserved characters are kept,
      every other character becomes `%` and two upper-case hex digits. */
  function EncodeUriComponent(s: string): (r: string)
    requires IsAscii(s)
    ensures forall i :: 0 <= i < |r| ==> IsUnreserved(r[i]) || r[i] == '%' || r[i] in HexDigits
    decreases |s|
  {
    if |s| == 0 then ""
    else
      var c := s[0];
      var head := if IsUnreserved(c) then [c] else ['%', HexDigits[c as int / 16], HexDigits[c as int % 16]];
      head + EncodeUriComponent(s[1..])
  }

  /** Encoding works character by character: it distributes over
      concatenation, and a single character is kept when unreserved and
      otherwise written as `%` and its two hex digits. */
  lemma {:induction false} EncodeAppend(a: string, b: string)
    requires IsAscii(a) && IsAscii(b)
    ensures IsAscii(a + b)
    ensures EncodeUriComponent(a + b) == EncodeUriComponent(a) + EncodeUriComponent(b)
    decreases |a|
  {
    if |a| == 0 {
      assert a + b == b;
    } else {
      assert (a + b)[1..] == a[1..] + b;
      assert IsAscii(a[1..]) by {
        assert forall i :: 0 <= i < |a| - 1 ==> a[1..][i] == a[i + 1];
      }
      EncodeAppend(a[1..], b);
    }
  }

  lemma EncodeOne(c: char)
    requires c as int < 128
    ensures EncodeUriComponent([c]) ==
              if IsUnreserved(c) then [c] else ['%', HexDigits[c as int / 16], HexDigits[c as int % 16]]
  {
    assert [c][1..] == [];
  }

  /** An encoded component holds no space and none of the characters that
      separate query parameters. */
  lemma EncodedIsQuerySafe(s: string)
    requires IsAscii(s)
    ensures forall i :: 0 <= i < |EncodeUriComponent(s)| ==>
              EncodeUriComponent(s)[i] !in " &=?#"
  {
  }

  /** `generateQRValue`: the UPI payment link `upi://pay?pa=…&pn=…&tn=…&am=…`
      with the payee name and the note encoded. */
  function QrValue(p: UpiPayment): (r: string)
    requires IsAscii(p.payeeName) && IsAscii(p.transactionNote)
    ensures StartsWith(r, "upi://pay?pa=" + p.payeeVpa + "&pn=")
    ensures var tail := "&am=" + p.amount; |r| >= |tail| && r[|r| - |tail|..] == tail
  {
    var head := "upi://pay?pa=" + p.payeeVpa + "&pn=";
    var tail := "&am=" + p.amount;
    var r := head + EncodeUriComponent(p.payeeName) + "&tn=" + EncodeUriComponent(p.transactionNote) + tail;
    assert r[..|head|] == head;
    assert r[|r| - |tail|..] == tail;
    r
  }

  /** How a reader of the link separates its query: the pieces between the
      `&` characters, in order. */
  function SplitAtAmpersands(s: string): (r: seq<string>)
    ensures |r| > 0
    ensures forall i :: 0 <= i < |r| ==> '&' !in r[i]
    ensures '&' !in s ==> r == [s]
    decreases |s|
  {
    if |s| == 0 then [""]
    else
      var rest := SplitAtAmpersands(s[1..]);
      if s[0] == '&' then [""] + rest
      else
        assert s == [s[0]] + s[1..];
        [[s[0]] + rest[0]] + rest[1..]
  }

  /** A piece without `&` followed by `&` is split off whole. */
  lemma {:induction false} SplitOffPiece(a: string, b: string)
    requires '&' !in a
    ensures SplitAtAmpersands(a + "&" + b) == [a] + SplitAtAmpersands(b)
    decreases |a|
  {
    var s := a + "&" + b;
    if |a| == 0 {
      assert s[1..] == b;
    } else {
      assert s[1..] == a[1..] + "&" + b;
      SplitOffPiece(a[1..], b);
      assert [a[0]] + a[1..] == a;
    }
  }

  /** A valid UPI id holds no `&`. */
  lemma ValidIdHasNoAmpersand(vpa: string)
    requires ValidUpiId(vpa)
    ensures '&' !in vpa
  {
    var i :| SplitsAt(vpa, i);
    assert !IsHandleChar('&') && !IsAsciiLetter('&');
  }

  const LinkHead: string := "upi://pay?"

  /** The link's template regrouped as its head and its `&`-joined
      parameters. */
  lemma RegroupLink(vpa: string, name: string, note: string, amount: string)
    ensures "upi://pay?pa=" + vpa + "&pn=" + name + "&tn=" + note + ("&am=" + amount)
            == LinkHead + (("pa=" + vpa) + "&" + (("pn=" + name) + "&" + (("tn=" + note) + "&" + ("am=" + amount))))
  {
    assert "upi://pay?pa=" == LinkHead + "pa=";
    assert "&pn=" == "&" + "pn=" && "&tn=" == "&" + "tn=" && "&am=" == "&" + "am=";
  }

  /** Four pieces without `&`, joined by `&`, split back into the four. */
  lemma SplitFour(a: string, b: string, c: string, d: string)
    requires '&' !in a && '&' !in b && '&' !in c && '&' !in d
    ensures SplitAtAmpersands(a + "&" + (b + "&" + (c + "&" + d))) == [a, b, c, d]
  {
    SplitOffPiece(c, d);
    SplitOffPiece(b, c + "&" + d);
    SplitOffPiece(a, b + "&" + (c + "&" + d));
  }

  /** A parameter `key=value` holds no `&` when neither part does. */
  lemma ParamHasNoAmpersand(key: string, value: string)
    requires '&' !in key && '&' !in value
    ensures '&' !in key + value
  {
  }

  /** The link reads back as its four parameters: for a valid payee id and
      an amount without `&`, splitting the query at `&` gives the payee id,
      the encoded name, the encoded note and the amount, in that order. */
  lemma QrValueReadsBack(p: UpiPayment)
    requires IsAscii(p.payeeName) && IsAscii(p.transactionNote)
    requires ValidUpiId(p.payeeVpa) && '&' !in p.amount
    ensures StartsWith(QrValue(p), LinkHead)
    ensures SplitAtAmpersands(QrValue(p)[|LinkHead|..])
            == ["pa=" + p.payeeVpa, "pn=" + EncodeUriComponent(p.payeeName),
                "tn=" + EncodeUriComponent(p.transactionNote), "am=" + p.amount]
  {
    var name := EncodeUriComponent(p.payeeName);
    var note := EncodeUriComponent(p.transactionNote);
    var pa := "pa=" + p.payeeVpa;
    var pn := "pn=" + name;
    var tn := "tn=" + note;
    var am := "am=" + p.amount;
    ValidIdHasNoAmpersand(p.payeeVpa);
    EncodedIsQuerySafe(p.payeeName);
    EncodedIsQuerySafe(p.transactionNote);
    ParamHasNoAmpersand("pa=", p.payeeVpa);
    ParamHasNoAmpersand("pn=", name);
    ParamHasNoAmpersand("tn=", note);
    ParamHasNoAmpersand("am=", p.amount);
    var query := pa + "&" + (pn + "&" + (tn + "&" + am));
    SplitFour(pa, pn, tn, am);
    RegroupLink(p.payeeVpa, name, note, p.amount);
    assert QrValue(p) == LinkHead + query;
    assert (LinkHead + query)[|LinkHead|..] == query;
  }

  /** The demo payment can be encoded, and its link starts with the demo
      merchant's address. */
  lemma DemoIsAscii()
    ensures IsAscii(DemoPayment.payeeName) && IsAscii(DemoPayment.transactionNote)
  {
  }

  lemma DemoQrValue()
    ensures IsAscii(DemoPayment.payeeName) && IsAscii(DemoPayment.transactionNote)
    ensures StartsWith(QrValue(DemoPayment), "upi://pay?pa=merchant@upi&pn=")
  {
    DemoIsAscii();
    assert "upi://pay?pa=" + DemoPayment.payeeVpa + "&pn=" == "upi://pay?pa=merchant@upi&pn=";
  }
}
